=== FILE: README.md ===
# PinePods client core in Dafny

This project models the logic parts of the PinePods podcast client (a Yew/WebAssembly front end written in Rust) plus one server handler. Each is modelled as pure functions over immutable datatypes, and the properties the code promises are proved about them.

What is modelled:

- **The windowed episode list.** This covers:
  - the responsive row-height table;
  - the window and spacer arithmetic, including the bottom spacer's 32-bit `usize` subtraction;
  - the resize listener;
  - the scroll guard, which publishes at most one offset per animation frame.
- **Drag-to-reorder in the queue.** This covers:
  - auto-scroll near the edges;
  - the bounded walk up the element tree;
  - the pointer-position fallback;
  - the remove-then-insert reorder;
  - the order sent to the server.
- **Shared state reducers:**
  - the download records store;
  - the `AppStateMsg` reducer;
  - the context menu's success reducers;
  - the people-subscription expand map;
  - the Podcast Index matching lists.
- **The saved and history pages' filter-and-sort pipeline.** This covers case-insensitive search, the completion chips, a stable six-way sort and the stored sort preference.
- **Flag-id lists.** The feed and home pages derive completed, saved, queued and downloaded id lists from the episodes they fetch, and render from them.
- **The notification bell:**
  - task filtering and the badge count;
  - dismissals and timed cleanup;
  - status styling;
  - the outside-click handler;
  - the toast queue.
- **Small forms and widgets:**
  - first-administrator validation;
  - the fallback image;
  - the search bar;
  - the long-press hook;
  - the ntfy credential fields.
- **Pure conversions in the request layer:**
  - `bool_from_int`;
  - the `Podcast`/`PodcastExtra` conversions;
  - the websocket URL;
  - the feed-refresh task;
  - the home-overview envelope check;
  - the reorder request.
- **The server's feed handler.** This covers query defaults, the compatibility RSS key and the domain taken from request headers.

Modelling conventions:

- **Integers.** Rust `i32` values are unbounded `int`s. Wrap-around, truncating division and `parse::<i32>` are written out where the code depends on them (`Strings.WrapI32`, `Strings.TruncDiv`, `Strings.ParseI32`). Pixel geometry is `real`.
- **Effects become parameters.** Clock readings, window sizes, DOM measurements, HTTP results and database lookups are passed in as parameters. A server call's outcome is a `Result`. An effect is modelled as the state change made once its call has returned.
- **Library code becomes parameters.** Unicode lower-casing and URL percent-encoding are library code. They are function parameters.

## Model

| member | source | states |
|---|---|---|
| ItemGeometry.CardHeightPx | web/src/components/episode_list_item.rs:55-71 | the card is 122px up to 530px of width, 221px exactly above 768px, and 150px in between |
| ItemGeometry.CardHeightCss | web/src/components/episode_list_item.rs:63-70 | the style value is a pixel length whose number parses back to the card height |
| ItemGeometry.ItemHeight | web/src/components/virtual_list.rs:15-35 | a row is 138, 166 or 237px tall, always positive |
| ItemGeometry.ItemHeightMatchesCard | web/src/components/feed.rs:23-43 | every row height is the list item's card height plus the 16px margin, so list and card agree at every width |
| ItemGeometry.ItemHeightMonotone | web/src/components/virtual_list.rs:18-24 | wider windows never get shorter rows or cards |
| ItemGeometry.InitialCardIsDesktop | web/src/components/episode_list_item.rs:46 | the initial "221px" is what a desktop-width window computes |
| ItemGeometry.NarrowIsMobile | web/src/components/episode_list_item.rs:48-51 | a window narrow enough for the narrow layout (under 500px) always gets the mobile heights |
| ItemGeometry.MeasuredItemHeight | web/src/components/queue.rs:34-65 | a measured card height plus the margin wins; without a measurement the fixed table applies |
| ItemGeometry.MeasuredAgreesWithTable | web/src/components/queue.rs:34-65 | measuring a card drawn at the table height gives the table's row height |
| VirtualList.ComputeWindow | web/src/components/virtual_list.rs:158-164 | the first visible row is the floor of scroll over row height (0 for a negative scroll); the visible count is the ceiling of viewport over row height plus one (1 for an empty viewport); the buffered start is two rows above, saturating at 0; the buffered end is start+visible+2 or the length, whichever is smaller |
| VirtualList.WindowMeaning | web/src/components/virtual_list.rs:158-159 | the start row contains the scroll offset, and the visible rows cover the viewport |
| VirtualList.WindowCoversViewport | web/src/components/virtual_list.rs:158-164 | every row whose box meets the viewport is inside the (clamped) rendered window |
| VirtualList.RowsBounded | web/src/components/virtual_list.rs:162-164 | at most the visible rows plus both buffers are rendered |
| VirtualList.RowKey | web/src/components/virtual_list.rs:171 | a row key ends in "-" and the generation |
| VirtualList.RowKeyInjective | web/src/components/virtual_list.rs:171 | within one generation, two i32 ids share a key exactly when they are equal |
| VirtualList.RenderRows | web/src/components/virtual_list.rs:166-178 | exactly the indices from..to are rendered, in order, each keyed by its id and the generation |
| VirtualList.RenderedKeysDistinct | web/src/components/virtual_list.rs:166-178 | a list with distinct i32 ids renders rows with distinct keys |
| VirtualList.SpacerPxNonNegative | web/src/components/virtual_list.rs:180-181 | a spacer is non-negative exactly when its row count is |
| VirtualList.SpacerPx | web/src/components/virtual_list.rs:180-181 | a spacer is exactly its row count of rows tall |
| VirtualList.BottomRowsAsWritten | web/src/components/virtual_list.rs:197 | the written bottom spacer, in rows, is the rows after the window whenever the start does not pass the end |
| VirtualList.BottomSpacerUnderflows | web/src/components/virtual_list.rs:197 | a one-row list scrolled to 552px makes the `usize` subtraction wrap to a spacer of about 2^32 negative rows |
| VirtualList.ClampedWindow | web/src/components/virtual_list.rs:163-164 | the clamped start never passes the end, and a window that was already in order is unchanged |
| VirtualList.LayoutFor | web/src/components/virtual_list.rs:180-197 | top spacer rows, rendered rows and bottom spacer rows add up to the list length |
| VirtualList.ViewLayout | web/src/components/virtual_list.rs:158-197 | for any offset the layout accounts for every row once, and rendered row k is episode top+k |
| VirtualList.LayoutHeightConserved | web/src/components/virtual_list.rs:180-181 | the spacers and rows are exactly as tall as the whole list |
| VirtualList.LayoutAgreesWhenInRange | web/src/components/virtual_list.rs:197 | the corrected bottom spacer equals the written one whenever no wrap occurs |
| VirtualList.ResizeAsWritten | web/src/components/virtual_list.rs:76-92 | a resize sets the viewport to inner height minus 100 and the row height from the table, and keeps the offset |
| VirtualList.ResizeAsWrittenKeepsKeys | web/src/components/virtual_list.rs:78-92 | after a second resize every row keeps the key it had after the first, because the generation stays 1 |
| VirtualList.Resize | web/src/components/virtual_list.rs:84-92 | the same sizes, with the generation always moving to a new value |
| VirtualList.WrapI32Inc | web/src/components/virtual_list.rs:92 | the generation counter stays an i32 and counts up by one, wrapping from the maximum to the minimum |
| VirtualList.ResizeRenewsKeys | web/src/components/virtual_list.rs:92 | after a corrected resize no row keeps its previous key |
| VirtualList.ShortWindowRendersOneRow | web/src/components/virtual_list.rs:86 | a window of 100px or less gives a negative viewport, which shows one visible row |
| VirtualList.OnScrollAsWritten | web/src/components/virtual_list.rs:114-136 | events during a pending frame are dropped; an offset other than the mount-time value arms the frame with that offset; the mount-time offset itself changes nothing |
| VirtualList.OnFrame | web/src/components/virtual_list.rs:132-136 | the frame publishes the pending offset and clears the flag |
| VirtualList.ScrollToTopIsLost | web/src/components/virtual_list.rs:122-127 | a jump back to offset 0 from 5000px is ignored, so the published offset stays 5000 |
| VirtualList.LastOffsetDropped | web/src/components/virtual_list.rs:116-118 | an offset arriving while a frame is pending is never published |
| VirtualList.OnScroll | web/src/components/virtual_list.rs:114-136 | the corrected guard: the latest offset is the one a pending frame will publish |
| VirtualList.OnScrollAllTracksLast | web/src/components/virtual_list.rs:114-136 | after a burst, the guard holds the last offset, pending or published |
| VirtualList.ScrollSettlesOnLastOffset | web/src/components/virtual_list.rs:132-136 | once the frame after a burst runs, the published offset is the last one |
| QueueDrag.AutoScroll | web/src/components/queue.rs:286-313 | within 50px of the top the list scrolls up 20 (not below 0); within 50px of the bottom it scrolls down 20; the two checks are independent, so a pointer in both zones gives the floored up-step plus 20 |
| QueueDrag.ShortContainerNeverScrollsUp | web/src/components/queue.rs:300-309 | a pointer in both zones implies a container under 100px, and the offset never decreases |
| QueueDrag.DragStart | web/src/components/queue.rs:260-284 | a drag starts with the parsed id exactly when the row's data-id is present and parses as an i32; otherwise the handler panics |
| QueueDrag.DraggingAfter | web/src/components/queue.rs:260-272 | a started drag stores its id; a panic leaves the drag state as it was |
| QueueDrag.DragStartOfRenderedRow | web/src/components/episode_list_item.rs:331-337 | a row tagged with its own id starts a drag of that id |
| QueueDrag.FirstTagged | web/src/components/queue.rs:333-342 | the first element of the chain carrying a data-id, or none if no element does |
| QueueDrag.ClimbToTagged | web/src/components/queue.rs:333-342 | the walk stops at the first tagged element, at the root, or after 10 steps, and agrees with the first tagged element within that range |
| QueueDrag.VirtualDropIndex | web/src/components/queue.rs:358-389 | the pointer row is the floor of the pointer's offset in the list over the row height, clamped to the last row; 0 for an empty list |
| QueueDrag.PointerAboveListMapsToFirst | web/src/components/queue.rs:380-388 | a pointer above the list saturates to row 0 |
| QueueDrag.ResolveTarget | web/src/components/queue.rs:343-392 | a tag yields an index only if it parses, differs from the dragged id and is listed; without a tag the pointer decides whenever the container exists |
| QueueDrag.Reorder | web/src/components/queue.rs:405-418 | the result is a permutation of the same length, with the dragged element at min(target, n-1) and the others in their old order |
| QueueDrag.ReorderInPlace | web/src/components/queue.rs:406-410 | moving an element onto its own index changes nothing |
| QueueDrag.ReorderDown | web/src/components/queue.rs:411-417 | [1,2,3,4,5] with the first episode dragged to index 2 becomes [2,3,1,4,5] |
| QueueDrag.ReorderUp | web/src/components/queue.rs:411-417 | [1,2,3,4,5] with the last episode dragged to index 0 becomes [5,1,2,3,4] |
| QueueDrag.Drop | web/src/components/queue.rs:315-466 | a drop always clears the drag state and keeps the queue a permutation; when it persists an order, that order is the new queue's ids; without a persisted order the queue is unchanged |
| QueueDrag.TagResolvesToIndex | web/src/components/queue.rs:343-352 | in a list with distinct ids, dropping on another row's tag targets that row's index |
| QueueDrag.DropOnTaggedRow | web/src/components/queue.rs:395-453 | dropping on another tagged row moves the dragged episode there and persists the new order |
| QueueDrag.DropAtPointer | web/src/components/queue.rs:353-393 | with no tagged element, dropping moves the dragged episode to the row under the pointer and persists the new order |
| QueueDrag.DropAtPointerOnSelf | web/src/components/queue.rs:406-410 | an untagged drop whose pointer row is the dragged row's own index (such as dropping the last row below the list) leaves the queue unchanged and persists nothing |
| QueueDrag.DropOnSelfIsNoOp | web/src/components/queue.rs:343-352 | dropping an episode on itself changes nothing and sends nothing |
| QueueDrag.DropNotQueuedIsNoOp | web/src/components/queue.rs:405-410 | dragging an id the queue does not hold changes nothing and sends nothing |
| DownloadRecords.DownloadIffRecorded | web/src/components/context.rs:193-206 | in a valid store an episode is downloaded (locally or on the server) exactly when it has a record |
| DownloadRecords.PushLocal | web/src/components/context.rs:207-219 | the id becomes local; a record is appended only if the id was downloaded nowhere; validity is preserved |
| DownloadRecords.PushServer | web/src/components/context.rs:220-232 | the same for the server set |
| DownloadRecords.PushTwiceAddsOnce | web/src/components/context.rs:207-232 | pushing one episode twice, to either set, adds one record |
| DownloadRecords.RemoveLocal | web/src/components/context.rs:233-242 | the id stops being local; its records go unless the server still holds it; validity is preserved |
| DownloadRecords.RemoveServer | web/src/components/context.rs:243-251 | the same for the server set |
| DownloadRecords.PushThenRemoveServer | web/src/components/context.rs:220-251 | a server download followed by its removal restores the store |
| DownloadRecords.Clear | web/src/components/context.rs:253-257 | no records and no ids |
| DownloadRecords.ClearLocal | web/src/components/context.rs:259-266 | local ids drained; the surviving records keep their order, every record of an episode not only local survives, and in a valid store the records left are exactly the server downloads |
| DownloadRecords.ClearServerAsWritten | web/src/components/context.rs:268-275 | the written clear_server is exactly clear_local: the local ids drain, every server id stays, and in a valid store the records left are exactly the server downloads |
| DownloadRecords.ClearServerAsWrittenKeepsServerDownloads | web/src/components/context.rs:268-275 | after the written clear_server, a server download is still reported |
| DownloadRecords.ClearServer | web/src/components/context.rs:268-275 | server ids drained; the surviving records keep their order, every record of an episode not only on the server survives, and in a valid store the records left are exactly the local downloads |
| DownloadRecords.ClearBothEmpties | web/src/components/context.rs:259-275 | clearing both kinds, in either order, leaves no record |
| DownloadRecords.IdSetSize | web/src/components/context.rs:168-174 | with distinct ids there are as many ids as records |
| DownloadRecords.Len | web/src/components/context.rs:277-279 | in a valid store the length is the number of episodes downloaded anywhere |
| AppStateReducer.Edit | web/src/components/context.rs:46-66 | each message makes exactly its own edit (add or remove one guid, set the loading flag, add one id or clear the selection), and every other field is left as it was |
| AppStateReducer.ApplyAsWritten | web/src/components/context.rs:43-69 | the written apply returns its input unchanged |
| AppStateReducer.ExpandIsLost | web/src/components/context.rs:46-67 | expanding a description through the written apply leaves it collapsed; the corrected apply expands it |
| AppStateReducer.Apply | web/src/components/context.rs:43-69 | the result is the input with exactly the message's field edited: the guid added or removed, loading set, the id added, or the selection cleared |
| AppStateReducer.ExpandThenCollapse | web/src/components/context.rs:46-66 | expanding and then collapsing a description leaves it collapsed and the others untouched |
| AppStateReducer.SavedEpisodeIds | web/src/components/context.rs:159-163 | the ids of the saved episodes, one per episode, in list order |
| AppStateReducer.SavedEpisodeIdsTrackSaves | web/src/components/context.rs:159-163 | saving an episode appends its id to the list; removing an id leaves it off the list |
| ContextMenu.ToggleAction | web/src/components/context_menu_button.rs:280-290 | every toggle removes when the flag is set and adds otherwise |
| ContextMenu.IsQueued | web/src/components/context_menu_button.rs:274-278 | an absent id list means not queued; otherwise queued exactly when the id occurs in the list |
| ContextMenu.IsSaved | web/src/components/context_menu_button.rs:383-386 | saved exactly when some saved episode carries the id |
| ContextMenu.IsDownloaded | web/src/components/context_menu_button.rs:492-494 | reported exactly for a server download, so a local-only download is not reported; a reported download has a record in a valid store |
| ContextMenu.IsCompleted | web/src/components/context_menu_button.rs:804-808 | an absent id list means not completed; otherwise completed exactly when the id occurs in the list |
| ContextMenu.OnQueued | web/src/components/context_menu_button.rs:193-200 | with a list present exactly the id is appended after the old ids; an absent list stays absent |
| ContextMenu.QueuedTwiceListedTwice | web/src/components/context_menu_button.rs:193-200 | queueing an episode twice lists its id twice more: there is no duplicate check |
| ContextMenu.OnQueueRemoved | web/src/components/context_menu_button.rs:246-258 | every episode and every id entry for the episode goes; the id list left is the old one with those entries filtered out, in order, and other ids keep their queued flag |
| ContextMenu.QueueThenRemove | web/src/components/context_menu_button.rs:193-258 | queueing and then removing an unqueued episode restores the id list |
| ContextMenu.OnSaved | web/src/components/context_menu_button.rs:314-322 | the episode is appended unless its id is already saved; distinct ids stay distinct |
| ContextMenu.OnSaveRemoved | web/src/components/context_menu_button.rs:360-368 | exactly the episodes with other ids remain |
| ContextMenu.SaveThenRemove | web/src/components/context_menu_button.rs:314-368 | saving and then removing an unsaved episode restores the list |
| ContextMenu.OnDownloaded | web/src/components/context_menu_button.rs:424-428 | the episode is recorded as a server download |
| ContextMenu.OnDownloadRemovedAsWritten | web/src/components/context_menu_button.rs:473-476 | the written handler leaves the server ids untouched |
| ContextMenu.RemovedDownloadStillShown | web/src/components/context_menu_button.rs:473-476 | after a successful removal the menu still reports the episode downloaded |
| ContextMenu.OnDownloadRemoved | web/src/components/context_menu_button.rs:473-476 | the corrected handler removes the server download and keeps validity |
| ContextMenu.DownloadThenRemove | web/src/components/context_menu_button.rs:424-476 | downloading and then removing the download restores the records |
| ContextMenu.OnCompletedToggled | web/src/components/context_menu_button.rs:718-731 | the first occurrence of the id is removed if present, otherwise the id is appended at the end; every other id keeps its order |
| ContextMenu.CompletedToggleFlips | web/src/components/context_menu_button.rs:775-788 | with no repeated id, the toggle flips the completed flag |
| ContextMenu.CompletedToggleTwice | web/src/components/context_menu_button.rs:718-788 | toggling twice restores the ids as a multiset, and exactly when the id was absent |
| ContextMenu.CloseDropdown | web/src/components/context_menu_button.rs:824-839 | always closes; the long-press caller is told only when it gave a close callback |
| ContextMenu.OutsideInteraction | web/src/components/context_menu_button.rs:117-145 | an open menu closes exactly when the hit is outside the dropdown and outside the button |
| ContextMenu.ButtonClickKeepsOpen | web/src/components/context_menu_button.rs:117-145 | a click on the menu's own button never closes it |
| EpisodeFilter.OptionValue | web/src/pages/saved.rs:268-276 | each direction has a non-empty option value |
| EpisodeFilter.SelectValue | web/src/pages/saved.rs:268-276 | a recognised value maps to the direction whose option it is |
| EpisodeFilter.InitialDirection | web/src/pages/saved.rs:54-65 | a stored known value is used; nothing stored means newest first |
| EpisodeFilter.InitialSort | web/src/pages/saved.rs:53-64 | sorting is on at load: in the stored direction when it names one, newest first when nothing is stored (history.rs:65-76 is the same) |
| EpisodeFilter.OptionValueRoundTrip | web/src/components/history.rs:65-76 | every direction survives being chosen, stored and read back |
| EpisodeFilter.UnknownValueDiverges | web/src/components/history.rs:263-271 | an unknown value turns sorting off now, but reads back as newest first |
| EpisodeFilter.ComparatorIsPreorder | web/src/pages/saved.rs:196-209 | each of the six orders is a total preorder |
| EpisodeFilter.Pipeline | web/src/pages/saved.rs:162-213 | the shown list is a permutation of exactly the episodes passing search and status; it is sorted when a direction is chosen and in stored order otherwise |
| EpisodeFilter.PipelineStable | web/src/components/history.rs:178-195 | episodes the order ties keep their stored order |
| EpisodeFilter.NoFiltersKeepsAll | web/src/pages/saved.rs:168-188 | with no filter and no sort every episode shows, in order |
| EpisodeFilter.CompletedChipWins | web/src/pages/saved.rs:181-188 | with the completed chip lit, only completed episodes show |
| EpisodeFilter.ClearAll | web/src/pages/saved.rs:294-304 | both chips off, empty search, and every episode passes |
| EpisodeFilter.ToggleCompletedAsWritten | web/src/pages/saved.rs:313-320 | the written chip clears the other chip only when it turns itself off |
| EpisodeFilter.ToggleInProgressAsWritten | web/src/pages/saved.rs:333-340 | the same for the in-progress chip |
| EpisodeFilter.BothChipsLit | web/src/components/history.rs:308-335 | two clicks from a clear state light both chips |
| EpisodeFilter.ToggleCompleted | web/src/pages/saved.rs:313-320 | the corrected chip turns the other off when it turns on, so at most one chip is lit |
| EpisodeFilter.ToggleInProgress | web/src/pages/saved.rs:333-340 | the same for the in-progress chip |
| EpisodeFilter.ExclusiveChipsMeanOneFilter | web/src/components/history.rs:163-170 | with at most one chip lit, the status filter matches exactly that chip's condition |
| SavedPage.OnFetched | web/src/pages/saved.rs:95-125 | the fetched list replaces the saved episodes, and the completed ids are exactly those of fetched completed episodes |
| SavedPage.FilteredEpisodes | web/src/pages/saved.rs:154-216 | exactly the saved episodes that pass the filters, as a permutation; nothing saved gives nothing |
| SavedPage.Render | web/src/pages/saved.rs:354-376 | the list shows exactly when something is saved and something passes |
| SavedPage.UnfilteredPageLists | web/src/pages/saved.rs:354-376 | with saved episodes and no filters the list shows |
| History.OnFetched | web/src/components/history.rs:105-121 | the history becomes present, and the completed ids are exactly those of completed history entries |
| History.FilteredEpisodes | web/src/components/history.rs:135-200 | no history gives nothing; otherwise exactly the entries passing the filters, as a permutation |
| History.Render | web/src/components/history.rs:349-368 | the list shows exactly when a history is present and something passes |
| History.NothingBeforeLoad | web/src/components/history.rs:144-199 | before the history arrives the empty message shows, whatever the filters |
| Episodes.ListenDurationFromJson | web/src/requests/episode.rs:7-14 | a JSON null listen duration reads as 0, a number as itself |
| Episodes.DeriveFlagIds | web/src/components/feed.rs:90-109 | each list holds an id exactly when a fetched episode with that flag has it, and is a subsequence of the fetched ids |
| Episodes.DeriveFlagIdsAppend | web/src/components/home.rs:122-150 | deriving over two lists one after another concatenates the derived lists |
| Episodes.IdsOfFilterSubseq | web/src/components/feed.rs:90-109 | the ids of a filtered list are a subsequence of the ids of the whole list |
| FeedPage.OnFetched | web/src/components/feed.rs:88-141 | success stores the list and publishes the four flag-id lists; an error is recorded and keeps the old results; the spinner stops either way |
| FeedPage.Render | web/src/components/feed.rs:152-199 | the spinner while loading; the list exactly when there are episodes; the translated empty message exactly for an empty list |
| FeedPage.Mounted | web/src/components/feed.rs:80-148 | the fetch runs only when the auth record, user id and server are all known; a record without an api key fails with "API key is missing" before any request, otherwise the server's outcome applies |
| FeedPage.SpinnerIffNoCredentials | web/src/components/feed.rs:83-146 | after mounting, the spinner stays up exactly when the auth record, the user id or the server is missing |
| FeedPage.MissingKeyShowsFallback | web/src/requests/pod_req.rs:76-86 | a signed-in record without an api key records the missing-key error, drops the spinner and shows the built-in empty message |
| FeedPage.FetchedListIsShown | web/src/components/feed.rs:169-185 | a successful fetch shows exactly what was fetched |
| FeedPage.FailedFetchView | web/src/components/feed.rs:138-141 | a failed first fetch shows the fallback message; a failed refetch keeps showing the old list |
| FeedPage.PublishedIdsComeFromFetch | web/src/components/feed.rs:90-117 | every published id list is a subsequence of the fetched ids |
| HomePage.StartOverviewFetch | web/src/components/home.rs:100-125 | nothing happens until all three credentials are known, and a known but empty inner api key panics |
| HomePage.OnOverviewFetched | web/src/components/home.rs:122-168 | the flag ids are derived over recent then in-progress, section by section; an error only stops the spinner |
| HomePage.SharedEpisodeListedTwice | web/src/components/home.rs:122-150 | a completed episode that is both recent and in progress is listed twice |
| HomePage.EpisodeCountText | web/src/components/home.rs:55 | the count text ends in " episodes" and its number parses back to the count, 0 when absent |
| HomePage.PlaylistRoute | web/src/components/home.rs:317-320 | the route starts with "/playlist/" and the rest parses back to the id |
| HomePage.PlaylistRouteInjective | web/src/components/home.rs:317-320 | different playlists lead to different routes |
| HomePage.Card | web/src/components/home.rs:45-65 | a card shows the playlist's name and description and routes to its id |
| HomePage.RenderSections | web/src/components/home.rs:242-355 | continue-listening is a prefix of at most 3 and empty only without in-progress episodes; recent is a non-empty prefix of at most 5 or the no-recent message; one card per playlist, or the no-playlists message when none were fetched |
| HomePage.Render | web/src/components/home.rs:209-225 | the spinner while loading, the welcome message without an overview, else the sections |
| HomePage.ContinueListeningIsFirstThree | web/src/components/home.rs:248 | a long in-progress list shows exactly its first three |
| HomePage.ShownEpisodesArePublished | web/src/components/home.rs:122-150 | a saved episode shown under continue-listening has its id published among the saved ids |
| HomePage.OnPlaylistsFetched | web/src/components/home.rs:176-207 | a fetched list replaces the stored one; an error keeps it |
| HomePage.FailedOverviewShowsWelcome | web/src/components/home.rs:163-168 | a failed first overview fetch shows the welcome message |
| HomePage.PlaylistsMessageUntilFetched | web/src/components/home.rs:312-335 | until playlists arrive the no-playlists message shows, and a failure leaves it so |
| NotificationCenter.Shown | web/src/components/notification_center.rs:188-197 | all tasks, or exactly the unfinished ones in order |
| NotificationCenter.ActiveCount | web/src/components/notification_center.rs:199-203 | the number of tasks that did not succeed or fail |
| NotificationCenter.Badge | web/src/components/notification_center.rs:205-217 | unfinished tasks plus one for a pending error, zero exactly when there is no error and nothing is running |
| NotificationCenter.HiddenCompletedHidesDismiss | web/src/components/notification_center.rs:384 | with finished tasks hidden the dismiss-completed button never shows |
| NotificationCenter.DismissCompleted | web/src/components/notification_center.rs:237-247 | exactly the unfinished tasks remain, messages untouched |
| NotificationCenter.DismissCompletedKeepsBadge | web/src/components/notification_center.rs:237-247 | dismissing finished tasks leaves the badge as it was |
| NotificationCenter.DismissTask | web/src/components/notification_center.rs:249-259 | every task with that id goes, all others stay |
| NotificationCenter.DismissTaskIdempotent | web/src/components/notification_center.rs:249-259 | dismissing the same task twice equals dismissing it once |
| NotificationCenter.ClearAll | web/src/components/notification_center.rs:262-271 | an empty task list, no messages, and a zero badge |
| NotificationCenter.AutoCleanup | web/src/components/notification_center.rs:131-145 | a task stays exactly when it has no completion time or completed under 30 seconds ago |
| NotificationCenter.CleanupComposes | web/src/components/notification_center.rs:131-145 | a later cleanup subsumes an earlier one |
| NotificationCenter.CleanupKeepsUntimed | web/src/components/notification_center.rs:136-142 | a task without a completion time survives every cleanup |
| NotificationCenter.StatusStyle | web/src/components/notification_center.rs:406-418 | the success, failed and pending classes go exactly to their statuses; an unknown status is styled as started with its raw text |
| NotificationCenter.ProgressOnlyWhileWorking | web/src/components/notification_center.rs:449-451 | a progress bar shows only for unfinished tasks styled as started, never for an unknown status; a task is finished exactly when styled success or failed |
| NotificationCenter.ClosestCenter | web/src/components/notification_center.rs:290 | `closest` succeeds, with an ancestor exactly when the click was inside |
| NotificationCenter.OutsideClickAsWritten | web/src/components/notification_center.rs:281-305 | a closed dropdown stays closed, and an orphan node closes it |
| NotificationCenter.OutsideClickNeverCloses | web/src/components/notification_center.rs:290-293 | a click on an element outside the bell leaves the written dropdown open; the corrected one closes |
| NotificationCenter.OutsideClick | web/src/components/notification_center.rs:281-305 | the corrected handler keeps the dropdown open exactly for clicks inside the bell |
| NotificationCenter.InsideClicksAgree | web/src/components/notification_center.rs:288-293 | inside clicks never close the dropdown, written or corrected |
| NotificationCenter.HideExpired | web/src/components/notification_center.rs:627-637 | a visible toast past its expiry becomes hidden; nothing else changes |
| NotificationCenter.Tick | web/src/components/notification_center.rs:619-645 | every toast left has an unfinished fade-out, and every visible one has not expired |
| NotificationCenter.TickKeepsExactly | web/src/components/notification_center.rs:623-641 | a toast survives a tick exactly when its fade-out is not over, and stays visible exactly when it was visible and has not expired |
| NotificationCenter.TickValid | web/src/components/notification_center.rs:619-645 | a tick keeps ids distinct and below the counter, and no message is shown twice |
| NotificationCenter.AddToast | web/src/components/notification_center.rs:667-695 | a message already showing adds nothing; otherwise a visible toast with the next id and a five-second expiry is appended |
| NotificationCenter.AddToastValid | web/src/components/notification_center.rs:667-695 | adding a toast keeps the queue invariant |
| NotificationCenter.AddToastIdempotent | web/src/components/notification_center.rs:669-672 | repeating a message while it is on screen adds nothing |
| NotificationCenter.DismissToast | web/src/components/notification_center.rs:806-815 | only the toast with that id is hidden, and nothing is removed |
| NotificationCenter.DismissToastValid | web/src/components/notification_center.rs:806-815 | the close button keeps the queue invariant |
| NotificationCenter.ClearIfUnchanged | web/src/components/notification_center.rs:697-705 | the store's message is cleared only if it is still the one queued |
| EpisodeListItem.ListenPercentageAsWritten | web/src/components/episode_list_item.rs:179-187 | nothing listened gives 0; a zero duration with progress panics; the result never exceeds 100 |
| EpisodeListItem.ListenPercentage | web/src/components/episode_list_item.rs:179-187 | a whole percent between 0 and 100: 0 when nothing is known, 100 when finished, else the floor of listen*100/duration |
| EpisodeListItem.ListenPercentageAgrees | web/src/components/episode_list_item.rs:179-187 | whenever the written expression cannot overflow or divide by zero, it equals the intended percentage |
| EpisodeListItem.ZeroDurationPanics | web/src/components/episode_list_item.rs:183-185 | a played episode with duration 0 panics as written |
| EpisodeListItem.LongEpisodeWraps | web/src/components/episode_list_item.rs:183-185 | half of a 60,000,000 s episode wraps to -21% as written |
| EpisodeListItem.StreamUrl | web/src/components/episode_list_item.rs:266-289 | a stream URL starts with the server's stream endpoint |
| EpisodeListItem.StreamUrlInjective | web/src/components/episode_list_item.rs:266-289 | different episodes get different stream URLs |
| EpisodeListItem.StreamSource | web/src/components/episode_list_item.rs:278-290 | YouTube URLs stream with the type marker, other local downloads stream from the server, everything else plays from its own URL |
| EpisodeListItem.CardDragAttributes | web/src/components/episode_list_item.rs:331-353 | draggable is "true" and the handle shows exactly when some drag callback exists; the data-id parses back to the episode id |
| EpisodeListItem.DefaultCardIsStatic | web/src/components/virtual_list.rs:48-54 | with no drag callbacks a card is neither draggable nor shows a handle |
| GenComponents.InitialImage | web/src/components/gen_components.rs:52-70 | an image starts at its source with no error |
| GenComponents.OnImageError | web/src/components/gen_components.rs:71-96 | the first failure switches to the server's image proxy; later failures change nothing |
| GenComponents.ProxyUrl | web/src/components/gen_components.rs:71-80 | the proxy URL starts with the server, ends with the encoded original, and has the image proxy route in between |
| GenComponents.OnSrcChange | web/src/components/gen_components.rs:52-100 | a new source replaces the shown one and keeps the error flag |
| GenComponents.ImageErrorIdempotent | web/src/components/gen_components.rs:82-96 | the proxy is tried at most once |
| GenComponents.SecondSourceNotProxied | web/src/components/gen_components.rs:52-100 | after the source changes, a failing second image is never proxied |
| GenComponents.Submit | web/src/components/gen_components.rs:206-217 | a search starts exactly when none is in flight |
| GenComponents.SearchFinished | web/src/components/gen_components.rs:269 | the in-flight flag is cleared, the dropdown untouched |
| GenComponents.SubmitGuard | web/src/components/gen_components.rs:206-269 | a second submit before the first finishes starts nothing; after it finishes one does |
| GenComponents.SearchClick | web/src/components/gen_components.rs:296-340 | on a narrow window the button opens or starts closing the dropdown without searching; on a wide one it submits |
| GenComponents.DropdownClosed | web/src/components/gen_components.rs:320-330 | the delayed close shuts the dropdown |
| GenComponents.MobileTapsToggleDropdown | web/src/components/gen_components.rs:296-340 | two taps on a narrow window open and then close the dropdown without searching |
| GenComponents.SearchIndexLabel | web/src/components/gen_components.rs:375-380 | the three known indexes get their labels, anything else "Unknown" |
| GenComponents.SearchIndexLabelsDistinct | web/src/components/gen_components.rs:375-380 | the known indexes are told apart by their labels |
| GenComponents.ValidateAdmin | web/src/components/gen_components.rs:547-570 | data is emitted exactly when acceptable; otherwise the first failing check's message, in order: empty field, short password, email |
| GenComponents.PasswordLengthCountsBytes | web/src/components/gen_components.rs:551-556 | four two-byte characters pass the eight-byte minimum |
| GenComponents.TouchStart | web/src/components/gen_components.rs:843-880 | a press arms a timer for the delay (600 ms by default) and remembers the first touch |
| GenComponents.TouchMove | web/src/components/gen_components.rs:904-934 | moving more than 10px on either axis cancels the timer and the pressed look; otherwise nothing changes |
| GenComponents.TouchEnd | web/src/components/gen_components.rs:882-902 | lifting the finger drops the timer and the pressed look |
| GenComponents.Tick | web/src/components/gen_components.rs:860-875 | a due timer fires once and marks the long press; otherwise nothing changes |
| GenComponents.HeldStillFires | web/src/components/gen_components.rs:832-880 | a finger held still for the default delay triggers the long press |
| GenComponents.CancelledPressNeverFires | web/src/components/gen_components.rs:882-934 | lifting or moving too far means no long press, however long one waits |
| GenComponents.ThresholdIsStrict | web/src/components/gen_components.rs:909-933 | exactly 10px of movement does not cancel; 11px does |
| IndexMatching.FindPodcast | web/src/components/setting_components/podcast_index_matching.rs:307-312 | the first podcast with the id, or none exactly when the id is not listed |
| IndexMatching.OnMatched | web/src/components/setting_components/podcast_index_matching.rs:243-257 | every unmatched podcast with the id goes; the selection, results and manual fields are cleared |
| IndexMatching.SelectPodcast | web/src/components/setting_components/podcast_index_matching.rs:189-205 | results and manual fields reset and the podcast selected; a search for its name starts exactly when it is listed |
| IndexMatching.ManualSearch | web/src/components/setting_components/podcast_index_matching.rs:381-387 | a search on the trimmed term runs exactly when it is not blank, clearing the results first |
| IndexMatching.ManualIdSelect | web/src/components/setting_components/podcast_index_matching.rs:395-401 | a match is emitted exactly when the trimmed text is an i32 and a podcast is selected |
| IndexMatching.ManualIdKeydown | web/src/components/setting_components/podcast_index_matching.rs:432-438 | Enter acts as the button; other keys do nothing |
| IndexMatching.PaddedIdDisablesButton | web/src/components/setting_components/podcast_index_matching.rs:555 | " 42" disables the written button although its handler would match 42 |
| IndexMatching.MatchButtonDisabledAsWritten | web/src/components/setting_components/podcast_index_matching.rs:555 | a blank field disables the written button, and the written button is enabled only when the corrected one is |
| IndexMatching.MatchButtonAgreesWithClick | web/src/components/setting_components/podcast_index_matching.rs:395-401 | the corrected button is enabled exactly when clicking it emits a match |
| IndexMatching.MatchButtonDisabled | web/src/components/setting_components/podcast_index_matching.rs:555 | the corrected button is disabled for a blank field and enabled for any rendered i32 padded with white space |
| IndexMatching.BlankIdDisablesButton | web/src/components/setting_components/podcast_index_matching.rs:555 | a blank field disables both the written and the corrected button |
| IndexMatching.Move | web/src/components/setting_components/podcast_index_matching.rs:307-350 | the first podcast with the id moves to the end of the other list and every copy leaves the source; with none found both lists stay; the id union is preserved |
| IndexMatching.OnIgnored | web/src/components/setting_components/podcast_index_matching.rs:307-326 | ignore success moves the podcast from unmatched to ignored |
| IndexMatching.OnRestored | web/src/components/setting_components/podcast_index_matching.rs:331-350 | restore success moves it back |
| IndexMatching.MovesKeepIds | web/src/components/setting_components/podcast_index_matching.rs:307-350 | neither move loses or invents an id |
| IndexMatching.MoveKeepsPodcasts | web/src/components/setting_components/podcast_index_matching.rs:307-350 | with unique ids a move neither loses nor duplicates a podcast |
| IndexMatching.IgnoreThenRestore | web/src/components/setting_components/podcast_index_matching.rs:307-350 | ignoring and then restoring puts the podcast back on the unmatched list, at the end |
| NotificationSettings.FindPlatform | web/src/components/setting_components/notifications.rs:91-92 | the first setting for the platform, or none exactly when none exists |
| NotificationSettings.OnLoaded | web/src/components/setting_components/notifications.rs:94-131 | the platform is forced to ntfy; enabled follows the ntfy entry or is false; each topic, server and gotify field present in its entry overwrites the form, and absent ones keep the input |
| NotificationSettings.OnUsernameInput | web/src/components/setting_components/notifications.rs:395-402 | a non-empty username clears the token and keeps the credentials exclusive |
| NotificationSettings.OnPasswordInput | web/src/components/setting_components/notifications.rs:415-421 | a non-empty password clears the token and keeps the credentials exclusive |
| NotificationSettings.OnTokenInput | web/src/components/setting_components/notifications.rs:435-442 | a non-empty token clears username and password and keeps the credentials exclusive |
| NotificationSettings.OneCredentialKindEditable | web/src/components/setting_components/notifications.rs:394-434 | with exclusive credentials, the username field and the token field are never both disabled |
| NotificationSettings.UsernameDisabled | web/src/components/setting_components/notifications.rs:394 | the username field locks while a token is entered; in an exclusive form it then holds no username |
| NotificationSettings.PasswordDisabled | web/src/components/setting_components/notifications.rs:414 | the password field locks while a token is entered; in an exclusive form it then holds no password |
| NotificationSettings.TokenDisabled | web/src/components/setting_components/notifications.rs:434 | the token field locks while a username or password is entered; in an exclusive form it then holds no token |
| NotificationSettings.LoadShowsBothCredentials | web/src/components/setting_components/notifications.rs:105-122 | stored settings holding both kinds of credential load as they are |
| NotificationSettings.Payload | web/src/components/setting_components/notifications.rs:179-189 | every string field of the form is sent, each wrapped in Some |
| NotificationSettings.SaveThenLoad | web/src/components/setting_components/notifications.rs:94-189 | saving an ntfy form and loading the stored setting back gives the same form |
| NotificationSettings.OnSaved | web/src/components/setting_components/notifications.rs:204 | success flips the trigger the fetch effect watches |
| PeopleSubs.TogglePerson | web/src/components/people_subs.rs:177-185 | one person's flag flips, an absent entry counting as collapsed; every other entry is unchanged |
| PeopleSubs.ToggleTwice | web/src/components/people_subs.rs:177-185 | toggling twice restores the flag, and the whole map when there was an entry |
| PeopleSubs.OnSubscriptionsFetched | web/src/components/people_subs.rs:73-83 | every person starts collapsed with no episodes |
| PeopleSubs.ToFetch | web/src/components/people_subs.rs:115-125 | the people fetched are exactly those expanded with no episodes |
| PeopleSubs.SetEpisodes | web/src/components/people_subs.rs:137-156 | only the people with that id get the episodes; everyone else is unchanged |
| PeopleSubs.LoadedPersonNotRefetched | web/src/components/people_subs.rs:115-156 | once non-empty episodes arrive the person is not fetched again, and others are unaffected |
| PeopleSubs.NothingFetchedWhileCollapsed | web/src/components/people_subs.rs:73-125 | a fresh list fetches nothing until someone is expanded |
| PodReq.BoolFromInt | web/src/requests/pod_req.rs:16-49 | booleans pass through; any integer in the i64 or u64 range decodes as nonzero; anything else is an error |
| PodReq.BoolFromIntAgrees | web/src/requests/pod_req.rs:16-49 | 0 and 1 decode as the booleans they stand for |
| PodReq.ToExtra | web/src/requests/pod_req.rs:385-407 | the shared fields are copied; a missing index id becomes 0; counts start at 0; is_youtube is set exactly for YouTube feeds |
| PodReq.ToPodcast | web/src/requests/pod_req.rs:409-425 | the shared fields are copied and the index id wrapped in Some |
| PodReq.PodcastRoundTrip | web/src/requests/pod_req.rs:385-425 | Podcast to Extra and back is the identity exactly when the index id was present, and otherwise only turns None into Some(0) |
| PodReq.ExtraRoundTrip | web/src/requests/pod_req.rs:385-425 | Extra to Podcast and back is the identity exactly when the counts are zero, there is no oldest date, and is_youtube matches the feed URL |
| PodReq.RecomputeYoutube | web/src/requests/pod_req.rs:452-456 | every pod's is_youtube is recomputed from its feed URL; nothing else changes |
| PodReq.RecomputeYoutubeIdempotent | web/src/requests/pod_req.rs:452-456 | recomputing twice equals once, and converted podcasts are already consistent |
| PodReq.WsScheme | web/src/requests/pod_req.rs:2652-2656 | "wss://" exactly for an https server, "ws://" otherwise |
| PodReq.WsHost | web/src/requests/pod_req.rs:2649-2651 | a suffix of the server name that no longer starts with "https://" |
| PodReq.EpisodeSocketUrl | web/src/requests/pod_req.rs:2657-2660 | the URL starts with scheme, host and the episode socket path |
| PodReq.HttpsServerSocket | web/src/requests/pod_req.rs:2649-2660 | an https server gets wss and its bare host |
| PodReq.HttpServerSocket | web/src/requests/pod_req.rs:2649-2660 | an http server gets ws and its bare host |
| PodReq.StartRefresh | web/src/requests/pod_req.rs:2670-2712 | the kept tasks are the old ones minus unfinished feed refreshes, in their old order, followed by one STARTED refresh task |
| PodReq.KeptOnRefresh | web/src/requests/pod_req.rs:2705-2708 | a task of another kind is always kept; a feed refresh is kept exactly when it has finished |
| PodReq.OneRunningRefresh | web/src/requests/pod_req.rs:2705-2711 | after starting a refresh exactly one unfinished refresh task exists |
| PodReq.CheckEnvelope | web/src/requests/pod_req.rs:3413-3426 | accepted exactly when the text is non-empty, starts with '{' and ends with '}'; empty text is its own error; a rejection quotes the first 50 characters and the last 50 reversed |
| PodReq.EnvelopeAcceptsBraced | web/src/requests/pod_req.rs:3418-3426 | every text of the form {...} is accepted unchanged, and every accepted text has that form |
| PodReq.ReorderQueueRequest | web/src/requests/pod_req.rs:750-784 | a missing key fails with "API key is missing"; otherwise the request carries the key and the ids in order to the user's reorder URL |
| PodReq.ReorderUrlNamesUser | web/src/requests/pod_req.rs:757 | two i32 user ids get the same URL exactly when they are equal |
| PodReq.ReorderPayloadNamesQueue | web/src/components/queue.rs:421-453 | the order sent after a drop names exactly the queued episodes, once each |
| FeedHandler.GetHeader | rust-api/src/handlers/feed.rs:89-96 | the value of the first header with that name, or none exactly when there is none |
| FeedHandler.HeaderText | rust-api/src/handlers/feed.rs:89-96 | a header value is text exactly when every byte is a tab or visible ASCII, and then the text is those bytes |
| FeedHandler.ExtractDomain | rust-api/src/handlers/feed.rs:87-103 | "{proto}://{host}" when Host is readable, proto from x-forwarded-proto or "http"; otherwise "http://localhost:8041" |
| FeedHandler.DomainFromForwardedHeaders | rust-api/src/handlers/feed.rs:87-99 | readable Host and protocol headers give "proto://host" |
| FeedHandler.UnreadableHostFallsBack | rust-api/src/handlers/feed.rs:101-102 | a Host with a non-ASCII byte falls back to localhost |
| FeedHandler.PodcastIdList | rust-api/src/handlers/feed.rs:41-45 | a podcast id becomes a one-element list; none stays none |
| FeedHandler.ResolveFeed | rust-api/src/handlers/feed.rs:26-72 | lookup errors propagate; with no RSS key, owner 0 is forbidden; otherwise the limit defaults to 1000, the domain and podcast ids are derived, and the compatibility key is [-1] with the owner and api key |
| FeedHandler.RssKeyWins | rust-api/src/handlers/feed.rs:47-52 | with an RSS key found, the api-key owner lookup does not matter and the request succeeds |
| FeedHandler.BareQueryDefaults | rust-api/src/handlers/feed.rs:33-64 | a query with only an api key gets limit 1000, no podcast filter and the compatibility key |
| Sorting.SortBySorted | web/src/pages/saved.rs:196-209 | `sort_by` under a total preorder yields a sorted permutation |
| Sorting.SortByStable | web/src/components/history.rs:178-195 | `sort_by` keeps equivalent elements in their input order |

## Left out

- The DOM and `html!` markup are not modelled: event-listener registration, element queries, and the markup beyond the choices each render makes. Element measurements, container rectangles and scroll offsets are inputs.
- Network transport, JSON (de)serialisation and every `call_*` request body are not modelled. Only the pure pieces of `pod_req.rs` named above are. A server call's result is a parameter.
- The async machinery is not modelled: `spawn_local` tasks, `requestAnimationFrame`, interval and timeout scheduling, and races between stale state handles. Only the sequential step functions are modelled, and clock readings are integer milliseconds passed in.
- Floating-point progress percentages are left out, along with refresh-progress rounding and the current-time updates. Pixel geometry uses exact reals, so f64 rounding is not modelled.
- Unicode lower-casing and URL percent-encoding are uninterpreted function parameters. They are library code.
- i18n strings, routing and static pages are not modelled. None of them contains logic.
- The home page's top-podcasts section is not modelled; it only renders.
- The websocket receive loop, local (Tauri) downloads, MFA and RSS-feed settings, and `people_req.rs` are not modelled. These are foreign or I/O calls.
- The database queries and the feed generation behind the feed handler are left out. Their results are parameters of `FeedHandler.ResolveFeed`.
- Episodes.Episode: keeps only the fields the modelled logic reads (id, title, description, dates, durations, flags, URL).
- NotificationCenter.Task: omits the progress value and the details map, which only feed the progress bar and status text.
- PodReq.EpisodeSocketUrl: states the scheme, host and path prefix. The user id, api key and refresh flag in the query string are not restated.
- EpisodeListItem.StreamUrl: states the endpoint prefix and injectivity in the episode id. The query parameters are not stated one by one.
- The bell's effect on `info_message` (notification_center.rs:160-186) is not modelled: five seconds after the message changes, a timer clears whatever message is current, with no check that it is still the same one. Only the toast queue's guarded clear (`NotificationCenter.ClearIfUnchanged`) is modelled.
- VirtualList.ComputeWindow: the `as usize` conversions saturate only below 0, and `start + visible + 2` is added without the 32-bit wrap. Reaching `usize::MAX` or wrapping that sum needs more than 2^32 rows of scroll or viewport.
- QueueDrag.VirtualDropIndex: requires a positive measured row height (`ValidGeometry`). The code divides by the height without checking it, but the height is never zero.

## Findings

| source | as written | input that shows it | evidently intended | confidence | as-written member | corrected member |
|---|---|---|---|---|---|---|
| web/src/components/context.rs:268-275 | `clear_server` drains `local_ids` (a copy of `clear_local`) | push a server download, then clear_server: it is still reported | drain `server_ids`, dropping server-only records | high, not executed | DownloadRecords.ClearServerAsWrittenKeepsServerDownloads | DownloadRecords.ClearServer |
| web/src/components/context_menu_button.rs:473-476 | remove-download success calls `remove_local` | download to the server, remove it: the menu still says downloaded | remove the server download | high, not executed | ContextMenu.RemovedDownloadStillShown | ContextMenu.OnDownloadRemoved |
| web/src/components/virtual_list.rs:197 | bottom spacer subtracts `buffered_end - buffered_start` as `usize` | one row of 138px scrolled to 552px: start 2 > end 1, and the spacer wraps | a spacer of the rows after the window, never negative | high, not executed | VirtualList.BottomSpacerUnderflows | VirtualList.LayoutFor |
| web/src/components/virtual_list.rs:78-92 | the resize closure reads the mount-time `force_update` | two resizes: the generation is 1 both times, so keys do not change | a new generation on every resize | medium, not executed | VirtualList.ResizeAsWrittenKeepsKeys | VirtualList.ResizeRenewsKeys |
| web/src/components/virtual_list.rs:114-136 | the scroll listener compares with the mount-time `scroll_pos` and drops events while a frame is pending | published 5000, one event at offset 0: nothing is published | the latest offset is published | medium, not executed | VirtualList.ScrollToTopIsLost | VirtualList.ScrollSettlesOnLastOffset |
| web/src/components/context.rs:43-69 | `apply` edits a `make_mut` copy and returns the original | ExpandEpisode(g) on a state without g: g is still collapsed | return the edited state | high, not executed | AppStateReducer.ExpandIsLost | AppStateReducer.Apply |
| web/src/components/notification_center.rs:290-298 | inside test is `closest(...).is_ok()`, true for any valid selector | click on an element outside the bell: the dropdown stays open | test that an ancestor was found | high, not executed | NotificationCenter.OutsideClickNeverCloses | NotificationCenter.OutsideClick |
| web/src/pages/saved.rs:313-320 | the chip clears the other chip only when turning itself off | click completed, then in-progress, from a clear state: both lit | turning one chip on turns the other off | medium, not executed | EpisodeFilter.BothChipsLit | EpisodeFilter.ToggleCompleted |
| web/src/components/episode_list_item.rs:179-187 | `listen * 100 / duration` on `i32` | duration 0 with listen 30 panics; listen 30,000,000 of 60,000,000 gives -21 | a whole percentage in 0..100, 0 when unknown | high, not executed | EpisodeListItem.LongEpisodeWraps | EpisodeListItem.ListenPercentage |
| web/src/components/setting_components/podcast_index_matching.rs:555 | the button parses the untrimmed text | " 42": the button is disabled, yet its handler accepts 42 | disable exactly when the handler would reject | high, not executed | IndexMatching.PaddedIdDisablesButton | IndexMatching.MatchButtonAgreesWithClick |

=== FILE: context.dfy ===
/**
 * The download records store: which episodes are downloaded to this
 * device (`local_ids`), which to the server (`server_ids`), and one record
 * per downloaded episode (`episodes`).
 */
module DownloadRecords {
  import opened Seqs
  import opened Episodes

  datatype Records = Records(episodes: seq<Episode>, localIds: set<int>, serverIds: set<int>)

  const Empty := Records([], {}, {})

  function IdSet(eps: seq<Episode>): set<int> {
    set i | 0 <= i < |eps| :: eps[i].episodeId
  }

  /**
   * The store's invariant: one record per id, and a record exactly for the
   * ids downloaded somewhere.
   */
  predicate Valid(r: Records) {
    DistinctIds(r.episodes) && IdSet(r.episodes) == r.localIds + r.serverIds
  }

  predicate IsServerDownload(r: Records, id: int) { id in r.serverIds }
  predicate IsLocalDownload(r: Records, id: int) { id in r.localIds }
  predicate IsDownload(r: Records, id: int) { IsLocalDownload(r, id) || IsServerDownload(r, id) }

  /** In a valid store an episode is downloaded exactly when it has a record. */
  lemma DownloadIffRecorded(r: Records, id: int)
    requires Valid(r)
    ensures IsDownload(r, id) <==> HasId(r.episodes, id)
  {
    if HasId(r.episodes, id) {
      var i :| 0 <= i < |r.episodes| && r.episodes[i].episodeId == id;
      assert id in IdSet(r.episodes);
    }
  }

  lemma IdSetAppend(eps: seq<Episode>, e: Episode)
    ensures IdSet(eps + [e]) == IdSet(eps) + {e.episodeId}
  {
    var s := eps + [e];
    forall x | x in IdSet(s)
      ensures x in IdSet(eps) + {e.episodeId}
    {
      var i :| 0 <= i < |s| && s[i].episodeId == x;
      if i < |eps| {
        assert eps[i] == s[i];
      }
    }
    forall x | x in IdSet(eps)
      ensures x in IdSet(s)
    {
      var i :| 0 <= i < |eps| && eps[i].episodeId == x;
      assert s[i] == eps[i];
    }
    assert s[|eps|] == e;
  }

  /** The ids left by a filter are the ids of the elements it keeps. */
  lemma IdSetFilter(eps: seq<Episode>, p: Episode -> bool, id: int)
    ensures id in IdSet(Filter(eps, p)) <==> exists i :: 0 <= i < |eps| && p(eps[i]) && eps[i].episodeId == id
  {
    if id in IdSet(Filter(eps, p)) {
      IdSetFilterSound(eps, p, id);
    }
    if exists i :: 0 <= i < |eps| && p(eps[i]) && eps[i].episodeId == id {
      var i :| 0 <= i < |eps| && p(eps[i]) && eps[i].episodeId == id;
      IdSetFilterComplete(eps, p, i);
    }
  }

  lemma IdSetFilterSound(eps: seq<Episode>, p: Episode -> bool, id: int)
    requires id in IdSet(Filter(eps, p))
    ensures exists i :: 0 <= i < |eps| && p(eps[i]) && eps[i].episodeId == id
  {
    var f := Filter(eps, p);
    var k :| 0 <= k < |f| && f[k].episodeId == id;
    assert f[k] in eps && p(f[k]);
    var i :| 0 <= i < |eps| && eps[i] == f[k];
    assert p(eps[i]) && eps[i].episodeId == id;
  }

  lemma IdSetFilterComplete(eps: seq<Episode>, p: Episode -> bool, i: nat)
    requires i < |eps| && p(eps[i])
    ensures eps[i].episodeId in IdSet(Filter(eps, p))
  {
    var f := Filter(eps, p);
    FilterKeeps(eps, p, eps[i]);
    var k :| 0 <= k < |f| && f[k] == eps[i];
    assert f[k].episodeId == eps[i].episodeId;
  }

  function Push(r: Records, e: Episode): seq<Episode> {
    if e.episodeId !in r.serverIds && e.episodeId !in r.localIds then r.episodes + [e] else r.episodes
  }

  lemma PushValid(r: Records, e: Episode)
    requires Valid(r)
    ensures DistinctIds(Push(r, e))
    ensures IdSet(Push(r, e)) == r.localIds + r.serverIds + {e.episodeId}
  {
    var id := e.episodeId;
    if id !in r.serverIds && id !in r.localIds {
      IdSetAppend(r.episodes, e);
      var s := r.episodes + [e];
      forall i, j | 0 <= i < j < |s|
        ensures s[i].episodeId != s[j].episodeId
      {
        if j == |r.episodes| {
          assert s[i].episodeId in IdSet(r.episodes);
        }
      }
    } else {
      assert id in IdSet(r.episodes);
    }
  }

  /**
   * `push_local`: the id is recorded as local; a record is appended only
   * when the id was not downloaded anywhere.
   */
  function PushLocal(r: Records, e: Episode): (r': Records)
    ensures r'.localIds == r.localIds + {e.episodeId} && r'.serverIds == r.serverIds
    ensures !IsDownload(r, e.episodeId) ==> r'.episodes == r.episodes + [e]
    ensures IsDownload(r, e.episodeId) ==> r'.episodes == r.episodes
    ensures Valid(r) ==> Valid(r')
  {
    var r' := Records(Push(r, e), r.localIds + {e.episodeId}, r.serverIds);
    if Valid(r) then PushValid(r, e); r' else r'
  }

  /** `push_server`: as `push_local`, on the server set. */
  function PushServer(r: Records, e: Episode): (r': Records)
    ensures r'.serverIds == r.serverIds + {e.episodeId} && r'.localIds == r.localIds
    ensures !IsDownload(r, e.episodeId) ==> r'.episodes == r.episodes + [e]
    ensures IsDownload(r, e.episodeId) ==> r'.episodes == r.episodes
    ensures Valid(r) ==> Valid(r')
  {
    var r' := Records(Push(r, e), r.localIds, r.serverIds + {e.episodeId});
    if Valid(r) then PushValid(r, e); r' else r'
  }

  /** Pushing the same episode twice adds one record. */
  lemma PushTwiceAddsOnce(r: Records, e: Episode)
    ensures PushLocal(PushLocal(r, e), e) == PushLocal(r, e)
    ensures PushServer(PushLocal(r, e), e).episodes == PushLocal(r, e).episodes
  {
  }

  lemma RetainValid(r: Records, id: int, local: set<int>, server: set<int>)
    requires Valid(r)
    requires id !in local && id !in server
    requires local + server == (r.localIds + r.serverIds) - {id}
    ensures DistinctIds(WithoutId(r.episodes, id))
    ensures IdSet(WithoutId(r.episodes, id)) == local + server
  {
    var p := (e: Episode) => e.episodeId != id;
    FilterDistinct(r.episodes, p);
    forall x
      ensures x in IdSet(WithoutId(r.episodes, id)) <==> x in local + server
    {
      IdSetFilter(r.episodes, p, x);
      if x in local + server {
        assert x in IdSet(r.episodes);
      }
    }
  }

  /**
   * `remove_local`: the id is no longer local; its record goes too unless
   * the episode is still on the server.
   */
  function RemoveLocal(r: Records, id: int): (r': Records)
    ensures r'.localIds == r.localIds - {id} && r'.serverIds == r.serverIds
    ensures id in r.serverIds ==> r'.episodes == r.episodes
    ensures id !in r.serverIds ==> r'.episodes == WithoutId(r.episodes, id)
    ensures Valid(r) ==> Valid(r')
  {
    var eps := if id !in r.serverIds then WithoutId(r.episodes, id) else r.episodes;
    var r' := Records(eps, r.localIds - {id}, r.serverIds);
    if Valid(r) && id !in r.serverIds then RetainValid(r, id, r'.localIds, r'.serverIds); r' else r'
  }

  /** `remove_server`: as `remove_local`, on the server set. */
  function RemoveServer(r: Records, id: int): (r': Records)
    ensures r'.serverIds == r.serverIds - {id} && r'.localIds == r.localIds
    ensures id in r.localIds ==> r'.episodes == r.episodes
    ensures id !in r.localIds ==> r'.episodes == WithoutId(r.episodes, id)
    ensures Valid(r) ==> Valid(r')
  {
    var eps := if id !in r.localIds then WithoutId(r.episodes, id) else r.episodes;
    var r' := Records(eps, r.localIds, r.serverIds - {id});
    if Valid(r) && id !in r.localIds then RetainValid(r, id, r'.localIds, r'.serverIds); r' else r'
  }

  /** Downloading to the server and then removing that download restores the store. */
  lemma PushThenRemoveServer(r: Records, e: Episode)
    requires Valid(r) && !IsDownload(r, e.episodeId)
    ensures RemoveServer(PushServer(r, e), e.episodeId) == r
  {
    var id := e.episodeId;
    assert !HasId(r.episodes, id) by {
      DownloadIffRecorded(r, id);
    }
    var pushed := PushServer(r, e);
    assert pushed.episodes == r.episodes + [e];
    assert id !in pushed.localIds;
    WithoutAppended(r.episodes, e);
    assert pushed.serverIds - {id} == r.serverIds;
  }

  /** `clear`: no records, no ids. */
  function Clear(r: Records): (r': Records)
    ensures r'.episodes == [] && r'.localIds == {} && r'.serverIds == {}
    ensures Valid(r')
  {
    Empty
  }

  /**
   * The records a drained id set leaves: each drained id not in `keep`
   * loses its record.
   */
  function DropDrained(eps: seq<Episode>, drained: set<int>, keep: set<int>): (r: seq<Episode>)
    ensures forall i :: 0 <= i < |r| ==> !(r[i].episodeId in drained && r[i].episodeId !in keep)
    ensures forall e :: e in eps && !(e.episodeId in drained && e.episodeId !in keep) ==> e in r
    ensures Subseq(r, eps)
  {
    var p := (e: Episode) => !(e.episodeId in drained && e.episodeId !in keep);
    forall e | e in eps && p(e) ensures e in Filter(eps, p) { FilterKeeps(eps, p, e); }
    FilterSubseq(eps, p);
    Filter(eps, p)
  }

  lemma DropDrainedValid(r: Records, drained: set<int>, keep: set<int>, left: set<int>)
    requires Valid(r) && left == (r.localIds + r.serverIds) - (drained - keep)
    ensures DistinctIds(DropDrained(r.episodes, drained, keep))
    ensures IdSet(DropDrained(r.episodes, drained, keep)) == left
  {
    var p := (e: Episode) => !(e.episodeId in drained && e.episodeId !in keep);
    FilterDistinct(r.episodes, p);
    forall x
      ensures x in IdSet(DropDrained(r.episodes, drained, keep)) <==> x in left
    {
      IdSetFilter(r.episodes, p, x);
      if x in left {
        assert x in IdSet(r.episodes);
      }
    }
  }

  /**
   * `clear_local`: drains the local ids; episodes only downloaded locally
   * lose their record.
   */
  function ClearLocal(r: Records): (r': Records)
    ensures r'.localIds == {} && r'.serverIds == r.serverIds
    ensures forall id :: !IsLocalDownload(r', id)
    ensures Subseq(r'.episodes, r.episodes)
    ensures forall e :: e in r.episodes && (e.episodeId !in r.localIds || e.episodeId in r.serverIds) ==> e in r'.episodes
    ensures Valid(r) ==> Valid(r') && IdSet(r'.episodes) == r.serverIds
  {
    var r' := Records(DropDrained(r.episodes, r.localIds, r.serverIds), {}, r.serverIds);
    if Valid(r) then DropDrainedValid(r, r.localIds, r.serverIds, r.serverIds); r' else r'
  }

  /**
   * `clear_server` as written: its body is a copy of `clear_local`, so it
   * drains the LOCAL ids and leaves every server download recorded.
   */
  function ClearServerAsWritten(r: Records): (r': Records)
    ensures r' == ClearLocal(r)
    ensures r'.serverIds == r.serverIds && r'.localIds == {}
    ensures Valid(r) ==> IdSet(r'.episodes) == r.serverIds
  {
    Records(DropDrained(r.episodes, r.localIds, r.serverIds), {}, r.serverIds)
  }

  /** After "clearing" the server downloads, a server download is still reported. */
  lemma ClearServerAsWrittenKeepsServerDownloads(e: Episode)
    ensures var r := PushServer(Empty, e);
      IsServerDownload(ClearServerAsWritten(r), e.episodeId)
  {
  }

  /**
   * `clear_server` as its name and doc comment describe: drains the server
   * ids; episodes only downloaded to the server lose their record.
   */
  function ClearServer(r: Records): (r': Records)
    ensures r'.serverIds == {} && r'.localIds == r.localIds
    ensures forall id :: !IsServerDownload(r', id)
    ensures Subseq(r'.episodes, r.episodes)
    ensures forall e :: e in r.episodes && (e.episodeId !in r.serverIds || e.episodeId in r.localIds) ==> e in r'.episodes
    ensures Valid(r) ==> Valid(r') && IdSet(r'.episodes) == r.localIds
  {
    var r' := Records(DropDrained(r.episodes, r.serverIds, r.localIds), r.localIds, {});
    if Valid(r) then DropDrainedValid(r, r.serverIds, r.localIds, r.localIds); r' else r'
  }

  /** Clearing both kinds of download, in either order, leaves no record. */
  lemma ClearBothEmpties(r: Records)
    requires Valid(r)
    ensures ClearServer(ClearLocal(r)).episodes == []
    ensures ClearLocal(ClearServer(r)).episodes == []
  {
    var c := ClearLocal(r);
    var a := ClearServer(c);
    assert Valid(c) && Valid(a);
    NoIdsNoRecords(a.episodes);
    var d := ClearServer(r);
    var b := ClearLocal(d);
    assert Valid(d) && Valid(b);
    NoIdsNoRecords(b.episodes);
  }

  lemma NoIdsNoRecords(eps: seq<Episode>)
    ensures IdSet(eps) == {} <==> eps == []
  {
    if eps != [] {
      assert eps[0].episodeId in IdSet(eps);
    }
  }

  lemma {:induction false} IdSetSize(eps: seq<Episode>)
    requires DistinctIds(eps)
    ensures |IdSet(eps)| == |eps|
    decreases |eps|
  {
    if |eps| > 0 {
      var init := eps[..|eps| - 1];
      var last := eps[|eps| - 1];
      assert eps == init + [last];
      IdSetSize(init);
      IdSetAppend(init, last);
      assert last.episodeId !in IdSet(init);
    }
  }

  /** `len()`: in a valid store, the number of episodes downloaded anywhere. */
  function Len(r: Records): (n: nat)
    ensures Valid(r) ==> n == |r.localIds + r.serverIds|
  {
    if Valid(r) then IdSetSize(r.episodes); |r.episodes| else |r.episodes|
  }
}

/**
 * The application-wide reducer messages. `apply` edits a copy of the state
 * and then returns the original, so none of its edits take effect.
 */
module AppStateReducer {
  import opened Wrappers
  import opened Episodes

  /** The part of the global state the messages touch. */
  datatype AppState = AppState(
    expandedDescriptions: set<string>,
    isLoading: Option<bool>,
    selectedForDeletion: set<int>,
    savedEpisodes: seq<Episode>
  )

  datatype AppStateMsg =
    | ExpandEpisode(guid: string)
    | CollapseEpisode(guid: string)
    | SetLoading(loading: bool)
    | UpdateSelectedEpisodesForDeletion(episodeId: int)
    | DeleteSelectedEpisodes

  /** The edit each message makes to its copy of the state. */
  function Edit(msg: AppStateMsg, s: AppState): (r: AppState)
    ensures r.savedEpisodes == s.savedEpisodes
    ensures !(msg.ExpandEpisode? || msg.CollapseEpisode?) ==> r.expandedDescriptions == s.expandedDescriptions
    ensures !msg.SetLoading? ==> r.isLoading == s.isLoading
    ensures !(msg.UpdateSelectedEpisodesForDeletion? || msg.DeleteSelectedEpisodes?)
      ==> r.selectedForDeletion == s.selectedForDeletion
    ensures msg.ExpandEpisode? ==> forall g :: g in r.expandedDescriptions <==> g in s.expandedDescriptions || g == msg.guid
    ensures msg.CollapseEpisode? ==> forall g :: g in r.expandedDescriptions <==> g in s.expandedDescriptions && g != msg.guid
    ensures msg.SetLoading? ==> r.isLoading == Some(msg.loading)
    ensures msg.UpdateSelectedEpisodesForDeletion? ==>
      forall id :: id in r.selectedForDeletion <==> id in s.selectedForDeletion || id == msg.episodeId
    ensures msg.DeleteSelectedEpisodes? ==> r.selectedForDeletion == {}
  {
    match msg
    case ExpandEpisode(g) => s.(expandedDescriptions := s.expandedDescriptions + {g})
    case CollapseEpisode(g) => s.(expandedDescriptions := s.expandedDescriptions - {g})
    case SetLoading(b) => s.(isLoading := Some(b))
    case UpdateSelectedEpisodesForDeletion(id) => s.(selectedForDeletion := s.selectedForDeletion + {id})
    case DeleteSelectedEpisodes => s.(selectedForDeletion := {})
  }

  /** `apply` as written: the edited copy is dropped and `state` returned. */
  function ApplyAsWritten(msg: AppStateMsg, s: AppState): (r: AppState)
    ensures r == s
  {
    var edited := Edit(msg, s);
    s
  }

  /** Expanding a description has no effect through the reducer as written. */
  lemma ExpandIsLost(s: AppState, g: string)
    requires g !in s.expandedDescriptions
    ensures g !in ApplyAsWritten(ExpandEpisode(g), s).expandedDescriptions
    ensures g in Apply(ExpandEpisode(g), s).expandedDescriptions
  {
  }

  /** `apply` returning the edited state. */
  function Apply(msg: AppStateMsg, s: AppState): (r: AppState)
    ensures msg.ExpandEpisode? ==> r == s.(expandedDescriptions := s.expandedDescriptions + {msg.guid})
    ensures msg.CollapseEpisode? ==> r == s.(expandedDescriptions := s.expandedDescriptions - {msg.guid})
    ensures msg.SetLoading? ==> r == s.(isLoading := Some(msg.loading))
    ensures msg.UpdateSelectedEpisodesForDeletion? ==> r == s.(selectedForDeletion := s.selectedForDeletion + {msg.episodeId})
    ensures msg.DeleteSelectedEpisodes? ==> r == s.(selectedForDeletion := {})
  {
    Edit(msg, s)
  }

  /** Expanding then collapsing a description leaves it collapsed, others untouched. */
  lemma ExpandThenCollapse(s: AppState, g: string)
    ensures Apply(CollapseEpisode(g), Apply(ExpandEpisode(g), s)).expandedDescriptions
      == s.expandedDescriptions - {g}
  {
  }

  /** `saved_episode_ids`: the ids of the saved episodes, in order. */
  function SavedEpisodeIds(s: AppState): (ids: seq<int>)
    ensures |ids| == |s.savedEpisodes|
    ensures forall i :: 0 <= i < |ids| ==> ids[i] == s.savedEpisodes[i].episodeId
    ensures forall id :: id in ids <==> HasId(s.savedEpisodes, id)
  {
    forall id ensures id in Ids(s.savedEpisodes) <==> HasId(s.savedEpisodes, id) {
      IdsMembership(s.savedEpisodes, id);
    }
    Ids(s.savedEpisodes)
  }

  /**
   * The id list follows the saved list: saving an episode appends its id,
   * and removing an id's episodes removes the id.
   */
  lemma SavedEpisodeIdsTrackSaves(s: AppState, e: Episode, id: int)
    ensures SavedEpisodeIds(s.(savedEpisodes := s.savedEpisodes + [e])) == SavedEpisodeIds(s) + [e.episodeId]
    ensures id !in SavedEpisodeIds(s.(savedEpisodes := WithoutId(s.savedEpisodes, id)))
  {
    IdsAppend(s.savedEpisodes, [e]);
  }
}

=== FILE: context_menu.dfy ===
/**
 * The episode context menu: what each successful server call does to the
 * shared state, which call each toggle makes, and when the menu closes.
 * The server calls themselves are not modelled; each reducer below is the
 * state change made once its call has succeeded.
 */
module ContextMenu {
  import opened Wrappers
  import opened Seqs
  import opened Episodes
  import opened DownloadRecords

  /** What a toggle asks the server to do. */
  datatype Action = Add | Remove

  /** Every toggle removes when the episode already has the flag, and adds otherwise. */
  function ToggleAction(flag: bool): (a: Action)
    ensures a == Remove <==> flag
  {
    if flag then Remove else Add
  }

  // ---------------------------------------------------------------------
  // Queue
  // ---------------------------------------------------------------------

  /** The queue flag: the id is listed among the queued ids (an absent list counts as empty). */
  function IsQueued(queuedIds: Option<seq<int>>, id: int): (b: bool)
    ensures queuedIds.None? ==> !b
    ensures queuedIds.Some? ==> (b <==> multiset(queuedIds.value)[id] > 0)
  {
    id in queuedIds.UnwrapOr([])
  }

  /** Queue success: the id is appended when the id list exists; no duplicate check. */
  function OnQueued(queuedIds: Option<seq<int>>, id: int): (r: Option<seq<int>>)
    ensures queuedIds.None? ==> r.None?
    ensures queuedIds.Some? ==> r.Some? && |r.value| == |queuedIds.value| + 1 && r.value[..|queuedIds.value|] == queuedIds.value
    ensures queuedIds.Some? ==> r.value[|queuedIds.value|] == id
    ensures queuedIds.Some? ==> IsQueued(r, id)
  {
    match queuedIds
    case None => None
    case Some(ids) =>
      var r := ids + [id];
      assert r[|ids|] == id;
      assert r[..|ids|] == ids;
      Some(r)
  }

  /** Queueing an already queued episode lists it once more: nothing guards against duplicates. */
  lemma QueuedTwiceListedTwice(ids: seq<int>, id: int)
    ensures multiset(OnQueued(OnQueued(Some(ids), id), id).value)[id] == multiset(ids)[id] + 2
  {
    var once := OnQueued(Some(ids), id).value;
    assert once == ids + [id];
    assert OnQueued(Some(once), id).value == once + [id];
  }

  function NotId(id: int): int -> bool { x => x != id }

  /** Remove-queued success: every episode and every id entry for that episode goes. */
  function OnQueueRemoved(queued: Option<seq<Episode>>, queuedIds: Option<seq<int>>, id: int): (r: (Option<seq<Episode>>, Option<seq<int>>))
    ensures r.0.Some? <==> queued.Some?
    ensures r.1.Some? <==> queuedIds.Some?
    ensures queued.Some? ==> r.0.value == WithoutId(queued.value, id)
    ensures queuedIds.Some? ==> r.1.value == Filter(queuedIds.value, NotId(id)) && Subseq(r.1.value, queuedIds.value)
    ensures !IsQueued(r.1, id)
    ensures forall x :: x != id ==> (IsQueued(r.1, x) <==> IsQueued(queuedIds, x))
  {
    var eps := match queued case None => None case Some(q) => Some(WithoutId(q, id));
    match queuedIds
    case None => (eps, None)
    case Some(ids) =>
      forall x ensures x in Filter(ids, NotId(id)) <==> x in ids && x != id {
        FilterMember(ids, NotId(id), x);
      }
      FilterSubseq(ids, NotId(id));
      (eps, Some(Filter(ids, NotId(id))))
  }

  /** Queueing and then removing an episode that was not queued restores the id list. */
  lemma QueueThenRemove(ids: seq<int>, id: int)
    requires id !in ids
    ensures OnQueueRemoved(None, OnQueued(Some(ids), id), id).1 == Some(ids)
  {
    assert OnQueued(Some(ids), id) == Some(ids + [id]);
    FilterAppend(ids, [id], NotId(id));
    FilterAll(ids, NotId(id));
    assert Filter([id], NotId(id)) == Filter([id][1..], NotId(id)) == [];
    assert Filter(ids + [id], NotId(id)) == ids;
  }

  // ---------------------------------------------------------------------
  // Saved
  // ---------------------------------------------------------------------

  /** The save flag: some saved episode carries the id. */
  function IsSaved(saved: seq<Episode>, id: int): (b: bool)
    ensures b <==> exists e :: e in saved && e.episodeId == id
  {
    HasId(saved, id)
  }

  /** Save success: the episode is appended unless one with its id is already saved. */
  function OnSaved(saved: seq<Episode>, e: Episode): (r: seq<Episode>)
    ensures IsSaved(r, e.episodeId)
    ensures IsSaved(saved, e.episodeId) ==> r == saved
    ensures !IsSaved(saved, e.episodeId) ==> r == saved + [e]
    ensures DistinctIds(saved) ==> DistinctIds(r)
  {
    if IsSaved(saved, e.episodeId) then saved
    else
      var r := saved + [e];
      assert r[|saved|] == e;
      r
  }

  /** Remove-saved success: keeps exactly the episodes with other ids. */
  function OnSaveRemoved(saved: seq<Episode>, id: int): (r: seq<Episode>)
    ensures !IsSaved(r, id)
    ensures forall e :: e in r <==> e in saved && e.episodeId != id
  {
    var p := (e: Episode) => e.episodeId != id;
    forall e ensures e in Filter(saved, p) <==> e in saved && p(e) {
      FilterMember(saved, p, e);
    }
    WithoutId(saved, id)
  }

  /** Saving and then removing an episode that was not saved restores the list. */
  lemma SaveThenRemove(saved: seq<Episode>, e: Episode)
    requires !IsSaved(saved, e.episodeId)
    ensures OnSaveRemoved(OnSaved(saved, e), e.episodeId) == saved
  {
    FilterAppend(saved, [e], (x: Episode) => x.episodeId != e.episodeId);
    WithoutIdAbsent(saved, e.episodeId);
  }

  // ---------------------------------------------------------------------
  // Downloads
  // ---------------------------------------------------------------------

  /** The download flag the toggle reads: a download on the server. */
  function IsDownloaded(r: Records, id: int): (b: bool)
    ensures b <==> id in r.serverIds
    ensures Valid(r) && b ==> HasId(r.episodes, id)
  {
    if IsServerDownload(r, id) && Valid(r) then DownloadIffRecorded(r, id); true
    else IsServerDownload(r, id)
  }

  /** Server download success: the episode is recorded as a server download. */
  function OnDownloaded(r: Records, e: Episode): (r': Records)
    ensures IsDownloaded(r', e.episodeId)
    ensures Valid(r) ==> Valid(r')
  {
    PushServer(r, e)
  }

  /**
   * Remove-download success as written: the episode is removed from the
   * LOCAL downloads, although the call removed the server download.
   */
  function OnDownloadRemovedAsWritten(r: Records, id: int): (r': Records)
    ensures r'.serverIds == r.serverIds
  {
    RemoveLocal(r, id)
  }

  /** After removing a server download, the menu still reports it downloaded. */
  lemma RemovedDownloadStillShown(e: Episode)
    ensures var r := OnDownloaded(Empty, e);
      IsDownloaded(OnDownloadRemovedAsWritten(r, e.episodeId), e.episodeId)
      && ToggleAction(IsDownloaded(OnDownloadRemovedAsWritten(r, e.episodeId), e.episodeId)) == Remove
  {
  }

  /** Remove-download success acting on the server downloads the call removed. */
  function OnDownloadRemoved(r: Records, id: int): (r': Records)
    ensures !IsDownloaded(r', id)
    ensures r'.localIds == r.localIds
    ensures Valid(r) ==> Valid(r')
  {
    RemoveServer(r, id)
  }

  /** Downloading then removing the download restores the records. */
  lemma DownloadThenRemove(r: Records, e: Episode)
    requires Valid(r) && !IsDownload(r, e.episodeId)
    ensures OnDownloadRemoved(OnDownloaded(r, e), e.episodeId) == r
  {
    PushThenRemoveServer(r, e);
  }

  // ---------------------------------------------------------------------
  // Completed
  // ---------------------------------------------------------------------

  /** The completed flag: the id is listed among the completed ids (an absent list counts as empty). */
  function IsCompleted(completed: Option<seq<int>>, id: int): (b: bool)
    ensures completed.None? ==> !b
    ensures completed.Some? ==> (b <==> multiset(completed.value)[id] > 0)
  {
    id in completed.UnwrapOr([])
  }

  /**
   * Mark-complete and mark-uncomplete success share one reducer: the first
   * occurrence of the id is removed if there is one, otherwise the id is
   * appended; an absent list becomes `[id]`.
   */
  function OnCompletedToggled(completed: Option<seq<int>>, id: int): (r: Option<seq<int>>)
    ensures r.Some?
    ensures multiset(r.value)[id] == if IsCompleted(completed, id) then multiset(completed.value)[id] - 1 else 1
    ensures forall x :: x != id ==> multiset(r.value)[x] == multiset(completed.UnwrapOr([]))[x]
    ensures IsCompleted(completed, id) ==>
      var s, p := completed.value, IndexOf(completed.value, id).value; r.value == s[..p] + s[p + 1..]
    ensures !IsCompleted(completed, id) ==> r.value == completed.UnwrapOr([]) + [id]
  {
    match completed
    case None => Some([id])
    case Some(s) =>
      match IndexOf(s, id)
      case Some(p) =>
        assert s == s[..p] + [s[p]] + s[p + 1..];
        assert RemoveAt(s, p) == s[..p] + s[p + 1..];
        Some(RemoveAt(s, p))
      case None => Some(s + [id])
  }

  /** With no repeated ids, the toggle flips the completed flag. */
  lemma CompletedToggleFlips(completed: Option<seq<int>>, id: int)
    requires completed.Some? ==> multiset(completed.value)[id] <= 1
    ensures IsCompleted(OnCompletedToggled(completed, id), id) <==> !IsCompleted(completed, id)
  {
    var r := OnCompletedToggled(completed, id).value;
    assert id in r <==> multiset(r)[id] > 0;
    assert completed.Some? ==> (id in completed.value <==> multiset(completed.value)[id] > 0);
  }

  /**
   * Toggling twice gives back the same ids when none repeats, though an
   * id that was removed comes back at the end.
   */
  lemma CompletedToggleTwice(s: seq<int>, id: int)
    requires multiset(s)[id] <= 1
    ensures multiset(OnCompletedToggled(OnCompletedToggled(Some(s), id), id).value) == multiset(s)
    ensures id !in s ==> OnCompletedToggled(OnCompletedToggled(Some(s), id), id) == Some(s)
  {
    var once := OnCompletedToggled(Some(s), id);
    var twice := OnCompletedToggled(once, id);
    assert id in s <==> multiset(s)[id] > 0;
    assert id in once.value <==> multiset(once.value)[id] > 0;
    assert multiset(twice.value)[id] == multiset(s)[id];
    if id !in s {
      var t := s + [id];
      assert IndexOf(t, id) == Some(|s|);
      assert RemoveAt(t, |s|) == s;
    }
  }

  // ---------------------------------------------------------------------
  // Closing the menu
  // ---------------------------------------------------------------------

  /** The menu's open flag and whether the long-press caller is told it closed. */
  datatype Closing = Closing(open: bool, notifyClose: bool)

  /** `close_dropdown`: always closes; tells the caller only for a long-press menu with a close callback. */
  function CloseDropdown(showMenuOnly: bool, hasOnClose: bool): (c: Closing)
    ensures !c.open
    ensures c.notifyClose <==> showMenuOnly && hasOnClose
  {
    Closing(false, showMenuOnly && hasOnClose)
  }

  /** Where a document click or touch landed, if on an HTML element. */
  datatype Hit = Hit(inDropdown: bool, inButton: Option<bool>)

  /**
   * The document listener: an open menu closes when the event hits an HTML
   * element outside the dropdown and outside the button; a menu without a
   * button (the long-press menu) has only the dropdown to hit.
   */
  function OutsideInteraction(open: bool, target: Option<Hit>, dropdownMounted: bool, showMenuOnly: bool, hasOnClose: bool): (c: Closing)
    ensures c.open <==> (open && !(target.Some? && dropdownMounted && !target.value.inDropdown
      && (target.value.inButton.None? || !target.value.inButton.value)))
    ensures c.notifyClose ==> open && !c.open && showMenuOnly && hasOnClose
  {
    if open && target.Some? && dropdownMounted then
      var outsideDropdown := !target.value.inDropdown;
      var outsideButton := match target.value.inButton case None => true case Some(inside) => !inside;
      if outsideDropdown && outsideButton then CloseDropdown(showMenuOnly, hasOnClose)
      else Closing(open, false)
    else Closing(open, false)
  }

  /** A click on the menu's own button never closes it from the document listener. */
  lemma ButtonClickKeepsOpen(inDropdown: bool, showMenuOnly: bool, hasOnClose: bool)
    ensures OutsideInteraction(true, Some(Hit(inDropdown, Some(true))), true, showMenuOnly, hasOnClose).open
  {
  }
}

=== FILE: episode_filter.dfy ===
/**
 * The filter-and-sort pipeline the saved page and the history page share:
 * a case-insensitive search over title and description, a completion
 * filter, and a stable sort in one of six directions chosen from a select
 * box and remembered as a stored preference. Lower-casing is Unicode
 * library code and is a parameter here.
 */
module EpisodeFilter {
  import opened Wrappers
  import opened Strings
  import opened Seqs
  import opened Episodes
  import opened Sorting

  datatype SortDirection = NewestFirst | OldestFirst | ShortestFirst | LongestFirst | TitleAZ | TitleZA

  /** The select box's option value (and stored preference) for each direction. */
  function OptionValue(d: SortDirection): (v: string)
    ensures |v| > 0
  {
    match d
    case NewestFirst => "newest"
    case OldestFirst => "oldest"
    case ShortestFirst => "shortest"
    case LongestFirst => "longest"
    case TitleAZ => "title_az"
    case TitleZA => "title_za"
  }

  /** The select box's change handler: an unknown value turns sorting off. */
  function SelectValue(v: string): (r: Option<SortDirection>)
    ensures r.Some? ==> OptionValue(r.value) == v
  {
    match v
    case "newest" => Some(NewestFirst)
    case "oldest" => Some(OldestFirst)
    case "shortest" => Some(ShortestFirst)
    case "longest" => Some(LongestFirst)
    case "title_az" => Some(TitleAZ)
    case "title_za" => Some(TitleZA)
    case _ => None
  }

  /** The direction at page load: the stored preference, newest first when absent or unknown. */
  function InitialDirection(stored: Option<string>): (r: SortDirection)
    ensures stored.Some? && SelectValue(stored.value).Some? ==> r == SelectValue(stored.value).value
    ensures stored.None? ==> r == NewestFirst
  {
    match stored
    case None => NewestFirst
    case Some(v) => SelectValue(v).UnwrapOr(NewestFirst)
  }

  /**
   * The sort state both pages start with: sorting is on, in the stored
   * direction when it is known and newest first otherwise.
   */
  function InitialSort(stored: Option<string>): (d: Option<SortDirection>)
    ensures d.Some?
    ensures stored.None? ==> d == Some(NewestFirst)
    ensures forall dir :: stored == Some(OptionValue(dir)) ==> d == Some(dir)
  {
    forall dir ensures SelectValue(OptionValue(dir)) == Some(dir) {
      OptionValueRoundTrip(dir);
    }
    Some(InitialDirection(stored))
  }

  /** Every direction survives being chosen, stored and read back. */
  lemma OptionValueRoundTrip(d: SortDirection)
    ensures SelectValue(OptionValue(d)) == Some(d)
    ensures InitialDirection(Some(OptionValue(d))) == d
  {
  }

  /**
   * The select handler stores the raw value and applies it at once: an
   * unknown value leaves the list unsorted now, yet sorted newest first
   * after the next load.
   */
  lemma UnknownValueDiverges(v: string)
    requires SelectValue(v).None?
    ensures InitialDirection(Some(v)) == NewestFirst
  {
  }

  /** The filter chips and the search box. */
  datatype Filters = Filters(search: string, showCompleted: bool, showInProgress: bool)

  const NoFilters := Filters("", false, false)

  /** Search: an empty term matches everything; otherwise title or description contains it, ignoring case. */
  predicate MatchesSearch(e: Episode, search: string, lower: string -> string) {
    search == [] || Contains(lower(e.title), lower(search)) || Contains(lower(e.description), lower(search))
  }

  /** Status: the completed chip wins over the in-progress chip. */
  predicate MatchesStatus(e: Episode, showCompleted: bool, showInProgress: bool) {
    if showCompleted then e.completed
    else if showInProgress then e.listenDuration > 0 && !e.completed
    else true
  }

  function Keep(f: Filters, lower: string -> string): Episode -> bool {
    e => MatchesSearch(e, f.search, lower) && MatchesStatus(e, f.showCompleted, f.showInProgress)
  }

  /** `a` may be listed before `b` under direction `d`. */
  predicate Before(d: SortDirection, a: Episode, b: Episode) {
    match d
    case NewestFirst => StrLe(b.pubDate, a.pubDate)
    case OldestFirst => StrLe(a.pubDate, b.pubDate)
    case ShortestFirst => a.duration <= b.duration
    case LongestFirst => b.duration <= a.duration
    case TitleAZ => StrLe(a.title, b.title)
    case TitleZA => StrLe(b.title, a.title)
  }

  function Comparator(d: SortDirection): (Episode, Episode) -> bool {
    (a, b) => Before(d, a, b)
  }

  lemma ComparatorIsPreorder(d: SortDirection)
    ensures TotalPreorder(Comparator(d))
  {
    var leq := Comparator(d);
    forall a, b ensures leq(a, b) || leq(b, a) {
      StrLeTotal(a.pubDate, b.pubDate);
      StrLeTotal(a.title, b.title);
    }
    forall a, b, c | leq(a, b) && leq(b, c) ensures leq(a, c) {
      match d
      case NewestFirst => StrLeTrans(c.pubDate, b.pubDate, a.pubDate);
      case OldestFirst => StrLeTrans(a.pubDate, b.pubDate, c.pubDate);
      case TitleAZ => StrLeTrans(a.title, b.title, c.title);
      case TitleZA => StrLeTrans(c.title, b.title, a.title);
      case ShortestFirst =>
      case LongestFirst =>
    }
  }

  /**
   * The memoised list: the episodes that pass both filters, stably sorted
   * when a direction is chosen and in their stored order otherwise.
   */
  function Pipeline(eps: seq<Episode>, f: Filters, dir: Option<SortDirection>, lower: string -> string): (r: seq<Episode>)
    ensures multiset(r) == multiset(Filter(eps, Keep(f, lower)))
    ensures forall e :: e in r <==> e in eps && Keep(f, lower)(e)
    ensures dir.None? ==> r == Filter(eps, Keep(f, lower))
    ensures dir.Some? ==> Sorted(r, Comparator(dir.value))
    ensures eps == [] ==> r == []
  {
    var kept := Filter(eps, Keep(f, lower));
    forall e ensures e in kept <==> e in eps && Keep(f, lower)(e) {
      FilterMember(eps, Keep(f, lower), e);
    }
    if |eps| > 0 then
      match dir
      case None => kept
      case Some(d) =>
        ComparatorIsPreorder(d);
        SortBySorted(kept, Comparator(d));
        var r := SortBy(kept, Comparator(d));
        assert forall e :: e in r <==> e in multiset(r);
        r
    else []
  }

  /** Episodes the chosen direction ties keep the order they were stored in. */
  lemma PipelineStable(eps: seq<Episode>, f: Filters, d: SortDirection, lower: string -> string, x: Episode)
    ensures Filter(Pipeline(eps, f, Some(d), lower), Peers(Comparator(d), x))
         == Filter(Filter(eps, Keep(f, lower)), Peers(Comparator(d), x))
  {
    if |eps| > 0 {
      ComparatorIsPreorder(d);
      SortByStable(Filter(eps, Keep(f, lower)), Comparator(d), x);
    }
  }

  /** With no filter set, every episode is listed. */
  lemma NoFiltersKeepsAll(eps: seq<Episode>, lower: string -> string)
    ensures Pipeline(eps, NoFilters, None, lower) == eps
  {
    FilterAll(eps, Keep(NoFilters, lower));
  }

  /** Listing completed episodes only: nothing unfinished shows, whatever the in-progress chip says. */
  lemma CompletedChipWins(eps: seq<Episode>, search: string, inProgress: bool, dir: Option<SortDirection>, lower: string -> string)
    ensures forall e :: e in Pipeline(eps, Filters(search, true, inProgress), dir, lower) ==> e.completed
  {
  }

  /** "Clear all": both chips off and an empty search. */
  function ClearAll(f: Filters): (r: Filters)
    ensures r.search == [] && !r.showCompleted && !r.showInProgress
    ensures forall e, lower :: Keep(r, lower)(e)
  {
    NoFilters
  }

  /**
   * The completed chip as written: it flips its flag and clears the other
   * flag only when its own flag was set before the click, that is, when
   * it is being turned off.
   */
  function ToggleCompletedAsWritten(f: Filters): (r: Filters)
    ensures r.showCompleted == !f.showCompleted && r.search == f.search
    ensures f.showCompleted ==> !r.showInProgress
    ensures !f.showCompleted ==> r.showInProgress == f.showInProgress
  {
    f.(showCompleted := !f.showCompleted, showInProgress := if f.showCompleted then false else f.showInProgress)
  }

  /** The in-progress chip as written, symmetric to the completed chip. */
  function ToggleInProgressAsWritten(f: Filters): (r: Filters)
    ensures r.showInProgress == !f.showInProgress && r.search == f.search
    ensures f.showInProgress ==> !r.showCompleted
    ensures !f.showInProgress ==> r.showCompleted == f.showCompleted
  {
    f.(showInProgress := !f.showInProgress, showCompleted := if f.showInProgress then false else f.showCompleted)
  }

  /** Clicking both chips from a clear state lights both. */
  lemma BothChipsLit()
    ensures var f := ToggleInProgressAsWritten(ToggleCompletedAsWritten(NoFilters));
      f.showCompleted && f.showInProgress
  {
  }

  /** Only one chip may be lit. */
  predicate ChipsExclusive(f: Filters) {
    !(f.showCompleted && f.showInProgress)
  }

  /** The completed chip turning the other chip off when it turns on. */
  function ToggleCompleted(f: Filters): (r: Filters)
    ensures r.showCompleted == !f.showCompleted && r.search == f.search
    ensures r.showCompleted ==> !r.showInProgress
    ensures !r.showCompleted ==> r.showInProgress == f.showInProgress
    ensures ChipsExclusive(f) ==> ChipsExclusive(r)
  {
    var on := !f.showCompleted;
    f.(showCompleted := on, showInProgress := if on then false else f.showInProgress)
  }

  /** The in-progress chip turning the other chip off when it turns on. */
  function ToggleInProgress(f: Filters): (r: Filters)
    ensures r.showInProgress == !f.showInProgress && r.search == f.search
    ensures r.showInProgress ==> !r.showCompleted
    ensures !r.showInProgress ==> r.showCompleted == f.showCompleted
    ensures ChipsExclusive(f) ==> ChipsExclusive(r)
  {
    var on := !f.showInProgress;
    f.(showInProgress := on, showCompleted := if on then false else f.showCompleted)
  }

  /** With exclusive chips, the status filter matches exactly the lit chip. */
  lemma ExclusiveChipsMeanOneFilter(f: Filters, e: Episode)
    requires ChipsExclusive(f)
    ensures f.showInProgress ==> (MatchesStatus(e, f.showCompleted, f.showInProgress) <==> e.listenDuration > 0 && !e.completed)
  {
  }
}

=== FILE: episode_list_item.dfy ===
/**
 * The per-episode card: its listen-progress percentage, the audio source
 * it opens the show notes with, and the drag attributes it exposes to the
 * reorderable lists. The card height and the narrow-layout check live in
 * `ItemGeometry`.
 */
module EpisodeListItem {
  import opened Wrappers
  import opened Strings
  import opened VirtualList
  import opened QueueDrag

  function Min(a: int, b: int): int { if a <= b then a else b }

  // ---------------------------------------------------------------------
  // Listen percentage
  // ---------------------------------------------------------------------

  /**
   * The progress percentage as written, on the `i32` fields of the episode
   * record: `listen * 100` wraps in a release build, `/` truncates toward
   * zero, and a zero divisor (or `i32::MIN / -1`) panics, shown as `None`.
   */
  function ListenPercentageAsWritten(listen: int, duration: int): (r: Option<int>)
    requires InI32(listen) && InI32(duration)
    ensures listen <= 0 ==> r == Some(0)
    ensures listen > 0 && duration == 0 ==> r.None?
    ensures r.Some? ==> r.value <= 100
  {
    if listen > 0 then
      var product := WrapI32(listen * 100);
      if duration == 0 || (product == I32Min && duration == -1) then None
      else Some(Min(TruncDiv(product, duration), 100))
    else Some(0)
  }

  /**
   * The percentage the progress bar is meant to show: the whole percent of
   * the episode listened to, capped at 100, and 0 when nothing is known.
   */
  function ListenPercentage(listen: int, duration: int): (p: int)
    ensures 0 <= p <= 100
    ensures listen <= 0 || duration <= 0 ==> p == 0
    ensures 0 < duration <= listen ==> p == 100
    ensures 0 < listen < duration ==> p * duration <= listen * 100 < (p + 1) * duration
  {
    if listen > 0 && duration > 0 then
      var p := Min(listen * 100 / duration, 100);
      PercentBounds(listen, duration);
      p
    else 0
  }

  lemma PercentBounds(listen: int, duration: int)
    requires listen > 0 && duration > 0
    ensures var q := listen * 100 / duration;
      q * duration <= listen * 100 < (q + 1) * duration
      && (listen >= duration ==> q >= 100)
      && (listen < duration ==> q < 100)
  {
    var x := listen * 100;
    var q := x / duration;
    var m := x % duration;
    assert x == q * duration + m && 0 <= m < duration;
    MulStep(q, duration);
    if listen >= duration && q < 100 {
      MulLe(q, 99, duration);
    }
    if listen < duration && q >= 100 {
      MulLe(100, q, duration);
    }
  }

  lemma MulStep(q: int, d: int)
    ensures (q + 1) * d == q * d + d
  {
  }

  lemma MulLe(a: int, b: int, d: int)
    requires a <= b && d >= 0
    ensures a * d <= b * d
  {
    assert b * d - a * d == (b - a) * d;
  }

  /** Whenever the written expression cannot overflow or divide by zero, it computes the intended percentage. */
  lemma {:induction false} ListenPercentageAgrees(listen: int, duration: int)
    requires InI32(listen) && 0 < duration <= I32Max
    requires listen * 100 <= I32Max
    ensures ListenPercentageAsWritten(listen, duration) == Some(ListenPercentage(listen, duration))
  {
    if listen > 0 {
      assert InI32(listen * 100);
      assert WrapI32(listen * 100) == listen * 100;
      assert TruncDiv(listen * 100, duration) == listen * 100 / duration;
    }
  }

  /** A partly played episode whose duration is missing (0) makes the card panic. */
  lemma ZeroDurationPanics()
    ensures ListenPercentageAsWritten(30, 0).None?
    ensures ListenPercentage(30, 0) == 0
  {
  }

  /** Half of a very long episode wraps around to a negative percentage. */
  lemma LongEpisodeWraps()
    ensures ListenPercentageAsWritten(30_000_000, 60_000_000) == Some(-21)
    ensures ListenPercentage(30_000_000, 60_000_000) == 50
  {
    assert WrapI32(3_000_000_000) == -1_294_967_296;
    assert TruncDiv(-1_294_967_296, 60_000_000) == -21;
  }

  // ---------------------------------------------------------------------
  // Stream source
  // ---------------------------------------------------------------------

  /** The server's stream endpoint for one episode. */
  function StreamUrl(server: string, episodeId: int, apiKey: string, userId: int): (u: string)
    ensures StartsWith(u, server + "/api/data/stream/")
  {
    server + "/api/data/stream/" + IntToString(episodeId) + "?api_key=" + apiKey + "&user_id=" + IntToString(userId)
  }

  /**
   * The URL handed to the player from the show-notes link: YouTube
   * episodes stream from the server with a type marker, other episodes
   * downloaded locally stream from the server, everything else plays from
   * the feed's own URL.
   */
  function StreamSource(episodeUrl: string, isLocal: bool, server: string, episodeId: int, apiKey: string, userId: int): (src: string)
    ensures Contains(episodeUrl, "youtube.com") ==> src == StreamUrl(server, episodeId, apiKey, userId) + "&type=youtube"
    ensures !Contains(episodeUrl, "youtube.com") && isLocal ==> src == StreamUrl(server, episodeId, apiKey, userId)
    ensures !Contains(episodeUrl, "youtube.com") && !isLocal ==> src == episodeUrl
  {
    if Contains(episodeUrl, "youtube.com") then StreamUrl(server, episodeId, apiKey, userId) + "&type=youtube"
    else if isLocal then StreamUrl(server, episodeId, apiKey, userId)
    else episodeUrl
  }

  /** Different episodes get different stream URLs from the same server and credentials. */
  lemma StreamUrlInjective(server: string, id1: int, id2: int, apiKey: string, userId: int)
    requires InI32(id1) && InI32(id2)
    requires StreamUrl(server, id1, apiKey, userId) == StreamUrl(server, id2, apiKey, userId)
    ensures id1 == id2
  {
    var p := server + "/api/data/stream/";
    var t := "?api_key=" + apiKey + "&user_id=" + IntToString(userId);
    StreamUrlSplit(server, id1, apiKey, userId);
    StreamUrlSplit(server, id2, apiKey, userId);
    var a, b := IntToString(id1), IntToString(id2);
    assert |a| == |b|;
    assert a == (p + a + t)[|p|..|p| + |a|];
    assert b == (p + b + t)[|p|..|p| + |b|];
    IntToStringInjective(id1, id2);
  }

  lemma StreamUrlSplit(server: string, id: int, apiKey: string, userId: int)
    ensures StreamUrl(server, id, apiKey, userId)
         == (server + "/api/data/stream/") + IntToString(id) + ("?api_key=" + apiKey + "&user_id=" + IntToString(userId))
  {
  }

  // ---------------------------------------------------------------------
  // Drag attributes
  // ---------------------------------------------------------------------

  /** The attributes the card puts on its root element for drag and drop. */
  datatype DragAttributes = DragAttributes(draggable: string, dataId: string, handle: bool)

  function CardDragAttributes(callbacks: DragCallbacks, episodeId: int): (a: DragAttributes)
    ensures a.draggable == "true" <==> callbacks.Draggable()
    ensures a.draggable == "false" <==> !callbacks.Draggable()
    ensures a.handle <==> callbacks.Draggable()
    ensures InI32(episodeId) ==> DragStart(Some(a.dataId)) == Started(episodeId)
  {
    var a := DragAttributes(BoolText(callbacks.Draggable()), IntToString(episodeId), callbacks.Draggable());
    if InI32(episodeId) then
      DragStartOfRenderedRow(episodeId);
      a
    else a
  }

  /** Without drag callbacks a card is neither draggable nor shows a handle. */
  lemma DefaultCardIsStatic(episodeId: int)
    ensures !CardDragAttributes(NoDragCallbacks, episodeId).handle
    ensures CardDragAttributes(NoDragCallbacks, episodeId).draggable == "false"
  {
  }
}

=== FILE: episodes.dfy ===
/**
 * The episode record every list in the client displays, and the id lists
 * the pages derive from episode lists.
 */
module Episodes {
  import opened Wrappers
  import opened Seqs

  /**
   * One episode as the server returns it. Fields the modelled logic never
   * reads (author, categories, artwork, guid, ...) are omitted.
   */
  datatype Episode = Episode(
    podcastId: int,
    podcastName: string,
    title: string,
    description: string,
    feedUrl: string,
    episodeId: int,
    url: string,
    pubDate: string,
    duration: int,
    listenDuration: int,
    completed: bool,
    saved: bool,
    queued: bool,
    downloaded: bool,
    isYoutube: bool
  )

  /** A JSON `null` listen duration is read as zero. */
  function ListenDurationFromJson(v: Option<int>): (r: int)
    ensures v.Some? ==> r == v.value
    ensures v.None? ==> r == 0
  {
    v.UnwrapOr(0)
  }

  /** `episodes.iter().map(|e| e.episodeid).collect()` */
  function Ids(eps: seq<Episode>): (r: seq<int>)
    ensures |r| == |eps|
    ensures forall i :: 0 <= i < |eps| ==> r[i] == eps[i].episodeId
    decreases |eps|
  {
    if |eps| == 0 then [] else [eps[0].episodeId] + Ids(eps[1..])
  }

  lemma {:induction false} IdsAppend(a: seq<Episode>, b: seq<Episode>)
    ensures Ids(a + b) == Ids(a) + Ids(b)
  {
    assert |Ids(a + b)| == |Ids(a) + Ids(b)|;
    forall i | 0 <= i < |a + b|
      ensures Ids(a + b)[i] == (Ids(a) + Ids(b))[i]
    {
      if i < |a| {
        assert (a + b)[i] == a[i];
      } else {
        assert (a + b)[i] == b[i - |a|];
      }
    }
  }

  lemma IdsMembership(eps: seq<Episode>, id: int)
    ensures id in Ids(eps) <==> exists i :: 0 <= i < |eps| && eps[i].episodeId == id
  {
    if id in Ids(eps) {
      var k :| 0 <= k < |Ids(eps)| && Ids(eps)[k] == id;
      assert eps[k].episodeId == id;
    }
  }

  /** No two episodes of the list share an id. */
  predicate DistinctIds(eps: seq<Episode>) {
    forall i, j :: 0 <= i < j < |eps| ==> eps[i].episodeId != eps[j].episodeId
  }

  /** Some episode of the list has this id. */
  predicate HasId(eps: seq<Episode>, id: int) {
    exists i :: 0 <= i < |eps| && eps[i].episodeId == id
  }

  /** The episodes whose id differs from `id`, in order (`retain(|e| e.episodeid != id)`). */
  function WithoutId(eps: seq<Episode>, id: int): (r: seq<Episode>)
    ensures !HasId(r, id)
    ensures |r| <= |eps|
    ensures Subseq(r, eps)
  {
    var p := (e: Episode) => e.episodeId != id;
    FilterSubseq(eps, p);
    Filter(eps, p)
  }

  /** `WithoutId` keeps every other episode, once each. */
  lemma WithoutIdKeepsOthers(eps: seq<Episode>, id: int, e: Episode)
    requires e.episodeId != id
    ensures multiset(WithoutId(eps, id))[e] == multiset(eps)[e]
  {
    FilterCount(eps, (x: Episode) => x.episodeId != id, e);
  }

  lemma WithoutIdAbsent(eps: seq<Episode>, id: int)
    requires !HasId(eps, id)
    ensures WithoutId(eps, id) == eps
  {
    FilterAll(eps, (e: Episode) => e.episodeId != id);
  }

  /** Removing the id of an episode just appended to a list without it gives the list back. */
  lemma WithoutAppended(eps: seq<Episode>, e: Episode)
    requires !HasId(eps, e.episodeId)
    ensures WithoutId(eps + [e], e.episodeId) == eps
  {
    var p := (x: Episode) => x.episodeId != e.episodeId;
    FilterAppend(eps, [e], p);
    FilterNone([e], p);
    WithoutIdAbsent(eps, e.episodeId);
    assert Filter(eps, p) + Filter([e], p) == eps + [];
  }

  /** Filtering keeps the ids distinct. */
  lemma {:induction false} FilterDistinct(eps: seq<Episode>, p: Episode -> bool)
    requires DistinctIds(eps)
    ensures DistinctIds(Filter(eps, p))
    decreases |eps|
  {
    if |eps| > 0 {
      FilterDistinct(eps[1..], p);
      var rest := Filter(eps[1..], p);
      if p(eps[0]) {
        forall i | 0 <= i < |rest|
          ensures rest[i].episodeId != eps[0].episodeId
        {
          assert rest[i] in eps[1..];
        }
        var r := [eps[0]] + rest;
        forall i, j | 0 <= i < j < |r|
          ensures r[i].episodeId != r[j].episodeId
        {
          if i > 0 {
            assert r[i] == rest[i - 1] && r[j] == rest[j - 1];
          }
        }
      }
    }
  }

  /**
   * The ids of the episodes that satisfy a flag, in list order: the shape of
   * the "completed/saved/queued/downloaded ids" lists the pages derive.
   */
  function IdsWhere(eps: seq<Episode>, flag: Episode -> bool): (r: seq<int>)
    ensures |r| <= |eps|
  {
    Ids(Filter(eps, flag))
  }

  /** An id is listed exactly when some flagged episode carries it. */
  lemma IdsWhereMembership(eps: seq<Episode>, flag: Episode -> bool, id: int)
    ensures id in IdsWhere(eps, flag)
        <==> exists i :: 0 <= i < |eps| && flag(eps[i]) && eps[i].episodeId == id
  {
    var f := Filter(eps, flag);
    IdsMembership(f, id);
    if id in IdsWhere(eps, flag) {
      var k :| 0 <= k < |f| && f[k].episodeId == id;
      assert f[k] in eps;
    } else {
      forall i | 0 <= i < |eps| && flag(eps[i])
        ensures eps[i].episodeId != id
      {
        FilterKeeps(eps, flag, eps[i]);
      }
    }
  }

  /** Deriving ids over a concatenation concatenates the derived ids. */
  lemma IdsWhereAppend(a: seq<Episode>, b: seq<Episode>, flag: Episode -> bool)
    ensures IdsWhere(a + b, flag) == IdsWhere(a, flag) + IdsWhere(b, flag)
  {
    FilterAppend(a, b, flag);
    IdsAppend(Filter(a, flag), Filter(b, flag));
  }

  /** Dropping episodes leaves their ids a subsequence of the original ids. */
  lemma {:induction false} IdsOfFilterSubseq(eps: seq<Episode>, flag: Episode -> bool)
    ensures Subseq(Ids(Filter(eps, flag)), Ids(eps))
    decreases |eps|
  {
    if |eps| > 0 {
      IdsOfFilterSubseq(eps[1..], flag);
      assert Ids(eps)[1..] == Ids(eps[1..]);
      if flag(eps[0]) {
        assert Filter(eps, flag) == [eps[0]] + Filter(eps[1..], flag);
        assert Ids(Filter(eps, flag))[1..] == Ids(Filter(eps[1..], flag));
      }
    }
  }

  predicate IsCompleted(e: Episode) { e.completed }
  predicate IsSaved(e: Episode) { e.saved }
  predicate IsQueued(e: Episode) { e.queued }
  predicate IsDownloaded(e: Episode) { e.downloaded }

  /** The four id lists a page derives from the episodes it fetched. */
  datatype FlagIds = FlagIds(completed: seq<int>, saved: seq<int>, queued: seq<int>, downloaded: seq<int>)

  /**
   * The completed, saved, queued and downloaded ids: each lists the ids of
   * the episodes carrying that flag, in fetch order, as a subsequence of
   * the fetched ids.
   */
  function DeriveFlagIds(eps: seq<Episode>): (r: FlagIds)
    ensures forall id :: id in r.completed <==> exists i :: 0 <= i < |eps| && eps[i].completed && eps[i].episodeId == id
    ensures forall id :: id in r.saved <==> exists i :: 0 <= i < |eps| && eps[i].saved && eps[i].episodeId == id
    ensures forall id :: id in r.queued <==> exists i :: 0 <= i < |eps| && eps[i].queued && eps[i].episodeId == id
    ensures forall id :: id in r.downloaded <==> exists i :: 0 <= i < |eps| && eps[i].downloaded && eps[i].episodeId == id
    ensures Subseq(r.completed, Ids(eps)) && Subseq(r.saved, Ids(eps))
    ensures Subseq(r.queued, Ids(eps)) && Subseq(r.downloaded, Ids(eps))
  {
    forall id ensures id in IdsWhere(eps, IsCompleted) <==> exists i :: 0 <= i < |eps| && eps[i].completed && eps[i].episodeId == id {
      IdsWhereMembership(eps, IsCompleted, id);
    }
    forall id ensures id in IdsWhere(eps, IsSaved) <==> exists i :: 0 <= i < |eps| && eps[i].saved && eps[i].episodeId == id {
      IdsWhereMembership(eps, IsSaved, id);
    }
    forall id ensures id in IdsWhere(eps, IsQueued) <==> exists i :: 0 <= i < |eps| && eps[i].queued && eps[i].episodeId == id {
      IdsWhereMembership(eps, IsQueued, id);
    }
    forall id ensures id in IdsWhere(eps, IsDownloaded) <==> exists i :: 0 <= i < |eps| && eps[i].downloaded && eps[i].episodeId == id {
      IdsWhereMembership(eps, IsDownloaded, id);
    }
    IdsOfFilterSubseq(eps, IsCompleted);
    IdsOfFilterSubseq(eps, IsSaved);
    IdsOfFilterSubseq(eps, IsQueued);
    IdsOfFilterSubseq(eps, IsDownloaded);
    FlagIds(IdsWhere(eps, IsCompleted), IdsWhere(eps, IsSaved), IdsWhere(eps, IsQueued), IdsWhere(eps, IsDownloaded))
  }

  /** Deriving over two lists one after the other concatenates the derived lists. */
  lemma DeriveFlagIdsAppend(a: seq<Episode>, b: seq<Episode>)
    ensures DeriveFlagIds(a + b).completed == DeriveFlagIds(a).completed + DeriveFlagIds(b).completed
    ensures DeriveFlagIds(a + b).saved == DeriveFlagIds(a).saved + DeriveFlagIds(b).saved
    ensures DeriveFlagIds(a + b).queued == DeriveFlagIds(a).queued + DeriveFlagIds(b).queued
    ensures DeriveFlagIds(a + b).downloaded == DeriveFlagIds(a).downloaded + DeriveFlagIds(b).downloaded
  {
    IdsWhereAppend(a, b, IsCompleted);
    IdsWhereAppend(a, b, IsSaved);
    IdsWhereAppend(a, b, IsQueued);
    IdsWhereAppend(a, b, IsDownloaded);
  }
}

=== FILE: feed_handler.dfy ===
/**
 * The server's RSS feed endpoint up to the feed generation: the query
 * defaults, the backwards-compatible key built from a plain api key, and
 * the public domain the feed links point at, taken from the request
 * headers. The two database lookups are inputs.
 */
module FeedHandler {
  import opened Wrappers

  newtype byte = x: int | 0 <= x < 256

  /** A header as received: its lower-case name and its raw bytes. */
  datatype Header = Header(name: string, value: seq<byte>)

  /** `HeaderMap::get`: the first header with that name. */
  function GetHeader(headers: seq<Header>, name: string): (r: Option<seq<byte>>)
    ensures r.None? <==> forall i :: 0 <= i < |headers| ==> headers[i].name != name
    ensures r.Some? ==> exists i :: (0 <= i < |headers| && headers[i] == Header(name, r.value)
      && forall j :: 0 <= j < i ==> headers[j].name != name)
    decreases |headers|
  {
    if |headers| == 0 then None
    else if headers[0].name == name then Some(headers[0].value)
    else
      var r := GetHeader(headers[1..], name);
      assert forall i :: 1 <= i < |headers| ==> headers[i] == headers[1..][i - 1];
      if r.Some? then
        var k :| 0 <= k < |headers[1..]| && headers[1..][k] == Header(name, r.value)
          && forall j :: 0 <= j < k ==> headers[1..][j].name != name;
        assert headers[k + 1] == Header(name, r.value);
        r
      else r
  }

  /** The bytes `HeaderValue::to_str` accepts: a tab or visible ASCII. */
  predicate VisibleAscii(b: byte) { b == 0x09 || (0x20 <= b < 0x7f) }

  /** `HeaderValue::to_str`: the text when every byte is accepted, otherwise an error. */
  function HeaderText(v: seq<byte>): (r: Option<string>)
    ensures r.Some? <==> forall i :: 0 <= i < |v| ==> VisibleAscii(v[i])
    ensures r.Some? ==> |r.value| == |v| && forall i :: 0 <= i < |v| ==> r.value[i] as int == v[i] as int
  {
    if forall i :: 0 <= i < |v| ==> VisibleAscii(v[i]) then
      Some(seq(|v|, i requires 0 <= i < |v| => v[i] as int as char))
    else None
  }

  /** The text's bytes, for a header built from text. */
  function TextBytes(s: string): (v: seq<byte>)
    requires forall i :: 0 <= i < |s| ==> s[i] as int < 256
    ensures |v| == |s| && forall i :: 0 <= i < |s| ==> v[i] as int == s[i] as int
  {
    seq(|s|, i requires 0 <= i < |s| => s[i] as int as byte)
  }

  const FallbackDomain := "http://localhost:8041"

  /**
   * `extract_domain_from_request`: "{scheme}://{host}" from a readable Host
   * header, the scheme being a readable X-Forwarded-Proto or "http";
   * without a readable Host, the local default.
   */
  function ExtractDomain(headers: seq<Header>): (d: string)
    ensures GetHeader(headers, "host").None? ==> d == FallbackDomain
    ensures GetHeader(headers, "host").Some? && HeaderText(GetHeader(headers, "host").value).None? ==> d == FallbackDomain
    ensures GetHeader(headers, "host").Some? && HeaderText(GetHeader(headers, "host").value).Some? ==>
      var host := HeaderText(GetHeader(headers, "host").value).value;
      var proto := GetHeader(headers, "x-forwarded-proto");
      (proto.Some? && HeaderText(proto.value).Some? ==> d == HeaderText(proto.value).value + "://" + host)
      && (proto.None? || HeaderText(proto.value).None? ==> d == "http://" + host)
  {
    match GetHeader(headers, "host")
    case None => FallbackDomain
    case Some(h) =>
      match HeaderText(h)
      case None => FallbackDomain
      case Some(host) =>
        var scheme := match GetHeader(headers, "x-forwarded-proto")
          case None => "http"
          case Some(p) => HeaderText(p).UnwrapOr("http");
        scheme + "://" + host
  }

  /** Proxied requests: the forwarded scheme and the host come back as the domain. */
  lemma DomainFromForwardedHeaders(host: string, proto: string, rest: seq<Header>)
    requires forall i :: 0 <= i < |host| ==> 0x20 <= host[i] as int < 0x7f
    requires forall i :: 0 <= i < |proto| ==> 0x20 <= proto[i] as int < 0x7f
    ensures ExtractDomain([Header("host", TextBytes(host)), Header("x-forwarded-proto", TextBytes(proto))] + rest)
         == proto + "://" + host
  {
    var hs := [Header("host", TextBytes(host)), Header("x-forwarded-proto", TextBytes(proto))] + rest;
    assert GetHeader(hs, "host") == Some(TextBytes(host));
    assert hs[1..][0] == Header("x-forwarded-proto", TextBytes(proto));
    assert GetHeader(hs, "x-forwarded-proto") == Some(TextBytes(proto));
    assert HeaderText(TextBytes(host)).value == host;
    assert HeaderText(TextBytes(proto)).value == proto;
  }

  /** A Host header holding a byte outside visible ASCII, such as UTF-8, gives the local default. */
  lemma UnreadableHostFallsBack(host: seq<byte>, i: int, rest: seq<Header>)
    requires 0 <= i < |host| && host[i] >= 0x80
    ensures ExtractDomain([Header("host", host)] + rest) == FallbackDomain
  {
    assert ([Header("host", host)] + rest)[0] == Header("host", host);
  }

  // ---------------------------------------------------------------------
  // get_user_feed
  // ---------------------------------------------------------------------

  datatype FeedQuery = FeedQuery(apiKey: string, limit: Option<int>, podcastId: Option<int>, sourceType: Option<string>)

  datatype RssKeyInfo = RssKeyInfo(podcastIds: seq<int>, userId: int, key: string)

  datatype AppError = Forbidden(message: string) | Database(message: string)

  /** The arguments the handler passes to the feed generator. */
  datatype FeedArgs = FeedArgs(rssKey: RssKeyInfo, limit: int, sourceType: Option<string>, domain: string, podcastIds: Option<seq<int>>)

  const DefaultLimit: int := 1000

  /** The podcast filter sent to both lookups: a single id becomes a one-element list. */
  function PodcastIdList(podcastId: Option<int>): (r: Option<seq<int>>)
    ensures r.None? <==> podcastId.None?
    ensures r.Some? ==> r.value == [podcastId.value]
  {
    match podcastId
    case None => None
    case Some(id) => Some([id])
  }

  /**
   * The handler up to generating the feed. `rssLookup` is the result of
   * looking the key up as an RSS key, `keyOwner` that of looking it up as
   * an api key, consulted only when the first finds nothing. An owner of 0
   * means "no such key".
   */
  function ResolveFeed(query: FeedQuery, headers: seq<Header>,
                       rssLookup: Result<Option<RssKeyInfo>, AppError>,
                       keyOwner: Result<int, AppError>): (r: Result<FeedArgs, AppError>)
    ensures rssLookup.Err? ==> r == Err(rssLookup.error)
    ensures rssLookup == Ok(None) && keyOwner.Err? ==> r == Err(keyOwner.error)
    ensures rssLookup == Ok(None) && keyOwner == Ok(0) ==> r == Err(Forbidden("Invalid API key"))
    ensures rssLookup.Ok? && keyOwner.Ok? ==> (r.Err? <==> rssLookup.value.None? && keyOwner.value == 0)
    ensures r.Ok? ==> r.value.limit == query.limit.UnwrapOr(DefaultLimit) && r.value.sourceType == query.sourceType
    ensures r.Ok? ==> r.value.domain == ExtractDomain(headers) && r.value.podcastIds == PodcastIdList(query.podcastId)
    ensures r.Ok? && rssLookup.value.Some? ==> r.value.rssKey == rssLookup.value.value
    ensures r.Ok? && rssLookup.value.None? ==> (r.value.rssKey == RssKeyInfo([-1], keyOwner.value, query.apiKey)
      && keyOwner.value != 0)
  {
    var limit := query.limit.UnwrapOr(DefaultLimit);
    var domain := ExtractDomain(headers);
    var ids := PodcastIdList(query.podcastId);
    match rssLookup
    case Err(e) => Err(e)
    case Ok(Some(key)) => Ok(FeedArgs(key, limit, query.sourceType, domain, ids))
    case Ok(None) =>
      match keyOwner
      case Err(e) => Err(e)
      case Ok(owner) =>
        if owner == 0 then Err(Forbidden("Invalid API key"))
        else Ok(FeedArgs(RssKeyInfo([-1], owner, query.apiKey), limit, query.sourceType, domain, ids))
  }

  /** A valid RSS key makes the api key lookup irrelevant. */
  lemma RssKeyWins(query: FeedQuery, headers: seq<Header>, key: RssKeyInfo, o1: Result<int, AppError>, o2: Result<int, AppError>)
    ensures ResolveFeed(query, headers, Ok(Some(key)), o1) == ResolveFeed(query, headers, Ok(Some(key)), o2)
    ensures ResolveFeed(query, headers, Ok(Some(key)), o1).Ok?
  {
  }

  /** A query naming nothing but the key asks for up to 1000 items of every podcast. */
  lemma BareQueryDefaults(apiKey: string, headers: seq<Header>, owner: int)
    requires owner != 0
    ensures var r := ResolveFeed(FeedQuery(apiKey, None, None, None), headers, Ok(None), Ok(owner));
      r.Ok? && r.value.limit == 1000 && r.value.podcastIds.None? && r.value.rssKey.podcastIds == [-1]
  {
  }
}

=== FILE: feed_page.dfy ===
/**
 * The feed page: on mount it fetches the recent episodes once the
 * credentials are known, publishes the ids of the completed, saved, queued
 * and downloaded ones, and renders a spinner, an empty message or the
 * episode list. The list's row heights are `ItemGeometry.ItemHeight`.
 */
module FeedPage {
  import opened Wrappers
  import opened Seqs
  import opened Episodes

  /**
   * What the signed-in store knows when the page mounts. The api key is
   * read through the auth record, so it is `None` without a record and
   * `Some(None)` for a record that holds no key.
   */
  datatype Credentials = Credentials(apiKey: Option<Option<string>>, userId: Option<int>, serverName: Option<string>)

  /** The request helper's error for a record without an api key; no request is sent. */
  const ApiKeyMissing := "API key is missing"

  /**
   * The page's view of the state: its `loading` flag and error, and the
   * store's `server_feed_results` (`None`, or a record whose `episodes` may
   * be `None`) with the four published id lists.
   */
  datatype FeedState = FeedState(
    loading: bool,
    error: Option<string>,
    feedResults: Option<Option<seq<Episode>>>,
    flagIds: Option<FlagIds>)

  const InitialFeed := FeedState(true, None, None, None)

  /** The mount effect fetches only when the auth record, the user id and the server are all known. */
  predicate FetchStarts(c: Credentials) {
    c.apiKey.Some? && c.userId.Some? && c.serverName.Some?
  }

  /**
   * The fetch's completion: a list replaces the stored results and its
   * flag ids are published; an error is recorded and leaves the stored
   * results alone. Either way the spinner stops.
   */
  function OnFetched(s: FeedState, outcome: Result<seq<Episode>, string>): (r: FeedState)
    ensures !r.loading
    ensures outcome.Ok? ==> r.feedResults == Some(Some(outcome.value)) && r.error == s.error
    ensures outcome.Ok? ==> r.flagIds.Some?
    ensures outcome.Ok? ==> forall id :: (id in r.flagIds.value.completed
      <==> exists i :: 0 <= i < |outcome.value| && outcome.value[i].completed && outcome.value[i].episodeId == id)
    ensures outcome.Ok? ==> forall id :: (id in r.flagIds.value.saved
      <==> exists i :: 0 <= i < |outcome.value| && outcome.value[i].saved && outcome.value[i].episodeId == id)
    ensures outcome.Ok? ==> forall id :: (id in r.flagIds.value.queued
      <==> exists i :: 0 <= i < |outcome.value| && outcome.value[i].queued && outcome.value[i].episodeId == id)
    ensures outcome.Ok? ==> forall id :: (id in r.flagIds.value.downloaded
      <==> exists i :: 0 <= i < |outcome.value| && outcome.value[i].downloaded && outcome.value[i].episodeId == id)
    ensures outcome.Err? ==> r.error == Some(outcome.error) && r.feedResults == s.feedResults && r.flagIds == s.flagIds
  {
    match outcome
    case Ok(eps) => s.(loading := false, feedResults := Some(Some(eps)), flagIds := Some(DeriveFlagIds(eps)))
    case Err(e) => s.(loading := false, error := Some(e))
  }

  /** What the main container shows. */
  datatype FeedView =
    | Spinner
    | NoEpisodesTranslated
    | NoEpisodesFallback
    | EpisodeList(episodes: seq<Episode>)

  /**
   * The render: the spinner while loading; then the list when there are
   * episodes, the translated empty message when the list is empty, and the
   * built-in "No Recent Episodes Found" message when there is no list.
   */
  function Render(s: FeedState): (v: FeedView)
    ensures v.Spinner? <==> s.loading
    ensures v.EpisodeList? <==> !s.loading && s.feedResults.Some? && s.feedResults.value.Some? && |s.feedResults.value.value| > 0
    ensures v.EpisodeList? ==> |v.episodes| > 0 && s.feedResults == Some(Some(v.episodes))
    ensures v.NoEpisodesTranslated? <==> !s.loading && s.feedResults == Some(Some([]))
  {
    if s.loading then Spinner
    else match s.feedResults
      case Some(Some(eps)) => if |eps| == 0 then NoEpisodesTranslated else EpisodeList(eps)
      case _ => NoEpisodesFallback
  }

  /**
   * The page after its mount effect has run to completion. `outcome` is the
   * server's answer when a request is sent. A started fetch whose record
   * holds no api key fails before sending, with `ApiKeyMissing`.
   */
  function Mounted(c: Credentials, outcome: Result<seq<Episode>, string>): (s: FeedState)
    ensures FetchStarts(c) && c.apiKey.value.Some? ==> s == OnFetched(InitialFeed, outcome)
    ensures FetchStarts(c) && c.apiKey.value.None? ==> s == OnFetched(InitialFeed, Err(ApiKeyMissing))
    ensures !FetchStarts(c) ==> s == InitialFeed
  {
    if !FetchStarts(c) then InitialFeed
    else if c.apiKey.value.None? then OnFetched(InitialFeed, Err(ApiKeyMissing))
    else OnFetched(InitialFeed, outcome)
  }

  /**
   * The spinner stays up exactly when the auth record, the user id or the
   * server is missing, since only the fetch's completion clears it.
   */
  lemma SpinnerIffNoCredentials(c: Credentials, outcome: Result<seq<Episode>, string>)
    ensures Render(Mounted(c, outcome)) == Spinner <==> !FetchStarts(c)
  {
  }

  /** A signed-in record without an api key drops the spinner and shows the built-in empty message. */
  lemma MissingKeyShowsFallback(userId: int, server: string, outcome: Result<seq<Episode>, string>)
    ensures var s := Mounted(Credentials(Some(None), Some(userId), Some(server)), outcome);
      Render(s) == NoEpisodesFallback && s.error == Some(ApiKeyMissing)
  {
  }

  /** A successful fetch shows exactly what was fetched: the list, or the translated empty message. */
  lemma FetchedListIsShown(s: FeedState, eps: seq<Episode>)
    ensures |eps| > 0 ==> Render(OnFetched(s, Ok(eps))) == EpisodeList(eps)
    ensures |eps| == 0 ==> Render(OnFetched(s, Ok(eps))) == NoEpisodesTranslated
  {
  }

  /** A failed first fetch falls back to the built-in empty message; a failed refetch keeps showing the old list. */
  lemma FailedFetchView(s: FeedState, e: string)
    ensures s.feedResults.None? ==> Render(OnFetched(s, Err(e))) == NoEpisodesFallback
    ensures s.feedResults.Some? && s.feedResults.value.Some? && |s.feedResults.value.value| > 0
      ==> Render(OnFetched(s, Err(e))) == EpisodeList(s.feedResults.value.value)
  {
  }

  /** Every published id belongs to a fetched episode, in fetch order. */
  lemma PublishedIdsComeFromFetch(s: FeedState, eps: seq<Episode>)
    ensures var f := OnFetched(s, Ok(eps)).flagIds.value;
      Subseq(f.completed, Ids(eps)) && Subseq(f.saved, Ids(eps))
      && Subseq(f.queued, Ids(eps)) && Subseq(f.downloaded, Ids(eps))
  {
  }
}

=== FILE: gen_components.dfy ===
/**
 * The shared widgets: the image that falls back to the server's image
 * proxy, the search bar's submit guard and mobile dropdown, the first
 * administrator form's validation, and the long-press touch hook. Timers
 * are modelled by the time they fire at; the clock is a parameter.
 */
module GenComponents {
  import opened Wrappers
  import opened Strings

  // ---------------------------------------------------------------------
  // FallbackImage
  // ---------------------------------------------------------------------

  /** The image element's current source and whether it has failed before. */
  datatype ImageState = ImageState(src: string, hasError: bool)

  function InitialImage(src: string): (s: ImageState)
    ensures s.src == src && !s.hasError
  {
    ImageState(src, false)
  }

  /** The image proxy URL for an original source; the URL encoding is a parameter. */
  function ProxyUrl(server: string, original: string, encode: string -> string): (url: string)
    ensures |url| == |server| + |"/api/proxy/image?url="| + |encode(original)|
    ensures StartsWith(url, server) && EndsWith(url, encode(original))
    ensures url[|server|..|url| - |encode(original)|] == "/api/proxy/image?url="
  {
    var route := "/api/proxy/image?url=";
    var url := server + route + encode(original);
    assert url[..|server|] == server;
    assert url[|server|..|url| - |encode(original)|] == route;
    url
  }

  /** The error handler: the first failure switches to the proxy, later ones do nothing. */
  function OnImageError(s: ImageState, server: string, original: string, encode: string -> string): (r: ImageState)
    ensures r.hasError
    ensures !s.hasError ==> r.src == ProxyUrl(server, original, encode)
    ensures s.hasError ==> r == s
  {
    if !s.hasError then ImageState(ProxyUrl(server, original, encode), true) else s
  }

  /** A new `src` prop replaces the shown source but keeps the error flag. */
  function OnSrcChange(s: ImageState, src: string): (r: ImageState)
    ensures r.src == src && r.hasError == s.hasError
  {
    s.(src := src)
  }

  /** The proxy is tried at most once: a second failure leaves the image as it is. */
  lemma ImageErrorIdempotent(s: ImageState, server: string, original: string, encode: string -> string)
    ensures var once := OnImageError(s, server, original, encode);
      OnImageError(once, server, original, encode) == once
  {
  }

  /** After the source changes, a failing second image is never proxied. */
  lemma SecondSourceNotProxied(first: string, second: string, server: string, encode: string -> string)
    ensures var s := OnSrcChange(OnImageError(InitialImage(first), server, first, encode), second);
      OnImageError(s, server, second, encode).src == second
  {
  }

  // ---------------------------------------------------------------------
  // Search bar
  // ---------------------------------------------------------------------

  /** The search bar's flags: a search in flight, and the mobile dropdown's open and animating flags. */
  datatype SearchBar = SearchBar(isSubmitting: bool, dropdownOpen: bool, animating: bool)

  const InitialSearchBar := SearchBar(false, false, false)

  /** `handle_submit`: ignored while a search is in flight; otherwise starts one. */
  function Submit(s: SearchBar): (r: (SearchBar, bool))
    ensures r.1 <==> !s.isSubmitting
    ensures r.0 == s.(isSubmitting := true)
  {
    if s.isSubmitting then (s, false) else (s.(isSubmitting := true), true)
  }

  /** The search's task finishing, with or without results. */
  function SearchFinished(s: SearchBar): (r: SearchBar)
    ensures !r.isSubmitting && r.dropdownOpen == s.dropdownOpen && r.animating == s.animating
  {
    s.(isSubmitting := false)
  }

  /** At most one search is in flight: a second submit before the first finishes starts nothing. */
  lemma SubmitGuard(s: SearchBar)
    ensures !Submit(Submit(s).0).1
    ensures Submit(SearchFinished(Submit(s).0)).1
  {
  }

  /** The window width below which the search button opens a dropdown instead of searching. */
  const MobileSearchWidth: real := 768.0

  /**
   * The search button: on a narrow window it opens the dropdown, or starts
   * closing it (the close lands 300 ms later, see `DropdownClosed`); on a
   * wide window it submits. The result says whether a search started.
   */
  function SearchClick(s: SearchBar, width: real): (r: (SearchBar, bool))
    ensures width < MobileSearchWidth ==> !r.1 && r.0.isSubmitting == s.isSubmitting
    ensures width < MobileSearchWidth && !s.dropdownOpen ==> r.0.dropdownOpen && r.0.animating
    ensures width < MobileSearchWidth && s.dropdownOpen ==> r.0.dropdownOpen && !r.0.animating
    ensures width >= MobileSearchWidth ==> r == Submit(s)
  {
    if width < MobileSearchWidth then
      if !s.dropdownOpen then (s.(dropdownOpen := true, animating := true), false)
      else (s.(animating := false), false)
    else Submit(s)
  }

  /** The delayed close after the closing animation. */
  function DropdownClosed(s: SearchBar): (r: SearchBar)
    ensures !r.dropdownOpen && r.animating == s.animating && r.isSubmitting == s.isSubmitting
  {
    s.(dropdownOpen := false)
  }

  /** Two taps on a narrow window open and then close the dropdown without searching. */
  lemma MobileTapsToggleDropdown(s: SearchBar, width: real)
    requires width < MobileSearchWidth && !s.dropdownOpen
    ensures var once := SearchClick(s, width);
      var twice := SearchClick(once.0, width);
      once.0.dropdownOpen && !twice.1 && !DropdownClosed(twice.0).dropdownOpen
      && DropdownClosed(twice.0).isSubmitting == s.isSubmitting
  {
  }

  /** The label shown for the selected search index. */
  function SearchIndexLabel(index: string): (shown: string)
    ensures shown == "Unknown" <==> index !in {"podcast_index", "itunes", "youtube"}
    ensures index == "podcast_index" ==> shown == "Podcast Index"
    ensures index == "itunes" ==> shown == "iTunes"
    ensures index == "youtube" ==> shown == "youtube"
  {
    match index
    case "podcast_index" => "Podcast Index"
    case "itunes" => "iTunes"
    case "youtube" => "youtube"
    case _ => "Unknown"
  }

  /** The known indexes are told apart by their labels. */
  lemma SearchIndexLabelsDistinct(a: string, b: string)
    requires a in {"podcast_index", "itunes", "youtube"} && b in {"podcast_index", "itunes", "youtube"}
    requires SearchIndexLabel(a) == SearchIndexLabel(b)
    ensures a == b
  {
  }

  // ---------------------------------------------------------------------
  // First administrator form
  // ---------------------------------------------------------------------

  datatype AdminSetupData = AdminSetupData(username: string, password: string, email: string, fullname: string)

  /** The form either shows a validation message or hands its data on. */
  datatype AdminOutcome = Rejected(message: string) | Emitted(data: AdminSetupData)

  const AllFieldsRequired := "All fields are required"
  const PasswordTooShort := "Password must be at least 8 characters"
  const InvalidEmail := "Please enter a valid email address"

  /** The minimum password length, counted in UTF-8 bytes as `String::len` does. */
  const MinPasswordBytes: nat := 8

  /** What the form accepts: every field filled, a long enough password, an email with an `@`. */
  predicate AdminFormAcceptable(d: AdminSetupData) {
    d.username != [] && d.password != [] && d.email != [] && d.fullname != []
    && Utf8Len(d.password) >= MinPasswordBytes
    && '@' in d.email
  }

  /** The submit handler's checks, in order: empty fields, password length, email. */
  function ValidateAdmin(d: AdminSetupData): (o: AdminOutcome)
    ensures o.Emitted? <==> AdminFormAcceptable(d)
    ensures o.Emitted? ==> o.data == d
    ensures (d.username == [] || d.password == [] || d.email == [] || d.fullname == []) ==> o == Rejected(AllFieldsRequired)
    ensures o == Rejected(PasswordTooShort) <==> (d.username != [] && d.password != [] && d.email != [] && d.fullname != []
      && Utf8Len(d.password) < MinPasswordBytes)
    ensures o == Rejected(InvalidEmail) ==> Utf8Len(d.password) >= MinPasswordBytes && '@' !in d.email
  {
    if d.username == [] || d.password == [] || d.email == [] || d.fullname == [] then Rejected(AllFieldsRequired)
    else if Utf8Len(d.password) < MinPasswordBytes then Rejected(PasswordTooShort)
    else if '@' !in d.email then Rejected(InvalidEmail)
    else Emitted(d)
  }

  /** The length check counts bytes: four two-byte characters pass it. */
  lemma PasswordLengthCountsBytes()
    ensures Utf8Len("éééé") == 8
    ensures ValidateAdmin(AdminSetupData("admin", "éééé", "a@b", "Admin")).Emitted?
  {
  }

  // ---------------------------------------------------------------------
  // Long press
  // ---------------------------------------------------------------------

  /** The hook's delay when the caller gives none. */
  const DefaultLongPressMs: int := 600

  /** Movement beyond this many pixels on either axis cancels the press. */
  const MovementThreshold: int := 10

  /**
   * The hook's state: when the pending timer fires (if one is pending),
   * whether the press became a long press, where the touch started, and
   * the pressed look.
   */
  datatype Press = Press(firesAt: Option<int>, isLongPress: bool, start: Option<(int, int)>, pressing: bool)

  const Idle := Press(None, false, None, false)

  /** Touch start: remembers the first touch point and arms a timer for the delay. */
  function TouchStart(p: Press, touch: Option<(int, int)>, now: int, delay: Option<int>): (r: Press)
    ensures r.firesAt == Some(now + delay.UnwrapOr(DefaultLongPressMs))
    ensures r.pressing && !r.isLongPress
    ensures r.start == if touch.Some? then touch else p.start
  {
    Press(Some(now + delay.UnwrapOr(DefaultLongPressMs)), false, if touch.Some? then touch else p.start, true)
  }

  /** Movement beyond the threshold on either axis, measured strictly. */
  predicate MovedTooFar(from: (int, int), to: (int, int)) {
    Abs(to.0 - from.0) > MovementThreshold || Abs(to.1 - from.1) > MovementThreshold
  }

  /** Touch move: cancels the timer and the pressed look once the finger has moved too far. */
  function TouchMove(p: Press, touch: Option<(int, int)>): (r: Press)
    ensures r.isLongPress == p.isLongPress && r.start == p.start
    ensures (p.start.Some? && touch.Some? && MovedTooFar(p.start.value, touch.value))
      ==> r.firesAt.None? && !r.pressing
    ensures !(p.start.Some? && touch.Some? && MovedTooFar(p.start.value, touch.value)) ==> r == p
  {
    if p.start.Some? && touch.Some? && MovedTooFar(p.start.value, touch.value) then p.(firesAt := None, pressing := false)
    else p
  }

  /** Touch end: the timer is dropped, which cancels it, and the pressed look goes. */
  function TouchEnd(p: Press): (r: Press)
    ensures r.firesAt.None? && !r.pressing
    ensures r.isLongPress == p.isLongPress && r.start == p.start
  {
    p.(firesAt := None, pressing := false)
  }

  /** The clock reaching `now`: a due timer fires once, marking the long press. The flag says it fired. */
  function Tick(p: Press, now: int): (r: (Press, bool))
    ensures r.1 <==> p.firesAt.Some? && p.firesAt.value <= now
    ensures r.1 ==> r.0.isLongPress && r.0.firesAt.None?
    ensures !r.1 ==> r.0 == p
  {
    if p.firesAt.Some? && p.firesAt.value <= now then (p.(isLongPress := true, firesAt := None), true)
    else (p, false)
  }

  /** A finger held still for the default delay triggers the long press. */
  lemma HeldStillFires(p: Press, at: (int, int), moves: (int, int), now: int)
    requires !MovedTooFar(at, moves)
    ensures var pressed := TouchMove(TouchStart(p, Some(at), now, None), Some(moves));
      Tick(pressed, now + DefaultLongPressMs).1
      && !Tick(pressed, now + DefaultLongPressMs - 1).1
  {
  }

  /** Lifting the finger or moving it more than the threshold means no long press, however long one waits. */
  lemma CancelledPressNeverFires(p: Press, at: (int, int), moved: (int, int), now: int, later: int, delay: Option<int>)
    requires MovedTooFar(at, moved)
    ensures !Tick(TouchEnd(TouchStart(p, Some(at), now, delay)), later).1
    ensures !Tick(TouchMove(TouchStart(p, Some(at), now, delay), Some(moved)), later).1
  {
  }

  /** Exactly ten pixels of movement does not cancel the press. */
  lemma ThresholdIsStrict(x: int, y: int)
    ensures !MovedTooFar((x, y), (x + MovementThreshold, y - MovementThreshold))
    ensures MovedTooFar((x, y), (x + MovementThreshold + 1, y))
  {
  }
}

=== FILE: history.dfy ===
/**
 * The listening-history page: the same pipeline as the saved page over an
 * optional history list.
 */
module History {
  import opened Wrappers
  import opened Seqs
  import opened Episodes
  import opened EpisodeFilter

  /** The part of the global state the page's fetch writes. */
  datatype HistoryState = HistoryState(episodeHistory: Option<seq<Episode>>, completedEpisodes: Option<seq<int>>)

  /** The fetch's success step: the history becomes present and its completed ids are published. */
  function OnFetched(s: HistoryState, fetched: seq<Episode>): (r: HistoryState)
    ensures r.episodeHistory == Some(fetched)
    ensures r.completedEpisodes.Some?
    ensures forall id :: (id in r.completedEpisodes.value
      <==> exists i :: 0 <= i < |fetched| && fetched[i].completed && fetched[i].episodeId == id)
  {
    forall id ensures (id in IdsWhere(fetched, IsCompleted)
      <==> exists i :: 0 <= i < |fetched| && IsCompleted(fetched[i]) && fetched[i].episodeId == id) {
      IdsWhereMembership(fetched, IsCompleted, id);
    }
    HistoryState(Some(fetched), Some(IdsWhere(fetched, IsCompleted)))
  }

  /** The list the page shows: nothing before the history has loaded. */
  function FilteredEpisodes(history: Option<seq<Episode>>, f: Filters, dir: Option<SortDirection>, lower: string -> string): (r: seq<Episode>)
    ensures history.None? ==> r == []
    ensures history.Some? ==> forall e :: e in r <==> e in history.value && Keep(f, lower)(e)
    ensures history.Some? ==> multiset(r) == multiset(Filter(history.value, Keep(f, lower)))
  {
    match history
    case None => []
    case Some(eps) => Pipeline(eps, f, dir, lower)
  }

  datatype View = EmptyMessage | EpisodeList(episodes: seq<Episode>)

  /** No history yet, or nothing passing the filters, shows the empty message. */
  function Render(history: Option<seq<Episode>>, filtered: seq<Episode>): (v: View)
    ensures v.EpisodeList? <==> history.Some? && |filtered| > 0
    ensures v.EpisodeList? ==> v.episodes == filtered
  {
    if history.Some? && |filtered| > 0 then EpisodeList(filtered) else EmptyMessage
  }

  /** Before the history arrives nothing is listed, whatever the filters. */
  lemma NothingBeforeLoad(f: Filters, dir: Option<SortDirection>, lower: string -> string)
    ensures Render(None, FilteredEpisodes(None, f, dir, lower)) == EmptyMessage
  {
  }
}

=== FILE: home_page.dfy ===
/**
 * The home page: the overview fetch publishes the flag ids of every
 * episode it shows, and the render picks the first three in-progress
 * episodes, the first five recent ones and one card per playlist.
 */
module HomePage {
  import opened Wrappers
  import opened Strings
  import opened Seqs
  import opened Episodes

  /** The overview the server sends; the top podcasts are not modelled. */
  datatype HomeOverview = HomeOverview(recentEpisodes: seq<Episode>, inProgressEpisodes: seq<Episode>)

  datatype Playlist = Playlist(playlistId: int, name: string, description: Option<string>, episodeCount: Option<int>)

  /**
   * The credentials the effect reads. The api key is itself optional in
   * the stored auth details, so the known case is `Some(None)` or
   * `Some(Some(key))`.
   */
  datatype HomeCredentials = HomeCredentials(apiKey: Option<Option<string>>, userId: Option<int>, serverName: Option<string>)

  datatype FetchStart =
    | NoFetch
    | KeyPanics
    | Fetch(server: string, apiKey: string, userId: int)

  /**
   * The overview effect: nothing happens until all three are known, and
   * then the inner api key is unwrapped, panicking when it is absent.
   */
  function StartOverviewFetch(c: HomeCredentials): (r: FetchStart)
    ensures r.NoFetch? <==> c.apiKey.None? || c.userId.None? || c.serverName.None?
    ensures r.KeyPanics? <==> c.apiKey == Some(None) && c.userId.Some? && c.serverName.Some?
    ensures r.Fetch? ==> c.apiKey == Some(Some(r.apiKey)) && c.userId == Some(r.userId) && c.serverName == Some(r.server)
  {
    match (c.apiKey, c.userId, c.serverName)
    case (Some(k), Some(u), Some(s)) => if k.None? then KeyPanics else Fetch(s, k.value, u)
    case _ => NoFetch
  }

  /** The part of the state the overview fetch writes. */
  datatype HomeState = HomeState(loading: bool, overview: Option<HomeOverview>, flagIds: Option<FlagIds>)

  const InitialHome := HomeState(true, None, None)

  /**
   * The overview arriving: it is stored and the flag ids are taken over
   * the recent episodes followed by the in-progress ones, so an episode in
   * both sections is listed twice. An error only stops the spinner.
   */
  function OnOverviewFetched(s: HomeState, outcome: Result<HomeOverview, string>): (r: HomeState)
    ensures !r.loading
    ensures outcome.Err? ==> r.overview == s.overview && r.flagIds == s.flagIds
    ensures outcome.Ok? ==> r.overview == Some(outcome.value) && r.flagIds.Some?
    ensures outcome.Ok? ==> var h := outcome.value;
      r.flagIds.value.completed == DeriveFlagIds(h.recentEpisodes).completed + DeriveFlagIds(h.inProgressEpisodes).completed
      && r.flagIds.value.saved == DeriveFlagIds(h.recentEpisodes).saved + DeriveFlagIds(h.inProgressEpisodes).saved
      && r.flagIds.value.queued == DeriveFlagIds(h.recentEpisodes).queued + DeriveFlagIds(h.inProgressEpisodes).queued
      && r.flagIds.value.downloaded == DeriveFlagIds(h.recentEpisodes).downloaded + DeriveFlagIds(h.inProgressEpisodes).downloaded
  {
    match outcome
    case Ok(h) =>
      DeriveFlagIdsAppend(h.recentEpisodes, h.inProgressEpisodes);
      s.(loading := false, overview := Some(h), flagIds := Some(DeriveFlagIds(h.recentEpisodes + h.inProgressEpisodes)))
    case Err(_) => s.(loading := false)
  }

  /** A completed episode that is both recent and in progress appears twice among the completed ids. */
  lemma SharedEpisodeListedTwice(e: Episode)
    requires e.completed
    ensures OnOverviewFetched(InitialHome, Ok(HomeOverview([e], [e]))).flagIds.value.completed == [e.episodeId, e.episodeId]
  {
    assert Filter([e], IsCompleted) == [e];
  }

  // ---------------------------------------------------------------------
  // Playlist cards
  // ---------------------------------------------------------------------

  /** The count line of a playlist card: a missing count reads as 0. */
  function EpisodeCountText(count: Option<int>): (t: string)
    ensures EndsWith(t, " episodes")
    ensures InI32(count.UnwrapOr(0)) ==> ParseI32(t[..|t| - |" episodes"|]) == Some(count.UnwrapOr(0))
  {
    var n := count.UnwrapOr(0);
    var t := IntToString(n) + " episodes";
    assert t[..|t| - |" episodes"|] == IntToString(n);
    if InI32(n) then
      ParseOfIntToString(n);
      t
    else t
  }

  /** The route a playlist card navigates to. */
  function PlaylistRoute(playlistId: int): (u: string)
    ensures StartsWith(u, "/playlist/")
    ensures InI32(playlistId) ==> ParseI32(u[|"/playlist/"|..]) == Some(playlistId)
  {
    var u := "/playlist/" + IntToString(playlistId);
    assert u[|"/playlist/"|..] == IntToString(playlistId);
    if InI32(playlistId) then
      ParseOfIntToString(playlistId);
      u
    else u
  }

  /** Different playlists lead to different routes. */
  lemma PlaylistRouteInjective(a: int, b: int)
    requires InI32(a) && InI32(b)
    ensures PlaylistRoute(a) == PlaylistRoute(b) <==> a == b
  {
  }

  datatype PlaylistCard = PlaylistCard(title: string, countText: string, description: Option<string>, route: string)

  function Card(p: Playlist): (c: PlaylistCard)
    ensures c.title == p.name && c.description == p.description
    ensures c.route == PlaylistRoute(p.playlistId)
  {
    PlaylistCard(p.name, EpisodeCountText(p.episodeCount), p.description, PlaylistRoute(p.playlistId))
  }

  // ---------------------------------------------------------------------
  // Render
  // ---------------------------------------------------------------------

  datatype PlaylistSection = NoPlaylists | Cards(cards: seq<PlaylistCard>)

  datatype RecentSection = NoRecentEpisodes | RecentList(episodes: seq<Episode>)

  /** The overview's sections; an empty "continue listening" list is not shown at all. */
  datatype Sections = Sections(continueListening: seq<Episode>, playlists: PlaylistSection, recent: RecentSection)

  datatype HomeView = Spinner | Welcome | Overview(sections: Sections)

  function RenderSections(h: HomeOverview, playlists: Option<seq<Playlist>>): (s: Sections)
    ensures |s.continueListening| <= 3 && s.continueListening <= h.inProgressEpisodes
    ensures |s.continueListening| == 0 <==> |h.inProgressEpisodes| == 0
    ensures s.recent.NoRecentEpisodes? <==> |h.recentEpisodes| == 0
    ensures s.recent.RecentList? ==> 0 < |s.recent.episodes| <= 5 && s.recent.episodes <= h.recentEpisodes
    ensures s.playlists.NoPlaylists? <==> playlists.None?
    ensures s.playlists.Cards? ==> |s.playlists.cards| == |playlists.value|
    ensures s.playlists.Cards? ==> forall i :: 0 <= i < |playlists.value| ==> s.playlists.cards[i] == Card(playlists.value[i])
  {
    var cards := match playlists
      case None => NoPlaylists
      case Some(ps) => Cards(seq(|ps|, i requires 0 <= i < |ps| => Card(ps[i])));
    var recent := if |h.recentEpisodes| == 0 then NoRecentEpisodes else RecentList(Take(h.recentEpisodes, 5));
    Sections(Take(h.inProgressEpisodes, 3), cards, recent)
  }

  /** The page: the spinner while loading, the welcome message without an overview, else the sections. */
  function Render(s: HomeState, playlists: Option<seq<Playlist>>): (v: HomeView)
    ensures v.Spinner? <==> s.loading
    ensures v.Welcome? <==> !s.loading && s.overview.None?
    ensures v.Overview? ==> v.sections == RenderSections(s.overview.value, playlists)
  {
    if s.loading then Spinner
    else match s.overview
      case None => Welcome
      case Some(h) => Overview(RenderSections(h, playlists))
  }

  /** A long in-progress list shows exactly its first three episodes. */
  lemma ContinueListeningIsFirstThree(h: HomeOverview, playlists: Option<seq<Playlist>>, i: int)
    requires 0 <= i < 3 <= |h.inProgressEpisodes|
    ensures RenderSections(h, playlists).continueListening[i] == h.inProgressEpisodes[i]
  {
  }

  /** Every episode shown on the page contributes its flags to the published ids. */
  lemma ShownEpisodesArePublished(s: HomeState, h: HomeOverview, e: Episode, playlists: Option<seq<Playlist>>)
    requires e in RenderSections(h, playlists).continueListening && e.saved
    ensures e.episodeId in OnOverviewFetched(s, Ok(h)).flagIds.value.saved
  {
    var i :| 0 <= i < |h.inProgressEpisodes| && h.inProgressEpisodes[i] == e;
    var all := h.recentEpisodes + h.inProgressEpisodes;
    assert all[|h.recentEpisodes| + i] == e;
  }

  /** The playlists effect: a fetched list replaces the stored one; an error is only logged. */
  function OnPlaylistsFetched(stored: Option<seq<Playlist>>, outcome: Result<seq<Playlist>, string>): (r: Option<seq<Playlist>>)
    ensures outcome.Ok? ==> r == Some(outcome.value)
    ensures outcome.Err? ==> r == stored
  {
    match outcome
    case Ok(ps) => Some(ps)
    case Err(_) => stored
  }

  /** A failed first overview fetch shows the welcome message, not an error. */
  lemma FailedOverviewShowsWelcome(e: string, playlists: Option<seq<Playlist>>)
    ensures Render(OnOverviewFetched(InitialHome, Err(e)), playlists) == Welcome
  {
  }

  /** Until the playlists arrive the section shows the no-playlists message, and a failed fetch leaves it so. */
  lemma PlaylistsMessageUntilFetched(h: HomeOverview, e: string)
    ensures RenderSections(h, OnPlaylistsFetched(None, Err(e))).playlists == NoPlaylists
  {
  }
}

=== FILE: index_matching.dfy ===
/**
 * The Podcast Index matching settings panel: podcasts without an index id
 * are listed as unmatched, can be matched to a search result or to an id
 * typed by hand, or moved to and from an ignored list. Each reducer is the
 * state change made once its server call has succeeded.
 */
module IndexMatching {
  import opened Wrappers
  import opened Strings
  import opened Seqs

  /** A podcast that has no Podcast Index id yet. */
  datatype UnmatchedPodcast = UnmatchedPodcast(podcastId: int, podcastName: string)

  /** A search result; only its identity matters here. */
  datatype SearchResult = SearchResult(indexId: int, title: string)

  datatype Panel = Panel(
    unmatched: seq<UnmatchedPodcast>,
    ignored: seq<UnmatchedPodcast>,
    results: seq<SearchResult>,
    selected: Option<int>,
    searchTerm: string,
    manualId: string)

  function NotPodcast(id: int): UnmatchedPodcast -> bool { (p: UnmatchedPodcast) => p.podcastId != id }

  function IsPodcast(id: int): UnmatchedPodcast -> bool { (p: UnmatchedPodcast) => p.podcastId == id }

  /** The ids on a list. */
  function IdSet(s: seq<UnmatchedPodcast>): set<int> {
    set p | p in s :: p.podcastId
  }

  /** At most one podcast on the list carries each id. */
  predicate UniqueIds(s: seq<UnmatchedPodcast>) {
    forall i, j :: 0 <= i < |s| && 0 <= j < |s| && s[i].podcastId == s[j].podcastId ==> i == j
  }

  /** `iter().find(|p| p.podcast_id == id)`: the first podcast with that id. */
  function FindPodcast(s: seq<UnmatchedPodcast>, id: int): (r: Option<nat>)
    ensures r.Some? ==> r.value < |s| && s[r.value].podcastId == id
    ensures r.Some? ==> forall j :: 0 <= j < r.value ==> s[j].podcastId != id
    ensures r.None? <==> id !in IdSet(s)
    decreases |s|
  {
    if |s| == 0 then None
    else if s[0].podcastId == id then Some(0)
    else
      match FindPodcast(s[1..], id)
      case None =>
        assert forall p | p in s :: p == s[0] || p in s[1..];
        None
      case Some(k) =>
        assert s[1..][k] in s;
        Some(k + 1)
  }

  /** The ids left after removing every podcast with `id`. */
  lemma WithoutPodcastIds(s: seq<UnmatchedPodcast>, id: int)
    ensures IdSet(Filter(s, NotPodcast(id))) == IdSet(s) - {id}
  {
    forall p ensures p in Filter(s, NotPodcast(id)) <==> p in s && p.podcastId != id {
      FilterMember(s, NotPodcast(id), p);
    }
  }

  // ---------------------------------------------------------------------
  // Matching
  // ---------------------------------------------------------------------

  /**
   * Match success: every unmatched podcast with that id goes, and the
   * selection, the results and both manual fields are cleared.
   */
  function OnMatched(s: Panel, podcastId: int): (r: Panel)
    ensures IdSet(r.unmatched) == IdSet(s.unmatched) - {podcastId}
    ensures forall p :: p in r.unmatched <==> p in s.unmatched && p.podcastId != podcastId
    ensures r.ignored == s.ignored
    ensures r.selected.None? && r.results == [] && r.searchTerm == [] && r.manualId == []
  {
    WithoutPodcastIds(s.unmatched, podcastId);
    forall p ensures p in Filter(s.unmatched, NotPodcast(podcastId)) <==> p in s.unmatched && p.podcastId != podcastId {
      FilterMember(s.unmatched, NotPodcast(podcastId), p);
    }
    Panel(Filter(s.unmatched, NotPodcast(podcastId)), s.ignored, [], None, [], [])
  }

  /**
   * A click on an unmatched podcast: the results and manual fields are
   * reset, the podcast is selected, and a search for its name is started
   * when it is on the list (the name searched for is the second result).
   */
  function SelectPodcast(s: Panel, podcastId: int): (r: (Panel, Option<string>))
    ensures r.0 == s.(results := [], searchTerm := [], manualId := [], selected := Some(podcastId))
    ensures r.1.Some? <==> podcastId in IdSet(s.unmatched)
    ensures r.1.Some? ==> UnmatchedPodcast(podcastId, r.1.value) in s.unmatched
  {
    var r' := s.(results := [], searchTerm := [], manualId := [], selected := Some(podcastId));
    match FindPodcast(s.unmatched, podcastId)
    case None => (r', None)
    case Some(k) =>
      assert s.unmatched[k] == UnmatchedPodcast(podcastId, s.unmatched[k].podcastName);
      (r', Some(s.unmatched[k].podcastName))
  }

  /** The manual search: runs on the trimmed term when it is not blank, clearing the results first. */
  function ManualSearch(s: Panel): (r: (Panel, Option<string>))
    ensures r.1.Some? <==> Trim(s.searchTerm) != []
    ensures r.1.Some? ==> r.1.value == Trim(s.searchTerm) && r.0 == s.(results := [])
    ensures r.1.None? ==> r.0 == s
  {
    var term := Trim(s.searchTerm);
    if term != [] then (s.(results := []), Some(term)) else (s, None)
  }

  /** The manual id button: emits (podcast, index id) when the trimmed text is an `i32` and a podcast is selected. */
  function ManualIdSelect(s: Panel): (r: Option<(int, int)>)
    ensures r.Some? <==> ParseI32(Trim(s.manualId)).Some? && s.selected.Some?
    ensures r.Some? ==> r.value == (s.selected.value, ParseI32(Trim(s.manualId)).value)
  {
    match (ParseI32(Trim(s.manualId)), s.selected)
    case (Some(indexId), Some(podcastId)) => Some((podcastId, indexId))
    case _ => None
  }

  /** Enter in the manual id field: the same as the button once the trimmed text parses. */
  function ManualIdKeydown(s: Panel, key: string): (r: Option<(int, int)>)
    ensures key != "Enter" ==> r.None?
    ensures key == "Enter" ==> r == ManualIdSelect(s)
  {
    if key != "Enter" then None
    else if Trim(s.manualId) != [] && ParseI32(Trim(s.manualId)).Some? then ManualIdSelect(s)
    else None
  }

  /** The button's `disabled` attribute as written: blank after trimming, or the UNTRIMMED text fails to parse. */
  function MatchButtonDisabledAsWritten(manualId: string): (b: bool)
    ensures Trim(manualId) == [] ==> b
    ensures !b ==> !MatchButtonDisabled(manualId)
  {
    if Trim(manualId) == [] || ParseI32(manualId).None? then true
    else ParsedTrimsToItself(manualId); false
  }

  lemma TrimPaddedId()
    ensures Trim(" 42") == "42"
  {
    var padded := " 42";
    var digits := "42";
    assert IsWhitespace(padded[0]) && padded[1..] == digits;
    assert !IsWhitespace(digits[0]) && !IsWhitespace(digits[1]);
    assert TrimStart(digits) == digits;
    assert TrimStart(padded) == digits;
    assert TrimEnd(digits) == digits;
  }

  lemma ParseFortyTwo()
    ensures ParseI32("42") == Some(42)
    ensures ParseI32(" 42").None?
  {
    assert NatToDigits(42) == NatToDigits(4) + [DigitChar(2)];
    assert IntToString(42) == "42";
    ParseOfIntToString(42);
    assert !IsDigit(" 42"[0]);
  }

  /** An id pasted with a leading space disables the button, although its click handler would accept it. */
  lemma PaddedIdDisablesButton(s: Panel)
    requires s.manualId == " 42" && s.selected.Some?
    ensures MatchButtonDisabledAsWritten(s.manualId)
    ensures ManualIdSelect(s) == Some((s.selected.value, 42))
  {
    TrimPaddedId();
    ParseFortyTwo();
  }

  /** The button disabled exactly when its click handler would reject the text. */
  function MatchButtonDisabled(manualId: string): (b: bool)
    ensures Trim(manualId) == [] ==> b
    ensures b ==> forall n :: InI32(n) ==> Trim(manualId) != IntToString(n)
  {
    if ParseI32(Trim(manualId)).None? then UnparsedIsNoNumber(Trim(manualId)); true
    else false
  }

  /** With a podcast selected, the corrected button is enabled exactly when clicking it emits a match. */
  lemma MatchButtonAgreesWithClick(s: Panel)
    requires s.selected.Some?
    ensures !MatchButtonDisabled(s.manualId) <==> ManualIdSelect(s).Some?
  {
  }

  /** A blank field keeps the corrected button disabled, as the written one is. */
  lemma BlankIdDisablesButton(manualId: string)
    requires Trim(manualId) == []
    ensures MatchButtonDisabled(manualId) && MatchButtonDisabledAsWritten(manualId)
  {
  }

  // ---------------------------------------------------------------------
  // Ignoring and restoring
  // ---------------------------------------------------------------------

  /**
   * Moves the first podcast with `id` from `src` to the end of `dst`,
   * dropping every podcast with that id from `src`; with none found both
   * lists are left alone.
   */
  function Move(src: seq<UnmatchedPodcast>, dst: seq<UnmatchedPodcast>, id: int): (r: (seq<UnmatchedPodcast>, seq<UnmatchedPodcast>))
    ensures id !in IdSet(src) ==> r == (src, dst)
    ensures id in IdSet(src) ==> r.0 == Filter(src, NotPodcast(id)) && |r.1| == |dst| + 1 && r.1[..|dst|] == dst
    ensures id in IdSet(src) ==> r.1[|dst|].podcastId == id && r.1[|dst|] in src
    ensures IdSet(r.0) + IdSet(r.1) == IdSet(src) + IdSet(dst)
    ensures id !in IdSet(r.0)
  {
    match FindPodcast(src, id)
    case None => (src, dst)
    case Some(k) =>
      var moved := dst + [src[k]];
      WithoutPodcastIds(src, id);
      assert IdSet(moved) == IdSet(dst) + {id} by {
        assert forall p :: p in moved <==> p in dst || p == src[k];
      }
      assert moved[..|dst|] == dst;
      (Filter(src, NotPodcast(id)), moved)
  }

  /** Ignore success: the podcast moves from unmatched to the end of ignored. */
  function OnIgnored(s: Panel, podcastId: int): (r: Panel)
    ensures (r.unmatched, r.ignored) == Move(s.unmatched, s.ignored, podcastId)
    ensures r.results == s.results && r.selected == s.selected
  {
    var m := Move(s.unmatched, s.ignored, podcastId);
    s.(unmatched := m.0, ignored := m.1)
  }

  /** Restore success: the podcast moves from ignored to the end of unmatched. */
  function OnRestored(s: Panel, podcastId: int): (r: Panel)
    ensures (r.ignored, r.unmatched) == Move(s.ignored, s.unmatched, podcastId)
    ensures r.results == s.results && r.selected == s.selected
  {
    var m := Move(s.ignored, s.unmatched, podcastId);
    s.(ignored := m.0, unmatched := m.1)
  }

  /** Neither move loses or invents a podcast id. */
  lemma MovesKeepIds(s: Panel, podcastId: int)
    ensures IdSet(OnIgnored(s, podcastId).unmatched) + IdSet(OnIgnored(s, podcastId).ignored) == IdSet(s.unmatched) + IdSet(s.ignored)
    ensures IdSet(OnRestored(s, podcastId).unmatched) + IdSet(OnRestored(s, podcastId).ignored) == IdSet(s.unmatched) + IdSet(s.ignored)
  {
  }

  /** With unique ids on the source list, a move neither loses nor duplicates a podcast. */
  lemma MoveKeepsPodcasts(src: seq<UnmatchedPodcast>, dst: seq<UnmatchedPodcast>, id: int)
    requires UniqueIds(src)
    ensures var r := Move(src, dst, id); multiset(r.0) + multiset(r.1) == multiset(src) + multiset(dst)
  {
    match FindPodcast(src, id)
    case None =>
    case Some(k) =>
      forall j | 0 <= j < |src| && j != k ensures !IsPodcast(id)(src[j]) {
      }
      FilterSingle(src, IsPodcast(id), k);
      FilterPartitionMultiset(src, NotPodcast(id), IsPodcast(id));
      assert multiset(dst + [src[k]]) == multiset(dst) + multiset{src[k]};
  }

  /** With unique ids, moving a listed podcast appends exactly that podcast. */
  lemma MoveUnique(src: seq<UnmatchedPodcast>, dst: seq<UnmatchedPodcast>, id: int, k: nat)
    requires k < |src| && src[k].podcastId == id && UniqueIds(src)
    ensures Move(src, dst, id) == (Filter(src, NotPodcast(id)), dst + [src[k]])
  {
    assert src[k] in src;
    assert id in IdSet(src);
    var r := Move(src, dst, id);
    var j :| 0 <= j < |src| && src[j] == r.1[|dst|];
    assert j == k;
    assert r.1 == r.1[..|dst|] + [r.1[|dst|]];
  }

  /** Moving the last podcast of a list whose other ids differ takes just that podcast. */
  lemma MoveLast(rest: seq<UnmatchedPodcast>, p: UnmatchedPodcast, dst: seq<UnmatchedPodcast>)
    requires p.podcastId !in IdSet(rest)
    ensures Move(rest + [p], dst, p.podcastId) == (rest, dst + [p])
  {
    var id := p.podcastId;
    var src := rest + [p];
    assert src[|rest|] == p;
    assert id in IdSet(src);
    forall i | 0 <= i < |rest| ensures NotPodcast(id)(rest[i]) {
      assert rest[i] in rest;
    }
    FilterAll(rest, NotPodcast(id));
    FilterNone([p], NotPodcast(id));
    FilterAppend(rest, [p], NotPodcast(id));
    assert Filter(src, NotPodcast(id)) == rest + [] == rest;
    var r := Move(src, dst, id);
    assert r.0 == rest;
    var x := r.1[|dst|];
    assert x == p by {
      var j :| 0 <= j < |src| && src[j] == x;
    }
    assert r.1 == r.1[..|dst|] + [x];
    assert r.1 == dst + [p];
  }

  /** Ignoring and then restoring a podcast puts it back on the unmatched list, at the end. */
  lemma IgnoreThenRestore(s: Panel, podcastId: int, k: nat)
    requires k < |s.unmatched| && s.unmatched[k].podcastId == podcastId
    requires UniqueIds(s.unmatched) && podcastId !in IdSet(s.ignored)
    ensures var r := OnRestored(OnIgnored(s, podcastId), podcastId);
      r.ignored == s.ignored
      && r.unmatched == Filter(s.unmatched, NotPodcast(podcastId)) + [s.unmatched[k]]
  {
    MoveUnique(s.unmatched, s.ignored, podcastId, k);
    MoveLast(s.ignored, s.unmatched[k], Filter(s.unmatched, NotPodcast(podcastId)));
  }
}

=== FILE: item_geometry.dfy ===
/**
 * The responsive height table shared by the virtual list, the feed, the
 * queue and the episode list item. The list item renders its card at a
 * width-dependent CSS height and the lists add the 16px bottom margin.
 * Virtual scrolling is only correct while the two agree.
 */
module ItemGeometry {
  import opened Wrappers
  import opened Strings

  /** Bottom margin under every card (`mb-4`). */
  const CardMargin: real := 16.0

  /** Breakpoints, in CSS pixels of window width. */
  const MobileMaxWidth: real := 530.0
  const TabletMaxWidth: real := 768.0

  /** The card height (without margin) the list item picks for a window width. */
  function CardHeightPx(width: real): (px: nat)
    ensures px == 122 || px == 150 || px == 221
    ensures width <= MobileMaxWidth <==> px == 122
    ensures px == 221 <==> TabletMaxWidth < width
  {
    if width <= MobileMaxWidth then 122
    else if width <= TabletMaxWidth then 150
    else 221
  }

  /** The list item's `container_height` style value, e.g. `"150px"`. */
  function CardHeightCss(width: real): (css: string)
    ensures EndsWith(css, "px")
    ensures ParseI32(css[..|css| - 2]) == Some(CardHeightPx(width) as int)
  {
    var px := CardHeightPx(width);
    var css := IntToString(px) + "px";
    assert css[..|css| - 2] == IntToString(px);
    ParseOfIntToString(px);
    css
  }

  /** The list item's initial style value, before the first resize. */
  const InitialCardHeightCss: string := "221px"

  /**
   * `calculate_item_height`: the height of one row of a virtual list.
   */
  function ItemHeight(width: real): (h: real)
    ensures h == 138.0 || h == 166.0 || h == 237.0
    ensures h > 0.0
  {
    if width <= MobileMaxWidth then 122.0 + CardMargin
    else if width <= TabletMaxWidth then 150.0 + CardMargin
    else 221.0 + CardMargin
  }

  /** Every row height is the card height the list item renders plus the margin. */
  lemma ItemHeightMatchesCard(width: real)
    ensures ItemHeight(width) == CardHeightPx(width) as real + CardMargin
  {
  }

  /** Wider windows never get shorter rows. */
  lemma ItemHeightMonotone(w1: real, w2: real)
    requires w1 <= w2
    ensures ItemHeight(w1) <= ItemHeight(w2)
    ensures CardHeightPx(w1) <= CardHeightPx(w2)
  {
  }

  /** The initial style value is the desktop card height. */
  lemma InitialCardIsDesktop(width: real)
    requires width > TabletMaxWidth
    ensures CardHeightCss(width) == InitialCardHeightCss
  {
  }

  /** The list item lays itself out narrow below 500px. */
  predicate IsNarrow(width: real) { width < 500.0 }

  /** A narrow window always uses the mobile card height. */
  lemma NarrowIsMobile(width: real)
    requires IsNarrow(width)
    ensures CardHeightPx(width) == 122
    ensures ItemHeight(width) == 138.0
  {
  }

  /**
   * The queue's row height: a measured card height plus the margin when a
   * card is on screen, otherwise the fixed table.
   */
  function MeasuredItemHeight(measured: Option<real>, width: real): (h: real)
    ensures measured.Some? ==> h == measured.value + CardMargin
    ensures measured.None? ==> h == ItemHeight(width)
  {
    match measured
    case Some(cardHeight) => cardHeight + CardMargin
    case None => ItemHeight(width)
  }

  /** Measuring a card rendered at the table height agrees with the table. */
  lemma MeasuredAgreesWithTable(width: real)
    ensures MeasuredItemHeight(Some(CardHeightPx(width) as real), width) == ItemHeight(width)
  {
  }
}

=== FILE: notification_center.dfy ===
/**
 * The notification bell: background tasks reported by the server, the
 * badge count, the dismiss actions and the periodic auto-cleanup, and the
 * toast queue that shows error and info messages for five seconds.
 * Clock readings are integer milliseconds passed in by the caller.
 */
module NotificationCenter {
  import opened Wrappers
  import opened Seqs

  /** A background task as the task monitor reports it (progress and details omitted). */
  datatype Task = Task(taskId: string, kind: string, status: string, itemId: Option<string>, completionTime: Option<int>)

  /** The slice of the global state the bell reads and writes. */
  datatype Notifications = Notifications(activeTasks: Option<seq<Task>>, errorMessage: Option<string>, infoMessage: Option<string>)

  /** A task is finished once it succeeded or failed. */
  predicate IsCompleted(t: Task) {
    t.status == "SUCCESS" || t.status == "FAILED"
  }

  predicate IsRunning(t: Task) { !IsCompleted(t) }

  function Tasks(n: Notifications): seq<Task> {
    n.activeTasks.UnwrapOr([])
  }

  /** The tasks listed in the dropdown: all of them, or only the unfinished ones. */
  function Shown(tasks: seq<Task>, showCompleted: bool): (r: seq<Task>)
    ensures showCompleted ==> r == tasks
    ensures !showCompleted ==> forall i :: 0 <= i < |r| ==> IsRunning(r[i])
    ensures forall t :: t in r <==> t in tasks && (showCompleted || IsRunning(t))
  {
    if showCompleted then tasks
    else
      forall t ensures t in Filter(tasks, IsRunning) <==> t in tasks && IsRunning(t) {
        FilterMember(tasks, IsRunning, t);
      }
      Filter(tasks, IsRunning)
  }

  /** The number of unfinished tasks. */
  function ActiveCount(tasks: seq<Task>): (c: nat)
    ensures c <= |tasks|
    ensures c == |tasks| - |Filter(tasks, IsCompleted)|
  {
    FilterPartition(tasks, IsRunning, IsCompleted);
    |Filter(tasks, IsRunning)|
  }

  /** The badge: unfinished tasks plus one for a pending error; info messages never count. */
  function Badge(n: Notifications): (c: nat)
    ensures c == ActiveCount(Tasks(n)) + (if n.errorMessage.Some? then 1 else 0)
    ensures c == 0 <==> n.errorMessage.None? && forall t :: t in Tasks(n) ==> IsCompleted(t)
  {
    NoneRunning(Tasks(n));
    ActiveCount(Tasks(n)) + (if n.errorMessage.Some? then 1 else 0)
  }

  lemma NoneRunning(tasks: seq<Task>)
    ensures ActiveCount(tasks) == 0 <==> forall t :: t in tasks ==> IsCompleted(t)
  {
    if ActiveCount(tasks) == 0 {
      forall t | t in tasks ensures IsCompleted(t) {
        FilterMember(tasks, IsRunning, t);
      }
    } else {
      var f := Filter(tasks, IsRunning);
      assert f[0] in tasks && IsRunning(f[0]);
    }
  }

  /** The "dismiss completed" button appears exactly when a finished task is listed. */
  predicate ShowsDismissCompleted(tasks: seq<Task>, showCompleted: bool) {
    exists i :: 0 <= i < |Shown(tasks, showCompleted)| && IsCompleted(Shown(tasks, showCompleted)[i])
  }

  /** With finished tasks hidden, the dismiss-completed button never shows. */
  lemma HiddenCompletedHidesDismiss(tasks: seq<Task>)
    ensures !ShowsDismissCompleted(tasks, false)
  {
  }

  /** Dismiss completed: keeps exactly the unfinished tasks, in order. */
  function DismissCompleted(n: Notifications): (r: Notifications)
    ensures r.errorMessage == n.errorMessage && r.infoMessage == n.infoMessage
    ensures n.activeTasks.None? ==> r.activeTasks.None?
    ensures n.activeTasks.Some? ==> r.activeTasks == Some(Shown(n.activeTasks.value, false))
  {
    match n.activeTasks
    case None => n
    case Some(tasks) => n.(activeTasks := Some(Filter(tasks, IsRunning)))
  }

  /** Dismissing finished tasks leaves the badge as it was. */
  lemma DismissCompletedKeepsBadge(n: Notifications)
    ensures Badge(DismissCompleted(n)) == Badge(n)
  {
    if n.activeTasks.Some? {
      var tasks := n.activeTasks.value;
      FilterAll(Filter(tasks, IsRunning), IsRunning);
    }
  }

  /** Dismiss one task: removes every task carrying that id, keeps the rest. */
  function DismissTask(n: Notifications, taskId: string): (r: Notifications)
    ensures r.errorMessage == n.errorMessage && r.infoMessage == n.infoMessage
    ensures r.activeTasks.Some? <==> n.activeTasks.Some?
    ensures forall t :: t in Tasks(r) <==> t in Tasks(n) && t.taskId != taskId
  {
    match n.activeTasks
    case None => n
    case Some(tasks) =>
      var p := (t: Task) => t.taskId != taskId;
      forall t ensures t in Filter(tasks, p) <==> t in tasks && p(t) {
        FilterMember(tasks, p, t);
      }
      n.(activeTasks := Some(Filter(tasks, p)))
  }

  lemma DismissTaskIdempotent(n: Notifications, taskId: string)
    ensures DismissTask(DismissTask(n, taskId), taskId) == DismissTask(n, taskId)
  {
    if n.activeTasks.Some? {
      var p := (t: Task) => t.taskId != taskId;
      FilterAll(Filter(n.activeTasks.value, p), p);
    }
  }

  /** Clear all: an empty task list and no messages. */
  function ClearAll(n: Notifications): (r: Notifications)
    ensures r.activeTasks == Some([]) && r.errorMessage.None? && r.infoMessage.None?
    ensures Badge(r) == 0
  {
    Notifications(Some([]), None, None)
  }

  /** Finished tasks stay listed for thirty seconds. */
  const TaskDisplayDuration: int := 30000

  /** A task survives cleanup at `now` if it has no completion time or completed recently. */
  predicate Fresh(now: int, t: Task) {
    t.completionTime.None? || now - t.completionTime.value < TaskDisplayDuration
  }

  function FreshAt(now: int): Task -> bool {
    t => Fresh(now, t)
  }

  /** The cleanup interval's step at time `now`. */
  function AutoCleanup(n: Notifications, now: int): (r: Notifications)
    ensures r.errorMessage == n.errorMessage && r.infoMessage == n.infoMessage
    ensures r.activeTasks.Some? <==> n.activeTasks.Some?
    ensures forall t :: t in Tasks(r) <==> t in Tasks(n) && Fresh(now, t)
  {
    match n.activeTasks
    case None => n
    case Some(tasks) =>
      forall t ensures t in Filter(tasks, FreshAt(now)) <==> t in tasks && Fresh(now, t) {
        FilterMember(tasks, FreshAt(now), t);
      }
      n.(activeTasks := Some(Filter(tasks, FreshAt(now))))
  }

  /** A later cleanup subsumes an earlier one: running both equals running the later. */
  lemma CleanupComposes(n: Notifications, t1: int, t2: int)
    requires t1 <= t2
    ensures AutoCleanup(AutoCleanup(n, t1), t2) == AutoCleanup(n, t2)
  {
    if n.activeTasks.Some? {
      var tasks := n.activeTasks.value;
      var p := FreshAt(t1);
      var q := FreshAt(t2);
      FilterWeakerFirst(tasks, p, q);
    }
  }

  /** Tasks still running never carry a completion time in practice, and cleanup never touches one without it. */
  lemma CleanupKeepsUntimed(n: Notifications, now: int, t: Task)
    requires t in Tasks(n) && t.completionTime.None?
    ensures t in Tasks(AutoCleanup(n, now))
  {
  }

  /** The colour class of a status badge. */
  datatype StatusClass = StatusPending | StatusStarted | StatusSuccess | StatusFailed

  /** The label of a status badge: a translated phrase, or the raw status text. */
  datatype StatusLabel = Queued | InProgress | Downloading | Processing | Finalizing | Completed | Failed | Raw(text: string)

  function StatusStyle(status: string): (r: (StatusClass, StatusLabel))
    ensures r.0 == StatusSuccess <==> status == "SUCCESS"
    ensures r.0 == StatusFailed <==> status == "FAILED"
    ensures r.0 == StatusPending <==> status == "PENDING"
    ensures r.1.Raw? ==> r.0 == StatusStarted && r.1.text == status
  {
    match status
    case "PENDING" => (StatusPending, Queued)
    case "STARTED" => (StatusStarted, InProgress)
    case "PROGRESS" => (StatusStarted, InProgress)
    case "DOWNLOADING" => (StatusStarted, Downloading)
    case "PROCESSING" => (StatusStarted, Processing)
    case "FINALIZING" => (StatusStarted, Finalizing)
    case "SUCCESS" => (StatusSuccess, Completed)
    case "FAILED" => (StatusFailed, Failed)
    case _ => (StatusStarted, Raw(status))
  }

  /** The progress bar is drawn for the five working statuses. */
  predicate ShowProgress(status: string) {
    status in {"STARTED", "PROGRESS", "DOWNLOADING", "PROCESSING", "FINALIZING"}
  }

  /**
   * A progress bar is drawn only for running tasks styled as started, and
   * every status outside the eight known ones is drawn without one.
   */
  lemma ProgressOnlyWhileWorking(t: Task)
    ensures ShowProgress(t.status) ==> IsRunning(t) && StatusStyle(t.status).0 == StatusStarted
    ensures StatusStyle(t.status).1.Raw? ==> !ShowProgress(t.status)
    ensures IsCompleted(t) <==> StatusStyle(t.status).0 in {StatusSuccess, StatusFailed}
  {
  }

  /** What a document click hit. */
  datatype ClickTarget =
    | ElementTarget(insideCenter: bool)
    | NodeWithParent(parentInsideCenter: bool)
    | OrphanNode
    | NotANode

  /**
   * `Element::closest(".notification-center")`: `Ok` with the matching
   * ancestor, or `Ok(None)`; the selector is valid, so never `Err`.
   */
  function ClosestCenter(inside: bool): (r: Result<Option<string>, string>)
    ensures r.IsOk() && (r.value.Some? <==> inside)
  {
    Ok(if inside then Some(".notification-center") else None)
  }

  /**
   * The outside-click handler as written: a click counts as inside when
   * `closest(...)` returned `Ok`, whether or not an ancestor was found.
   */
  function OutsideClickAsWritten(open: bool, target: ClickTarget): (r: bool)
    ensures !open ==> !r
    ensures target.OrphanNode? ==> !r
  {
    match target
    case ElementTarget(inside) => if ClosestCenter(inside).IsOk() then open else false
    case NodeWithParent(inside) => if ClosestCenter(inside).IsOk() then open else false
    case OrphanNode => false
    case NotANode => open
  }

  /** A click on an element outside the bell leaves the dropdown open. */
  lemma OutsideClickNeverCloses()
    ensures OutsideClickAsWritten(true, ElementTarget(false))
    ensures !OutsideClick(true, ElementTarget(false))
  {
  }

  /** The handler with the ancestor actually looked for. */
  function OutsideClick(open: bool, target: ClickTarget): (r: bool)
    ensures target.ElementTarget? ==> (r <==> open && target.insideCenter)
    ensures target.NodeWithParent? ==> (r <==> open && target.parentInsideCenter)
    ensures target.OrphanNode? ==> !r
    ensures target.NotANode? ==> r == open
  {
    match target
    case ElementTarget(inside) => var c := ClosestCenter(inside); if c.IsOk() && c.value.Some? then open else false
    case NodeWithParent(inside) => var c := ClosestCenter(inside); if c.IsOk() && c.value.Some? then open else false
    case OrphanNode => false
    case NotANode => open
  }

  /** Inside clicks never close the dropdown, as written or corrected. */
  lemma InsideClicksAgree(open: bool)
    ensures OutsideClick(open, ElementTarget(true)) == OutsideClickAsWritten(open, ElementTarget(true)) == open
  {
  }

  // ---------------------------------------------------------------------
  // Toasts
  // ---------------------------------------------------------------------

  datatype Toast = Toast(id: nat, content: string, kind: string, visible: bool, expiry: int)

  datatype ToastQueue = ToastQueue(toasts: seq<Toast>, counter: nat)

  const EmptyQueue := ToastQueue([], 0)

  /** A toast is shown for five seconds ... */
  const ToastLifetime: int := 5000
  /** ... and kept for half a second more while it fades out. */
  const FadeOut: int := 500

  /** The queue's invariant: ids are distinct and below the counter, and no message is shown twice. */
  predicate ValidQueue(q: ToastQueue) {
    (forall i :: 0 <= i < |q.toasts| ==> q.toasts[i].id < q.counter)
    && (forall i, j :: 0 <= i < j < |q.toasts| ==> q.toasts[i].id != q.toasts[j].id)
    && (forall i, j :: 0 <= i < j < |q.toasts| && q.toasts[i].visible && q.toasts[j].visible ==>
          (q.toasts[i].content, q.toasts[i].kind) != (q.toasts[j].content, q.toasts[j].kind))
  }

  /** The first half of a tick: visible toasts past their expiry are hidden. */
  function HideExpired(ts: seq<Toast>, now: int): (r: seq<Toast>)
    ensures |r| == |ts|
    ensures forall i :: 0 <= i < |ts| ==>
      r[i] == ts[i].(visible := ts[i].visible && now < ts[i].expiry)
    decreases |ts|
  {
    if |ts| == 0 then []
    else [ts[0].(visible := ts[0].visible && now < ts[0].expiry)] + HideExpired(ts[1..], now)
  }

  predicate Lingers(now: int, t: Toast) {
    t.visible || now < t.expiry + FadeOut
  }

  /** The 100ms tick: hide expired toasts, then drop the ones whose fade-out is over. */
  function Tick(q: ToastQueue, now: int): (r: ToastQueue)
    ensures r.counter == q.counter
    ensures |r.toasts| <= |q.toasts|
    ensures forall t :: t in r.toasts ==> now < t.expiry + FadeOut
    ensures forall t :: t in r.toasts ==> t.visible ==> now < t.expiry
  {
    var hidden := HideExpired(q.toasts, now);
    var kept := Filter(hidden, t => Lingers(now, t));
    forall t | t in kept ensures now < t.expiry + FadeOut && (t.visible ==> now < t.expiry) {
      var i :| 0 <= i < |hidden| && hidden[i] == t;
    }
    ToastQueue(kept, q.counter)
  }

  /**
   * A toast survives a tick exactly when its fade-out is not over, whether
   * or not it was dismissed by hand; it stays visible exactly when it was
   * visible and has not expired.
   */
  lemma TickKeepsExactly(q: ToastQueue, now: int, t: Toast)
    requires t in q.toasts
    ensures now < t.expiry + FadeOut ==> t.(visible := t.visible && now < t.expiry) in Tick(q, now).toasts
    ensures now >= t.expiry + FadeOut ==> forall u :: u in Tick(q, now).toasts ==> u.id != t.id || u.expiry != t.expiry
  {
    var hidden := HideExpired(q.toasts, now);
    var i :| 0 <= i < |q.toasts| && q.toasts[i] == t;
    assert hidden[i] == t.(visible := t.visible && now < t.expiry);
    if now < t.expiry + FadeOut {
      FilterKeeps(hidden, u => Lingers(now, u), hidden[i]);
    }
  }

  lemma TickValid(q: ToastQueue, now: int)
    requires ValidQueue(q)
    ensures ValidQueue(Tick(q, now))
  {
    var hidden := HideExpired(q.toasts, now);
    assert ValidQueue(ToastQueue(hidden, q.counter));
    FilterValid(hidden, q.counter, t => Lingers(now, t));
  }

  lemma {:induction false} FilterValid(ts: seq<Toast>, counter: nat, p: Toast -> bool)
    requires ValidQueue(ToastQueue(ts, counter))
    ensures ValidQueue(ToastQueue(Filter(ts, p), counter))
    decreases |ts|
  {
    if |ts| > 0 {
      var rest := ts[1..];
      FilterValid(rest, counter, p);
      if p(ts[0]) {
        var f := Filter(rest, p);
        forall j | 0 <= j < |f|
          ensures f[j].id != ts[0].id
          ensures ts[0].visible && f[j].visible ==> (ts[0].content, ts[0].kind) != (f[j].content, f[j].kind)
        {
          assert f[j] in f;
          var k :| 0 <= k < |rest| && rest[k] == f[j];
          assert ts[k + 1] == f[j];
        }
        ConsValid(ts[0], f, counter);
      }
    }
  }

  /** A toast whose id and visible message differ from every later one keeps the queue valid when put in front. */
  lemma ConsValid(t: Toast, f: seq<Toast>, counter: nat)
    requires ValidQueue(ToastQueue(f, counter)) && t.id < counter
    requires forall j :: 0 <= j < |f| ==> f[j].id != t.id
    requires forall j :: 0 <= j < |f| ==> t.visible && f[j].visible ==> (t.content, t.kind) != (f[j].content, f[j].kind)
    ensures ValidQueue(ToastQueue([t] + f, counter))
  {
    var r := [t] + f;
    forall i, j | 0 <= i < j < |r|
      ensures r[i].id != r[j].id
      ensures r[i].visible && r[j].visible ==> (r[i].content, r[i].kind) != (r[j].content, r[j].kind)
    {
      assert r[j] == f[j - 1];
      if i > 0 {
        assert r[i] == f[i - 1];
      }
    }
  }

  /** Some visible toast already shows this message. */
  predicate Showing(q: ToastQueue, content: string, kind: string) {
    exists i :: 0 <= i < |q.toasts| && q.toasts[i].content == content && q.toasts[i].kind == kind && q.toasts[i].visible
  }

  /**
   * A new error or info message: queued as a fresh visible toast with the
   * next id and a five-second expiry, unless the same message is already
   * showing.
   */
  function AddToast(q: ToastQueue, content: string, kind: string, now: int): (r: ToastQueue)
    ensures Showing(q, content, kind) ==> r == q
    ensures !Showing(q, content, kind) ==>
      r.toasts == q.toasts + [Toast(q.counter, content, kind, true, now + ToastLifetime)]
      && r.counter == q.counter + 1
    ensures Showing(r, content, kind)
  {
    if Showing(q, content, kind) then q
    else
      var t := Toast(q.counter, content, kind, true, now + ToastLifetime);
      var r := ToastQueue(q.toasts + [t], q.counter + 1);
      assert r.toasts[|q.toasts|] == t;
      r
  }

  lemma AddToastValid(q: ToastQueue, content: string, kind: string, now: int)
    requires ValidQueue(q)
    ensures ValidQueue(AddToast(q, content, kind, now))
  {
  }

  /** Repeating a message while it is on screen adds nothing. */
  lemma AddToastIdempotent(q: ToastQueue, content: string, kind: string, now: int, later: int)
    ensures AddToast(AddToast(q, content, kind, now), content, kind, later) == AddToast(q, content, kind, now)
  {
  }

  /** The close button: hides the first toast with that id. */
  function DismissToast(q: ToastQueue, id: nat): (r: ToastQueue)
    ensures r.counter == q.counter && |r.toasts| == |q.toasts|
    ensures forall i :: 0 <= i < |q.toasts| ==>
      r.toasts[i] == q.toasts[i] || (r.toasts[i] == q.toasts[i].(visible := false) && q.toasts[i].id == id)
    ensures forall i :: 0 <= i < |q.toasts| && q.toasts[i].id == id && ValidQueue(q) ==> !r.toasts[i].visible
  {
    var ids := seq(|q.toasts|, i requires 0 <= i < |q.toasts| => q.toasts[i].id);
    match IndexOf(ids, id)
    case None =>
      assert forall i :: 0 <= i < |q.toasts| ==> ids[i] == q.toasts[i].id;
      q
    case Some(k) => ToastQueue(q.toasts[k := q.toasts[k].(visible := false)], q.counter)
  }

  lemma DismissToastValid(q: ToastQueue, id: nat)
    requires ValidQueue(q)
    ensures ValidQueue(DismissToast(q, id))
  {
    var r := DismissToast(q, id);
    forall i, j | 0 <= i < j < |r.toasts|
      ensures r.toasts[i].id != r.toasts[j].id
      ensures r.toasts[i].visible && r.toasts[j].visible ==> (r.toasts[i].content, r.toasts[i].kind) != (r.toasts[j].content, r.toasts[j].kind)
    {
    }
  }

  /**
   * The store's error or info message is cleared 5.5 seconds after its
   * toast was queued, unless a different message replaced it meanwhile.
   */
  function ClearIfUnchanged(current: Option<string>, queued: string): (r: Option<string>)
    ensures current == Some(queued) ==> r.None?
    ensures current != Some(queued) ==> r == current
  {
    if current == Some(queued) then None else current
  }
}

=== FILE: notification_settings.dfy ===
/**
 * The notification settings form: loading the stored settings, the ntfy
 * credentials (a username and password, or an access token, never both),
 * and the payload sent on save.
 */
module NotificationSettings {
  import opened Wrappers

  /** One stored setting as the server returns it; absent fields are `None`. */
  datatype StoredSetting = StoredSetting(
    platform: string,
    enabled: bool,
    ntfyTopic: Option<string>,
    ntfyServerUrl: Option<string>,
    ntfyUsername: Option<string>,
    ntfyPassword: Option<string>,
    ntfyAccessToken: Option<string>,
    gotifyUrl: Option<string>,
    gotifyToken: Option<string>)

  /** The form's fields. */
  datatype Form = Form(
    platform: string,
    enabled: bool,
    topic: string,
    server: string,
    username: string,
    password: string,
    token: string,
    gotifyUrl: string,
    gotifyToken: string)

  const InitialForm := Form("ntfy", false, "", "https://ntfy.sh", "", "", "", "", "")

  /** `iter().find(|s| s.platform == name)`. */
  function FindPlatform(settings: seq<StoredSetting>, name: string): (r: Option<StoredSetting>)
    ensures r.Some? ==> r.value in settings && r.value.platform == name
    ensures r.None? <==> forall s :: s in settings ==> s.platform != name
    decreases |settings|
  {
    if |settings| == 0 then None
    else if settings[0].platform == name then Some(settings[0])
    else
      var r := FindPlatform(settings[1..], name);
      assert forall s :: s in settings ==> s == settings[0] || s in settings[1..];
      r
  }

  /** `if let Some(v) = field { state.set(v) }`: a present field overwrites, an absent one keeps the old value. */
  function Overlay(current: string, field: Option<string>): string {
    field.UnwrapOr(current)
  }

  /**
   * Settings fetched: the platform is forced to ntfy, `enabled` follows
   * the ntfy entry (false without one), and every present field of the
   * ntfy and gotify entries overwrites its input.
   */
  function OnLoaded(f: Form, settings: seq<StoredSetting>): (r: Form)
    ensures r.platform == "ntfy"
    ensures r.enabled <==> FindPlatform(settings, "ntfy").Some? && FindPlatform(settings, "ntfy").value.enabled
    ensures FindPlatform(settings, "ntfy").None?
      ==> r.topic == f.topic && r.server == f.server && r.username == f.username && r.password == f.password && r.token == f.token
    ensures FindPlatform(settings, "ntfy").Some? ==> var n := FindPlatform(settings, "ntfy").value;
      r.topic == n.ntfyTopic.UnwrapOr(f.topic) && r.server == n.ntfyServerUrl.UnwrapOr(f.server)
      && r.username == n.ntfyUsername.UnwrapOr(f.username) && r.password == n.ntfyPassword.UnwrapOr(f.password)
      && r.token == n.ntfyAccessToken.UnwrapOr(f.token)
    ensures FindPlatform(settings, "gotify").None? ==> r.gotifyUrl == f.gotifyUrl && r.gotifyToken == f.gotifyToken
    ensures FindPlatform(settings, "gotify").Some? ==> var g := FindPlatform(settings, "gotify").value;
      r.gotifyUrl == g.gotifyUrl.UnwrapOr(f.gotifyUrl) && r.gotifyToken == g.gotifyToken.UnwrapOr(f.gotifyToken)
  {
    var ntfy := FindPlatform(settings, "ntfy");
    var gotify := FindPlatform(settings, "gotify");
    var withNtfy := match ntfy
      case None => f.(enabled := false)
      case Some(n) => f.(
        enabled := n.enabled,
        topic := Overlay(f.topic, n.ntfyTopic),
        server := Overlay(f.server, n.ntfyServerUrl),
        username := Overlay(f.username, n.ntfyUsername),
        password := Overlay(f.password, n.ntfyPassword),
        token := Overlay(f.token, n.ntfyAccessToken));
    var withGotify := match gotify
      case None => withNtfy
      case Some(g) => withNtfy.(
        gotifyUrl := Overlay(f.gotifyUrl, g.gotifyUrl),
        gotifyToken := Overlay(f.gotifyToken, g.gotifyToken));
    withGotify.(platform := "ntfy")
  }

  // ---------------------------------------------------------------------
  // Username/password versus access token
  // ---------------------------------------------------------------------

  /** The form never holds both kinds of ntfy credentials. */
  predicate CredentialsExclusive(f: Form) {
    f.token != [] ==> f.username == [] && f.password == []
  }

  /** The username field is locked while a token is entered; in an exclusive form it then holds nothing. */
  function UsernameDisabled(f: Form): (b: bool)
    ensures CredentialsExclusive(f) && b ==> f.username == []
  {
    f.token != []
  }

  /** The password field is locked while a token is entered; in an exclusive form it then holds nothing. */
  function PasswordDisabled(f: Form): (b: bool)
    ensures CredentialsExclusive(f) && b ==> f.password == []
  {
    f.token != []
  }

  /** The token field is locked while a username or password is entered; in an exclusive form it then holds nothing. */
  function TokenDisabled(f: Form): (b: bool)
    ensures CredentialsExclusive(f) && b ==> f.token == []
  {
    f.username != [] || f.password != []
  }

  /** Typing a username: a non-empty one clears the access token. */
  function OnUsernameInput(f: Form, v: string): (r: Form)
    ensures r.username == v && r.password == f.password
    ensures v != [] ==> r.token == []
    ensures v == [] ==> r.token == f.token
    ensures CredentialsExclusive(f) ==> CredentialsExclusive(r)
  {
    f.(username := v, token := if v != [] then [] else f.token)
  }

  /** Typing a password: a non-empty one clears the access token. */
  function OnPasswordInput(f: Form, v: string): (r: Form)
    ensures r.password == v && r.username == f.username
    ensures v != [] ==> r.token == []
    ensures v == [] ==> r.token == f.token
    ensures CredentialsExclusive(f) ==> CredentialsExclusive(r)
  {
    f.(password := v, token := if v != [] then [] else f.token)
  }

  /** Typing an access token: a non-empty one clears the username and the password. */
  function OnTokenInput(f: Form, v: string): (r: Form)
    ensures r.token == v
    ensures v != [] ==> r.username == [] && r.password == []
    ensures v == [] ==> r.username == f.username && r.password == f.password
    ensures CredentialsExclusive(f) ==> CredentialsExclusive(r)
  {
    f.(token := v, username := if v != [] then [] else f.username, password := if v != [] then [] else f.password)
  }

  /** With exclusive credentials, one kind of credential can always be typed. */
  lemma OneCredentialKindEditable(f: Form)
    requires CredentialsExclusive(f)
    ensures !(UsernameDisabled(f) && TokenDisabled(f))
  {
  }

  /** Stored settings holding both kinds of credentials are loaded as they are, breaking the exclusion. */
  lemma LoadShowsBothCredentials()
    ensures var s := StoredSetting("ntfy", true, None, None, Some("u"), None, Some("t"), None, None);
      !CredentialsExclusive(OnLoaded(InitialForm, [s]))
  {
    var s := StoredSetting("ntfy", true, None, None, Some("u"), None, Some("t"), None, None);
    assert FindPlatform([s], "ntfy") == Some(s);
  }

  // ---------------------------------------------------------------------
  // Saving
  // ---------------------------------------------------------------------

  /** The payload of the save request: every string field wrapped in `Some`. */
  function Payload(f: Form): (s: StoredSetting)
    ensures s.platform == f.platform && s.enabled == f.enabled
    ensures s.ntfyTopic == Some(f.topic) && s.ntfyServerUrl == Some(f.server)
    ensures s.ntfyUsername == Some(f.username) && s.ntfyPassword == Some(f.password) && s.ntfyAccessToken == Some(f.token)
    ensures s.gotifyUrl == Some(f.gotifyUrl) && s.gotifyToken == Some(f.gotifyToken)
  {
    StoredSetting(f.platform, f.enabled, Some(f.topic), Some(f.server), Some(f.username), Some(f.password),
      Some(f.token), Some(f.gotifyUrl), Some(f.gotifyToken))
  }

  /** Saving an ntfy form and loading the stored setting back gives the same form. */
  lemma SaveThenLoad(f: Form, before: Form)
    requires f.platform == "ntfy"
    ensures OnLoaded(before.(gotifyUrl := f.gotifyUrl, gotifyToken := f.gotifyToken), [Payload(f)]) == f
  {
    assert FindPlatform([Payload(f)], "ntfy") == Some(Payload(f));
    assert FindPlatform([Payload(f)], "gotify").None?;
  }

  /** The save succeeding flips the trigger the fetch effect watches, so the settings are fetched again. */
  function OnSaved(updateTrigger: bool): (r: bool)
    ensures r != updateTrigger
  {
    !updateTrigger
  }
}

=== FILE: people_subs.dfy ===
/**
 * The subscribed-people page: each followed person can be expanded, and
 * expanding one whose episodes have not been loaded yet fetches them.
 * Which people are expanded is kept in a map from person id to flag.
 */
module PeopleSubs {
  import opened Episodes

  datatype Person = Person(personId: int, name: string)

  datatype PersonWithEpisodes = PersonWithEpisodes(person: Person, episodes: seq<Episode>, isExpanded: bool)

  /** An id without an entry counts as collapsed. */
  predicate IsExpanded(expanded: map<int, bool>, id: int) {
    id in expanded && expanded[id]
  }

  /** `toggle_person`: flips one person's flag and leaves every other entry alone. */
  function TogglePerson(expanded: map<int, bool>, id: int): (r: map<int, bool>)
    ensures IsExpanded(r, id) <==> !IsExpanded(expanded, id)
    ensures id in r
    ensures forall k :: k != id ==> (k in r <==> k in expanded)
    ensures forall k :: k != id && k in expanded ==> r[k] == expanded[k]
  {
    expanded[id := !IsExpanded(expanded, id)]
  }

  /** Toggling twice restores the person's flag and, when there was an entry, the whole map. */
  lemma ToggleTwice(expanded: map<int, bool>, id: int)
    ensures IsExpanded(TogglePerson(TogglePerson(expanded, id), id), id) == IsExpanded(expanded, id)
    ensures id in expanded ==> TogglePerson(TogglePerson(expanded, id), id) == expanded
  {
  }

  /** The subscriptions fetched: every person starts collapsed with no episodes. */
  function OnSubscriptionsFetched(subs: seq<Person>): (r: seq<PersonWithEpisodes>)
    ensures |r| == |subs|
    ensures forall i :: 0 <= i < |r| ==> r[i] == PersonWithEpisodes(subs[i], [], false)
  {
    seq(|subs|, i requires 0 <= i < |subs| => PersonWithEpisodes(subs[i], [], false))
  }

  /** Whether the expansion effect fetches this person's episodes. */
  predicate NeedsEpisodes(p: PersonWithEpisodes, expanded: map<int, bool>) {
    IsExpanded(expanded, p.person.personId) && |p.episodes| == 0
  }

  /** The (id, name) pairs the expansion effect fetches episodes for, in list order. */
  function ToFetch(people: seq<PersonWithEpisodes>, expanded: map<int, bool>): (r: seq<(int, string)>)
    ensures |r| <= |people|
    ensures forall id, name :: (id, name) in r <==>
      (exists i :: 0 <= i < |people| && NeedsEpisodes(people[i], expanded) && people[i].person == Person(id, name))
    decreases |people|
  {
    if |people| == 0 then []
    else
      var rest := ToFetch(people[1..], expanded);
      var p := people[0];
      assert forall i :: 1 <= i < |people| ==> people[i] == people[1..][i - 1];
      if NeedsEpisodes(p, expanded) then [(p.person.personId, p.person.name)] + rest else rest
  }

  /** A person's episodes arriving: only the people with that id get them. */
  function SetEpisodes(people: seq<PersonWithEpisodes>, personId: int, eps: seq<Episode>): (r: seq<PersonWithEpisodes>)
    ensures |r| == |people|
    ensures forall i :: 0 <= i < |r| ==> r[i].person == people[i].person && r[i].isExpanded == people[i].isExpanded
    ensures forall i :: 0 <= i < |r| && people[i].person.personId == personId ==> r[i].episodes == eps
    ensures forall i :: 0 <= i < |r| && people[i].person.personId != personId ==> r[i] == people[i]
  {
    seq(|people|, i requires 0 <= i < |people| =>
      if people[i].person.personId == personId then people[i].(episodes := eps) else people[i])
  }

  /** Once a person's non-empty episodes arrive, the effect no longer fetches them; others are unaffected. */
  lemma LoadedPersonNotRefetched(people: seq<PersonWithEpisodes>, expanded: map<int, bool>, personId: int, eps: seq<Episode>, other: int, name: string)
    requires |eps| > 0
    ensures forall name' :: (personId, name') !in ToFetch(SetEpisodes(people, personId, eps), expanded)
    ensures other != personId ==>
      ((other, name) in ToFetch(SetEpisodes(people, personId, eps), expanded) <==> (other, name) in ToFetch(people, expanded))
  {
    var r := SetEpisodes(people, personId, eps);
    if other != personId {
      forall i | 0 <= i < |people| && people[i].person == Person(other, name)
        ensures r[i] == people[i]
      {
      }
    }
  }

  /** Nobody to fetch for gives an empty fetch list. */
  lemma {:induction false} ToFetchNone(people: seq<PersonWithEpisodes>, expanded: map<int, bool>)
    requires forall i :: 0 <= i < |people| ==> !NeedsEpisodes(people[i], expanded)
    ensures ToFetch(people, expanded) == []
    decreases |people|
  {
    if |people| > 0 {
      ToFetchNone(people[1..], expanded);
    }
  }

  /** A freshly fetched list has nothing to fetch until someone is expanded. */
  lemma NothingFetchedWhileCollapsed(subs: seq<Person>, expanded: map<int, bool>)
    requires forall id :: !IsExpanded(expanded, id)
    ensures ToFetch(OnSubscriptionsFetched(subs), expanded) == []
  {
    ToFetchNone(OnSubscriptionsFetched(subs), expanded);
  }
}

=== FILE: pod_req.dfy ===
/**
 * The pure parts of the web client's request layer: the lenient boolean
 * decoder, the two podcast record conversions, the YouTube flag the
 * podcast list recomputes, the episode websocket address, the feed
 * refresh task it registers, the home overview's envelope check and the
 * queue reorder request.
 */
module PodReq {
  import opened Wrappers
  import opened Strings
  import opened Seqs
  import opened Episodes
  import NotificationCenter

  // ---------------------------------------------------------------------
  // bool_from_int
  // ---------------------------------------------------------------------

  /**
   * The JSON scalar a boolean field may hold. An integer literal reaches
   * the visitor as an `i64` (negative) or a `u64` (non-negative) when it
   * fits one of them; any other number arrives as a float.
   */
  datatype JsonScalar = JBool(b: bool) | JInteger(n: int) | JFloat | JString(s: string) | JNull

  const I64Min: int := -0x8000_0000_0000_0000
  const U64Max: int := 0xffff_ffff_ffff_ffff

  /** Whether the visitor sees the value as an integer (`visit_i64` or `visit_u64`). */
  predicate FitsInteger(n: int) { I64Min <= n <= U64Max }

  /** Booleans pass through, integers mean "non-zero"; anything else is a type error. */
  function BoolFromInt(v: JsonScalar): (r: Result<bool, string>)
    ensures r.Ok? <==> v.JBool? || (v.JInteger? && FitsInteger(v.n))
    ensures v.JBool? ==> r == Ok(v.b)
    ensures v.JInteger? && FitsInteger(v.n) ==> r == Ok(v.n != 0)
  {
    match v
    case JBool(b) => Ok(b)
    case JInteger(n) => if FitsInteger(n) then Ok(n != 0) else Err("invalid type: expected a boolean or an integer")
    case _ => Err("invalid type: expected a boolean or an integer")
  }

  /** The flags 0 and 1 decode as the booleans they stand for, both ways. */
  lemma BoolFromIntAgrees(b: bool)
    ensures BoolFromInt(JInteger(if b then 1 else 0)) == BoolFromInt(JBool(b))
    ensures BoolFromInt(JInteger(if b then 1 else 0)).Ok?
  {
  }

  // ---------------------------------------------------------------------
  // Podcast <-> PodcastExtra
  // ---------------------------------------------------------------------

  datatype Podcast = Podcast(
    podcastId: int,
    podcastName: string,
    artworkUrl: Option<string>,
    description: Option<string>,
    episodeCount: Option<int>,
    websiteUrl: Option<string>,
    feedUrl: string,
    author: Option<string>,
    categories: Option<map<string, string>>,
    explicit: bool,
    podcastIndexId: Option<int>)

  datatype PodcastExtra = PodcastExtra(
    podcastId: int,
    podcastName: string,
    artworkUrl: Option<string>,
    description: Option<string>,
    episodeCount: Option<int>,
    websiteUrl: Option<string>,
    feedUrl: string,
    author: Option<string>,
    categories: Option<map<string, string>>,
    explicit: bool,
    podcastIndexId: int,
    playCount: int,
    episodesPlayed: int,
    oldestEpisodeDate: Option<string>,
    isYoutube: bool)

  /** The fields both records carry agree. */
  predicate SameCore(p: Podcast, x: PodcastExtra) {
    p.podcastId == x.podcastId && p.podcastName == x.podcastName && p.artworkUrl == x.artworkUrl
    && p.description == x.description && p.episodeCount == x.episodeCount && p.websiteUrl == x.websiteUrl
    && p.feedUrl == x.feedUrl && p.author == x.author && p.categories == x.categories && p.explicit == x.explicit
  }

  predicate IsYoutubeFeed(feedUrl: string) { Contains(feedUrl, "youtube.com") }

  /** `From<Podcast> for PodcastExtra`: a missing index id becomes 0, the play statistics start empty. */
  function ToExtra(p: Podcast): (x: PodcastExtra)
    ensures SameCore(p, x)
    ensures x.podcastIndexId == p.podcastIndexId.UnwrapOr(0)
    ensures x.playCount == 0 && x.episodesPlayed == 0 && x.oldestEpisodeDate.None?
    ensures x.isYoutube <==> IsYoutubeFeed(p.feedUrl)
  {
    PodcastExtra(p.podcastId, p.podcastName, p.artworkUrl, p.description, p.episodeCount, p.websiteUrl,
      p.feedUrl, p.author, p.categories, p.explicit, p.podcastIndexId.UnwrapOr(0), 0, 0, None,
      IsYoutubeFeed(p.feedUrl))
  }

  /** `From<PodcastExtra> for Podcast`: the statistics are dropped and the index id is always present. */
  function ToPodcast(x: PodcastExtra): (p: Podcast)
    ensures SameCore(p, x)
    ensures p.podcastIndexId == Some(x.podcastIndexId)
  {
    Podcast(x.podcastId, x.podcastName, x.artworkUrl, x.description, x.episodeCount, x.websiteUrl,
      x.feedUrl, x.author, x.categories, x.explicit, Some(x.podcastIndexId))
  }

  /** Podcast to extra and back is the identity exactly when the index id was present; otherwise it reads 0. */
  lemma PodcastRoundTrip(p: Podcast)
    ensures ToPodcast(ToExtra(p)) == p.(podcastIndexId := Some(p.podcastIndexId.UnwrapOr(0)))
    ensures ToPodcast(ToExtra(p)) == p <==> p.podcastIndexId.Some?
  {
  }

  /** Extra to podcast and back is the identity exactly for records with no statistics and a consistent YouTube flag. */
  lemma ExtraRoundTrip(x: PodcastExtra)
    ensures ToExtra(ToPodcast(x)) == x <==>
      (x.playCount == 0 && x.episodesPlayed == 0 && x.oldestEpisodeDate.None? && x.isYoutube == IsYoutubeFeed(x.feedUrl))
  {
  }

  /** The podcast list fetch: every record's YouTube flag is recomputed from its feed URL. */
  function RecomputeYoutube(pods: seq<PodcastExtra>): (r: seq<PodcastExtra>)
    ensures |r| == |pods|
    ensures forall i :: 0 <= i < |r| ==> r[i] == pods[i].(isYoutube := IsYoutubeFeed(pods[i].feedUrl))
  {
    seq(|pods|, i requires 0 <= i < |pods| => pods[i].(isYoutube := IsYoutubeFeed(pods[i].feedUrl)))
  }

  /** Recomputing twice changes nothing, and records built by `ToExtra` are already consistent. */
  lemma RecomputeYoutubeIdempotent(pods: seq<PodcastExtra>, ps: seq<Podcast>)
    ensures RecomputeYoutube(RecomputeYoutube(pods)) == RecomputeYoutube(pods)
    ensures RecomputeYoutube(seq(|ps|, i requires 0 <= i < |ps| => ToExtra(ps[i])))
         == seq(|ps|, i requires 0 <= i < |ps| => ToExtra(ps[i]))
  {
  }

  // ---------------------------------------------------------------------
  // Episode websocket
  // ---------------------------------------------------------------------

  /** The secure scheme exactly for an https server. */
  function WsScheme(server: string): (s: string)
    ensures s == "wss://" <==> StartsWith(server, "https://")
    ensures s == "ws://" <==> !StartsWith(server, "https://")
  {
    if StartsWith(server, "https://") then "wss://" else "ws://"
  }

  /** The host part: leading "http://" prefixes stripped, then leading "https://" ones. */
  function WsHost(server: string): (h: string)
    ensures !StartsWith(h, "https://")
    ensures |h| <= |server| && h == server[|server| - |h|..]
  {
    TrimStartMatches(TrimStartMatches(server, "http://"), "https://")
  }

  function EpisodeSocketUrl(server: string, userId: int, apiKey: string, nextcloudRefresh: bool): (u: string)
    ensures StartsWith(u, WsScheme(server) + WsHost(server) + "/ws/api/data/episodes/")
  {
    var prefix := WsScheme(server) + WsHost(server) + "/ws/api/data/episodes/";
    var u := prefix + (IntToString(userId) + "?api_key=" + apiKey + "&nextcloud_refresh=" + BoolText(nextcloudRefresh));
    assert u[..|prefix|] == prefix;
    u
  }

  lemma TrimNothing(s: string, p: string)
    requires |p| > 0 && !StartsWith(s, p)
    ensures TrimStartMatches(s, p) == s
  {
  }

  lemma TrimOnce(h: string, p: string)
    requires |p| > 0 && !StartsWith(h, p)
    ensures TrimStartMatches(p + h, p) == h
  {
    assert (p + h)[|p|..] == h;
  }

  /** An https server's host is what follows the scheme, reached over `wss://`. */
  lemma HttpsServerSocket(h: string)
    requires !StartsWith(h, "https://")
    ensures WsScheme("https://" + h) == "wss://"
    ensures WsHost("https://" + h) == h
  {
    var s := "https://" + h;
    assert s[4] == 's';
    TrimNothing(s, "http://");
    TrimOnce(h, "https://");
  }

  /** A plain http server's host is what follows the scheme, reached over `ws://`. */
  lemma HttpServerSocket(h: string)
    requires !StartsWith(h, "http://") && !StartsWith(h, "https://")
    ensures WsScheme("http://" + h) == "ws://"
    ensures WsHost("http://" + h) == h
  {
    var s := "http://" + h;
    assert s[4] == ':';
    TrimOnce(h, "http://");
    TrimNothing(h, "https://");
  }

  // ---------------------------------------------------------------------
  // Feed refresh task
  // ---------------------------------------------------------------------

  const FeedRefresh := "feed_refresh"

  /** A task survives a new refresh unless it is a feed refresh still running. */
  function KeptOnRefresh(t: NotificationCenter.Task): (b: bool)
    ensures t.kind != FeedRefresh ==> b
    ensures t.kind == FeedRefresh ==> (b <==> NotificationCenter.IsCompleted(t))
  {
    t.kind != FeedRefresh || t.status == "SUCCESS" || t.status == "FAILED"
  }

  predicate RunningRefresh(t: NotificationCenter.Task) { !KeptOnRefresh(t) }

  /**
   * Opening the websocket registers a new STARTED refresh task, replacing
   * every unfinished refresh; a missing task list is created first.
   */
  function StartRefresh(tasks: Option<seq<NotificationCenter.Task>>, taskId: string): (r: seq<NotificationCenter.Task>)
    ensures |r| > 0 && r[|r| - 1] == NotificationCenter.Task(taskId, FeedRefresh, "STARTED", None, None)
    ensures r[..|r| - 1] == Filter(tasks.UnwrapOr([]), KeptOnRefresh)
    ensures forall t :: t in r[..|r| - 1] <==> t in tasks.UnwrapOr([]) && KeptOnRefresh(t)
    ensures forall i :: 0 <= i < |r| - 1 ==> !RunningRefresh(r[i])
  {
    var kept := Filter(tasks.UnwrapOr([]), KeptOnRefresh);
    var r := kept + [NotificationCenter.Task(taskId, FeedRefresh, "STARTED", None, None)];
    assert r[..|r| - 1] == kept;
    forall t ensures t in kept <==> t in tasks.UnwrapOr([]) && KeptOnRefresh(t) {
      FilterMember(tasks.UnwrapOr([]), KeptOnRefresh, t);
    }
    r
  }

  /** After a refresh starts, exactly one refresh task is running: the new one. */
  lemma OneRunningRefresh(tasks: Option<seq<NotificationCenter.Task>>, taskId: string)
    ensures var r := StartRefresh(tasks, taskId);
      Filter(r, RunningRefresh) == [r[|r| - 1]]
  {
    var r := StartRefresh(tasks, taskId);
    FilterSingle(r, RunningRefresh, |r| - 1);
  }

  // ---------------------------------------------------------------------
  // Home overview envelope
  // ---------------------------------------------------------------------

  datatype EnvelopeError = EmptyResponse | NotAnObject(head: string, tailReversed: string)

  /** The check before parsing: non-empty, starting with `{` and ending with `}`. */
  function CheckEnvelope(text: string): (r: Result<string, EnvelopeError>)
    ensures r.Ok? <==> |text| > 0 && text[0] == '{' && text[|text| - 1] == '}'
    ensures r.Ok? ==> r.value == text && |text| >= 2
    ensures r == Err(EmptyResponse) <==> |text| == 0
    ensures r.Err? && r.error.NotAnObject? ==> r.error.head == Take(text, 50)
    ensures r.Err? && r.error.NotAnObject? ==> |r.error.tailReversed| == if |text| < 50 then |text| else 50
    ensures r.Err? && r.error.NotAnObject? ==>
      forall i :: 0 <= i < |r.error.tailReversed| ==> r.error.tailReversed[i] == text[|text| - 1 - i]
  {
    if |text| == 0 then Err(EmptyResponse)
    else if !(text[0] == '{' && text[|text| - 1] == '}') then
      Err(NotAnObject(Take(text, 50), Take(Reverse(text), 50)))
    else
      Ok(text)
  }

  /** The envelope accepts exactly the texts of the form `{...}`, unchanged. */
  lemma EnvelopeAcceptsBraced(s: string, text: string)
    ensures CheckEnvelope("{" + s + "}") == Ok("{" + s + "}")
    ensures CheckEnvelope(text).Ok? ==> text == "{" + text[1..|text| - 1] + "}"
  {
    var braced := "{" + s + "}";
    assert braced[0] == '{' && braced[|braced| - 1] == '}';
    if CheckEnvelope(text).Ok? {
      assert text == [text[0]] + text[1..|text| - 1] + [text[|text| - 1]];
    }
  }

  // ---------------------------------------------------------------------
  // Queue reorder request
  // ---------------------------------------------------------------------

  datatype ReorderRequest = ReorderRequest(url: string, apiKey: string, episodeIds: seq<int>)

  /** `call_reorder_queue` up to the send: no request at all without an api key. */
  function ReorderQueueRequest(server: string, apiKey: Option<string>, userId: int, episodeIds: seq<int>): (r: Result<ReorderRequest, string>)
    ensures r.Err? <==> apiKey.None?
    ensures r.Err? ==> r.error == "API key is missing"
    ensures r.Ok? ==> r.value.apiKey == apiKey.value && r.value.episodeIds == episodeIds
    ensures r.Ok? ==> StartsWith(r.value.url, server + "/api/data/reorder_queue?user_id=")
  {
    match apiKey
    case None => Err("API key is missing")
    case Some(k) => Ok(ReorderRequest(server + "/api/data/reorder_queue?user_id=" + IntToString(userId), k, episodeIds))
  }

  /** The URL names the user: distinct i32 user ids give distinct URLs. */
  lemma ReorderUrlNamesUser(server: string, key: string, a: int, b: int, ids: seq<int>)
    requires InI32(a) && InI32(b)
    ensures ReorderQueueRequest(server, Some(key), a, ids).value.url == ReorderQueueRequest(server, Some(key), b, ids).value.url
      <==> a == b
  {
    var p := server + "/api/data/reorder_queue?user_id=";
    assert (p + IntToString(a))[|p|..] == IntToString(a);
    assert (p + IntToString(b))[|p|..] == IntToString(b);
    IntToStringInjective(a, b);
  }

  /** The order sent is the queue's new order, and it names exactly the episodes the queue held. */
  lemma ReorderPayloadNamesQueue(server: string, key: string, userId: int, before: seq<Episode>, after: seq<Episode>, id: int)
    requires multiset(after) == multiset(before)
    ensures var r := ReorderQueueRequest(server, Some(key), userId, Ids(after));
      r.Ok? && |r.value.episodeIds| == |before| && (id in r.value.episodeIds <==> HasId(before, id))
  {
    assert |after| == |multiset(after)| == |before|;
    IdsMembership(after, id);
    if HasId(before, id) {
      var i :| 0 <= i < |before| && before[i].episodeId == id;
      assert before[i] in multiset(after);
    }
    if HasId(after, id) {
      var i :| 0 <= i < |after| && after[i].episodeId == id;
      assert after[i] in multiset(before);
    }
  }
}

=== FILE: queue_drag.dfy ===
/**
 * Drag-and-drop reordering of the episode queue: auto-scrolling near the
 * container edges, finding the drop target (a tagged row or, failing that,
 * the row under the pointer), moving the dragged episode, and the new
 * order sent to the server.
 */
module QueueDrag {
  import opened Wrappers
  import opened Strings
  import opened Seqs
  import opened Episodes
  import opened ItemGeometry
  import VirtualList

  // ---------------------------------------------------------------------
  // Auto-scroll while dragging

  /** Pixels from an edge that trigger auto-scroll, and pixels scrolled per event. */
  const EdgeZone: real := 50.0
  const ScrollStep: int := 20

  /**
   * One `dragover` event: scroll up (not past 0) when the pointer is within
   * 50px of the container's top, then scroll down when it is within 50px of
   * its bottom. The two checks are independent.
   */
  function AutoScroll(pointerY: int, containerTop: real, containerBottom: real, scrollTop: int): (r: int)
    ensures (pointerY as real) >= containerTop + EdgeZone && (pointerY as real) <= containerBottom - EdgeZone
      ==> r == scrollTop
    ensures (pointerY as real) < containerTop + EdgeZone && (pointerY as real) <= containerBottom - EdgeZone
      ==> r == if scrollTop > ScrollStep then scrollTop - ScrollStep else 0
    ensures (pointerY as real) >= containerTop + EdgeZone && (pointerY as real) > containerBottom - EdgeZone
      ==> r == scrollTop + ScrollStep
    ensures (pointerY as real) < containerTop + EdgeZone && (pointerY as real) > containerBottom - EdgeZone
      ==> r == (if scrollTop > ScrollStep then scrollTop - ScrollStep else 0) + ScrollStep
    ensures scrollTop >= 0 ==> r >= 0
  {
    var up := if (pointerY as real) < containerTop + EdgeZone then Max(scrollTop - ScrollStep, 0) else scrollTop;
    if (pointerY as real) > containerBottom - EdgeZone then up + ScrollStep else up
  }

  function Max(a: int, b: int): int { if a >= b then a else b }

  /**
   * In a container under 100px tall a pointer can sit in both zones; the
   * events then never move the list up.
   */
  lemma ShortContainerNeverScrollsUp(pointerY: int, containerTop: real, containerBottom: real, scrollTop: int)
    requires (pointerY as real) < containerTop + EdgeZone && (pointerY as real) > containerBottom - EdgeZone
    ensures containerBottom - containerTop < 2.0 * EdgeZone
    ensures AutoScroll(pointerY, containerTop, containerBottom, scrollTop) >= scrollTop
  {
  }

  // ---------------------------------------------------------------------
  // Drag start

  /** What `ondragstart` does: start dragging an id, or panic in an `unwrap`. */
  datatype DragStartOutcome = Started(id: int) | Panics

  /**
   * `ondragstart`: the dragged row's `data-id` parsed as i32. A missing or
   * malformed attribute makes an `unwrap` panic before the drag state is set.
   */
  function DragStart(dataId: Option<string>): (o: DragStartOutcome)
    ensures o.Panics? <==> dataId.None? || ParseI32(dataId.value).None?
    ensures o.Started? ==> ParseI32(dataId.value) == Some(o.id) && InI32(o.id)
  {
    match dataId
    case None => Panics
    case Some(s) =>
      match ParseI32(s)
      case None => Panics
      case Some(id) => Started(id)
  }

  /** The drag state after `ondragstart`: the started id, or the old state when the handler panicked. */
  function DraggingAfter(prev: Option<int>, o: DragStartOutcome): (dragging: Option<int>)
    ensures o.Started? ==> dragging == Some(o.id)
    ensures o.Panics? ==> dragging == prev
  {
    match o
    case Started(id) => Some(id)
    case Panics => prev
  }

  /** A row tagged with its own id, as the list item renders it, starts a drag of that id. */
  lemma DragStartOfRenderedRow(id: int)
    requires InI32(id)
    ensures DragStart(Some(IntToString(id))) == Started(id)
  {
    ParseOfIntToString(id);
  }

  // ---------------------------------------------------------------------
  // Drop target

  /** How many parents the drop handler climbs at most looking for a `data-id`. */
  const MaxClimb: nat := 10

  /**
   * The index of the first element of `chain` carrying a `data-id`, if any.
   * `chain[0]` is the drop target and `chain[k + 1]` the parent of `chain[k]`.
   */
  function FirstTagged(chain: seq<Option<string>>): (r: Option<nat>)
    ensures r.Some? ==> r.value < |chain| && chain[r.value].Some?
    ensures r.Some? ==> forall j :: 0 <= j < r.value ==> chain[j].None?
    ensures r.None? ==> forall j :: 0 <= j < |chain| ==> chain[j].None?
    decreases |chain|
  {
    if |chain| == 0 then None
    else if chain[0].Some? then Some(0)
    else match FirstTagged(chain[1..])
      case None => None
      case Some(i) => Some(i + 1)
  }

  /**
   * The element the drop handler settles on: it climbs while the element
   * has no `data-id`, has a parent, and fewer than ten steps were taken.
   */
  method ClimbToTagged(chain: seq<Option<string>>) returns (k: nat)
    requires |chain| > 0
    ensures k < |chain| && k <= MaxClimb
    ensures forall j :: 0 <= j < k ==> chain[j].None?
    ensures chain[k].Some? || k == |chain| - 1 || k == MaxClimb
    ensures match FirstTagged(chain)
      case Some(f) => k == if f < MaxClimb then f else MaxClimb
      case None => k == if |chain| - 1 < MaxClimb then |chain| - 1 else MaxClimb
  {
    k := 0;
    var attempts := 0;
    while chain[k].None? && k + 1 < |chain| && attempts < MaxClimb
      invariant k == attempts && k < |chain| && attempts <= MaxClimb
      invariant forall j :: 0 <= j < k ==> chain[j].None?
      decreases MaxClimb - attempts
    {
      k := k + 1;
      attempts := attempts + 1;
    }
    match FirstTagged(chain)
    case Some(f) => {
      if f < k {
        assert chain[f].None?;
      }
    }
    case None => {
    }
  }

  /** Where the pointer was, for the fallback that maps it to a row. */
  datatype DropGeometry = DropGeometry(
    clientY: int,
    containerTop: real,
    scrollTop: int,
    measuredCard: Option<real>,
    windowWidth: real
  )

  /** A measured card height, when there is one, is never negative. */
  predicate ValidGeometry(g: DropGeometry) {
    g.measuredCard.Some? ==> g.measuredCard.value >= 0.0
  }

  /**
   * The row under the pointer: `((clientY - top) + scrollTop) / item_height`
   * floored and saturated at 0, then clamped to the last index.
   */
  function VirtualDropIndex(g: DropGeometry, len: nat): (t: nat)
    requires ValidGeometry(g)
    ensures len > 0 ==> t < len
    ensures len == 0 ==> t == 0
    ensures var q := ((g.clientY as real - g.containerTop) + g.scrollTop as real)
        / MeasuredItemHeight(g.measuredCard, g.windowWidth);
      0.0 <= q < len as real ==> t == q.Floor
    ensures var q := ((g.clientY as real - g.containerTop) + g.scrollTop as real)
        / MeasuredItemHeight(g.measuredCard, g.windowWidth);
      len > 0 && q >= len as real ==> t == len - 1
  {
    var h := MeasuredItemHeight(g.measuredCard, g.windowWidth);
    var relative := (g.clientY as real - g.containerTop) + g.scrollTop as real;
    var vi := VirtualList.AsUsize((relative / h).Floor);
    var last := VirtualList.SaturatingSub(len, 1);
    if vi < last then vi else last
  }

  /** A pointer above the first row maps to the first row. */
  lemma PointerAboveListMapsToFirst(g: DropGeometry, len: nat)
    requires ValidGeometry(g)
    requires (g.clientY as real - g.containerTop) + g.scrollTop as real < 0.0
    ensures VirtualDropIndex(g, len) == 0
  {
    var h := MeasuredItemHeight(g.measuredCard, g.windowWidth);
    var relative := (g.clientY as real - g.containerTop) + g.scrollTop as real;
    assert relative / h < 0.0;
  }

  /**
   * The target index of a drop. A tagged element names the target by id,
   * and naming the dragged episode itself or an unknown id gives no target.
   * Without a tag the pointer position decides, when the container exists.
   */
  function ResolveTarget(dragged: int, eps: seq<Episode>, tag: Option<string>, geometry: Option<DropGeometry>): (t: Option<nat>)
    requires geometry.Some? ==> ValidGeometry(geometry.value)
    ensures tag.Some? && t.Some? ==>
      (t.value < |eps| && Some(eps[t.value].episodeId) == ParseI32(tag.value)
       && eps[t.value].episodeId != dragged)
    ensures tag.None? ==> (t.Some? <==> geometry.Some?)
    ensures t.Some? && |eps| > 0 ==> t.value < |eps|
  {
    match tag
    case Some(s) =>
      (match ParseI32(s)
       case None => None
       case Some(targetId) =>
         if targetId != dragged then IndexOf(Ids(eps), targetId) else None)
    case None =>
      (match geometry
       case None => None
       case Some(g) => Some(VirtualDropIndex(g, |eps|)))
  }

  // ---------------------------------------------------------------------
  // Reorder

  /**
   * `remove(dragged)` then `insert(min(target, len), item)`: the dragged
   * episode moves to the target index and nothing else changes order.
   */
  function Reorder<T>(s: seq<T>, dragged: nat, target: nat): (r: seq<T>)
    requires dragged < |s|
    ensures |r| == |s|
    ensures multiset(r) == multiset(s)
    ensures var at := if target < |s| - 1 then target else |s| - 1;
      r[at] == s[dragged] && RemoveAt(r, at) == RemoveAt(s, dragged)
  {
    var item := s[dragged];
    var rest := RemoveAt(s, dragged);
    var at := if target < |rest| then target else |rest|;
    var r := InsertAt(rest, at, item);
    RemoveInserted(rest, at, item);
    assert multiset(r) == multiset(rest) + multiset{item} == multiset(s);
    r
  }

  /** Moving an episode to where it already is leaves the list unchanged. */
  lemma ReorderInPlace<T>(s: seq<T>, i: nat)
    requires i < |s|
    ensures Reorder(s, i, i) == s
  {
    var r := Reorder(s, i, i);
    assert r[i] == s[i];
    forall j | 0 <= j < |s|
      ensures r[j] == s[j]
    {
      if j < i {
        assert RemoveAt(r, i)[j] == RemoveAt(s, i)[j];
      } else if j > i {
        assert RemoveAt(r, i)[j - 1] == RemoveAt(s, i)[j - 1];
      }
    }
  }

  lemma ReorderUnfold<T>(s: seq<T>, dragged: nat, target: nat)
    requires dragged < |s|
    ensures Reorder(s, dragged, target)
      == InsertAt(RemoveAt(s, dragged), if target < |s| - 1 then target else |s| - 1, s[dragged])
  {
  }

  lemma RemoveFirstOfFive()
    ensures RemoveAt([1, 2, 3, 4, 5], 0) == [2, 3, 4, 5]
  {
  }

  lemma InsertThirdOfFive()
    ensures InsertAt([2, 3, 4, 5], 2, 1) == [2, 3, 1, 4, 5]
  {
  }

  lemma RemoveLastOfFive()
    ensures RemoveAt([1, 2, 3, 4, 5], 4) == [1, 2, 3, 4]
  {
  }

  lemma InsertFirstOfFive()
    ensures InsertAt([1, 2, 3, 4], 0, 5) == [5, 1, 2, 3, 4]
  {
  }

  /** Moving the first of five queued episodes onto the third. */
  lemma ReorderDown()
    ensures Reorder([1, 2, 3, 4, 5], 0, 2) == [2, 3, 1, 4, 5]
  {
    ReorderUnfold([1, 2, 3, 4, 5], 0, 2);
    RemoveFirstOfFive();
    InsertThirdOfFive();
  }

  /** Moving the last of five queued episodes onto the first. */
  lemma ReorderUp()
    ensures Reorder([1, 2, 3, 4, 5], 4, 0) == [5, 1, 2, 3, 4]
  {
    ReorderUnfold([1, 2, 3, 4, 5], 4, 0);
    RemoveLastOfFive();
    InsertFirstOfFive();
  }

  // ---------------------------------------------------------------------
  // The whole drop

  /**
   * What a drop leaves behind: the queue as shown, the id order sent to
   * the server (if any), and the drag state.
   */
  datatype DropOutcome = DropOutcome(queue: seq<Episode>, persisted: Option<seq<int>>, dragging: Option<int>)

  /**
   * `ondrop`. `tag` is the `data-id` of the element the climb settled on.
   * The queue changes, and its new id order is persisted, only when a
   * target was found, the dragged episode is in the queue, and the two
   * indices differ. The drag state is cleared in every case.
   */
  function Drop(dragging: Option<int>, eps: seq<Episode>, tag: Option<string>, geometry: Option<DropGeometry>): (o: DropOutcome)
    requires geometry.Some? ==> ValidGeometry(geometry.value)
    ensures o.dragging.None?
    ensures multiset(o.queue) == multiset(eps)
    ensures o.persisted.Some? ==> o.persisted.value == Ids(o.queue)
    ensures o.persisted.None? ==> o.queue == eps
    ensures dragging.None? ==> o.persisted.None?
  {
    match dragging
    case None => DropOutcome(eps, None, None)
    case Some(draggedId) =>
      match ResolveTarget(draggedId, eps, tag, geometry)
      case None => DropOutcome(eps, None, None)
      case Some(target) =>
        match IndexOf(Ids(eps), draggedId)
        case None => DropOutcome(eps, None, None)
        case Some(d) =>
          if d == target then DropOutcome(eps, None, None)
          else
            var moved := Reorder(eps, d, target);
            DropOutcome(moved, Some(Ids(moved)), None)
  }

  /** In a list of distinct ids, the id at `i` is first found at `i`. */
  lemma IndexOfDistinct(eps: seq<Episode>, i: nat)
    requires DistinctIds(eps) && i < |eps|
    ensures IndexOf(Ids(eps), eps[i].episodeId) == Some(i)
  {
    var ids := Ids(eps);
    assert ids[i] == eps[i].episodeId;
    var r := IndexOf(ids, eps[i].episodeId);
    assert r.Some? && eps[r.value].episodeId == eps[i].episodeId;
  }

  /** A tag naming another queued episode resolves to that episode's index. */
  lemma TagResolvesToIndex(eps: seq<Episode>, d: nat, t: nat, geometry: Option<DropGeometry>)
    requires DistinctIds(eps) && d < |eps| && t < |eps| && d != t
    requires InI32(eps[t].episodeId)
    requires geometry.Some? ==> ValidGeometry(geometry.value)
    ensures ResolveTarget(eps[d].episodeId, eps, Some(IntToString(eps[t].episodeId)), geometry) == Some(t)
  {
    ParseOfIntToString(eps[t].episodeId);
    IndexOfDistinct(eps, t);
  }

  /**
   * Dropping an episode on another tagged row moves it to that row's index
   * and persists the new order.
   */
  lemma DropOnTaggedRow(eps: seq<Episode>, d: nat, t: nat)
    requires DistinctIds(eps) && d < |eps| && t < |eps| && d != t
    requires InI32(eps[t].episodeId)
    ensures var o := Drop(Some(eps[d].episodeId), eps, Some(IntToString(eps[t].episodeId)), None);
      o.queue == Reorder(eps, d, t) && o.queue[t] == eps[d]
      && o.persisted == Some(Ids(o.queue))
  {
    TagResolvesToIndex(eps, d, t, None);
    IndexOfDistinct(eps, d);
  }

  /**
   * Dropping with no tagged element under the pointer moves the dragged
   * episode to the row under the pointer and persists the new order.
   */
  lemma DropAtPointer(eps: seq<Episode>, d: nat, g: DropGeometry)
    requires DistinctIds(eps) && d < |eps| && ValidGeometry(g)
    requires d != VirtualDropIndex(g, |eps|)
    ensures var t := VirtualDropIndex(g, |eps|);
      var o := Drop(Some(eps[d].episodeId), eps, None, Some(g));
      o.queue == Reorder(eps, d, t) && o.queue[t] == eps[d]
      && o.persisted == Some(Ids(o.queue))
  {
    IndexOfDistinct(eps, d);
  }

  /**
   * Dropping below the list (or anywhere the pointer maps back to the
   * dragged row's own index) with no tagged element changes nothing and
   * sends nothing: the indices are equal, so the move is skipped.
   */
  lemma DropAtPointerOnSelf(eps: seq<Episode>, d: nat, g: DropGeometry)
    requires DistinctIds(eps) && d < |eps| && ValidGeometry(g)
    requires d == VirtualDropIndex(g, |eps|)
    ensures var o := Drop(Some(eps[d].episodeId), eps, None, Some(g));
      o.queue == eps && o.persisted.None?
  {
    IndexOfDistinct(eps, d);
  }

  /** Dragging an id the queue does not hold changes nothing and sends nothing. */
  lemma DropNotQueuedIsNoOp(id: int, eps: seq<Episode>, tag: Option<string>, geometry: Option<DropGeometry>)
    requires geometry.Some? ==> ValidGeometry(geometry.value)
    requires IndexOf(Ids(eps), id).None?
    ensures Drop(Some(id), eps, tag, geometry) == DropOutcome(eps, None, None)
  {
  }

  /** A drop onto the dragged row itself changes nothing. */
  lemma DropOnSelfIsNoOp(eps: seq<Episode>, d: nat, geometry: Option<DropGeometry>)
    requires d < |eps| && InI32(eps[d].episodeId)
    requires geometry.Some? ==> ValidGeometry(geometry.value)
    ensures var o := Drop(Some(eps[d].episodeId), eps, Some(IntToString(eps[d].episodeId)), geometry);
      o.queue == eps && o.persisted.None?
  {
    ParseOfIntToString(eps[d].episodeId);
  }
}

=== FILE: saved_page.dfy ===
/**
 * The saved-episodes page: loads the saved list, derives the completed ids
 * and shows the shared filter-and-sort pipeline over it.
 */
module SavedPage {
  import opened Wrappers
  import opened Seqs
  import opened Episodes
  import opened EpisodeFilter

  /** The part of the global state the page's fetch writes. */
  datatype SavedState = SavedState(savedEpisodes: seq<Episode>, completedEpisodes: Option<seq<int>>)

  /** The fetch's success step: the list replaces the saved episodes and its completed ids are published. */
  function OnFetched(s: SavedState, fetched: seq<Episode>): (r: SavedState)
    ensures r.savedEpisodes == fetched
    ensures r.completedEpisodes.Some?
    ensures forall id :: (id in r.completedEpisodes.value
      <==> exists i :: 0 <= i < |fetched| && fetched[i].completed && fetched[i].episodeId == id)
  {
    forall id ensures (id in IdsWhere(fetched, IsCompleted)
      <==> exists i :: 0 <= i < |fetched| && IsCompleted(fetched[i]) && fetched[i].episodeId == id) {
      IdsWhereMembership(fetched, IsCompleted, id);
    }
    SavedState(fetched, Some(IdsWhere(fetched, IsCompleted)))
  }

  /** The list the page shows. */
  function FilteredEpisodes(saved: seq<Episode>, f: Filters, dir: Option<SortDirection>, lower: string -> string): (r: seq<Episode>)
    ensures saved == [] ==> r == []
    ensures forall e :: e in r <==> e in saved && Keep(f, lower)(e)
    ensures multiset(r) == multiset(Filter(saved, Keep(f, lower)))
  {
    Pipeline(saved, f, dir, lower)
  }

  datatype View = EmptyMessage | EpisodeList(episodes: seq<Episode>)

  /** Nothing saved, or nothing passing the filters, shows the empty message. */
  function Render(saved: seq<Episode>, filtered: seq<Episode>): (v: View)
    ensures v.EpisodeList? <==> |saved| > 0 && |filtered| > 0
    ensures v.EpisodeList? ==> v.episodes == filtered
  {
    if |saved| > 0 && |filtered| > 0 then EpisodeList(filtered) else EmptyMessage
  }

  /** A page with saved episodes and no filters always lists them. */
  lemma UnfilteredPageLists(saved: seq<Episode>, lower: string -> string)
    requires |saved| > 0
    ensures Render(saved, FilteredEpisodes(saved, NoFilters, InitialSort(None), lower)).EpisodeList?
  {
    var f := FilteredEpisodes(saved, NoFilters, InitialSort(None), lower);
    FilterAll(saved, Keep(NoFilters, lower));
    assert |f| == |saved| by {
      assert multiset(f) == multiset(saved);
    }
  }
}

=== FILE: seqs.dfy ===
/**
 * The `Vec` operations the components use — `retain`/`filter`, `position`,
 * `remove`, `insert`, `take` — over Dafny sequences.
 */
module Seqs {
  import opened Wrappers

  /** `s.iter().filter(p).collect()`, equivalently `s.retain(p)`. */
  function Filter<T>(s: seq<T>, p: T -> bool): (r: seq<T>)
    ensures |r| <= |s|
    ensures forall i :: 0 <= i < |r| ==> p(r[i])
    ensures forall x :: x in r ==> x in s
    ensures multiset(r) <= multiset(s)
    decreases |s|
  {
    if |s| == 0 then []
    else
      assert s == [s[0]] + s[1..];
      if p(s[0]) then [s[0]] + Filter(s[1..], p)
      else Filter(s[1..], p)
  }

  lemma {:induction false} FilterAppend<T>(a: seq<T>, b: seq<T>, p: T -> bool)
    ensures Filter(a + b, p) == Filter(a, p) + Filter(b, p)
    decreases |a|
  {
    if |a| > 0 {
      assert (a + b)[1..] == a[1..] + b;
      FilterAppend(a[1..], b, p);
    } else {
      assert a + b == b;
    }
  }

  /** An element satisfying the predicate survives the filter. */
  lemma {:induction false} FilterKeeps<T>(s: seq<T>, p: T -> bool, x: T)
    requires x in s && p(x)
    ensures x in Filter(s, p)
    decreases |s|
  {
    if s[0] != x {
      FilterKeeps(s[1..], p, x);
    }
  }

  /** Filtering with a predicate every element meets is the identity. */
  lemma {:induction false} FilterAll<T>(s: seq<T>, p: T -> bool)
    requires forall i :: 0 <= i < |s| ==> p(s[i])
    ensures Filter(s, p) == s
    decreases |s|
  {
    if |s| > 0 {
      FilterAll(s[1..], p);
    }
  }

  /** Filtering with a predicate no element meets leaves nothing. */
  lemma {:induction false} FilterNone<T>(s: seq<T>, p: T -> bool)
    requires forall i :: 0 <= i < |s| ==> !p(s[i])
    ensures Filter(s, p) == []
    decreases |s|
  {
    if |s| > 0 {
      FilterNone(s[1..], p);
    }
  }

  /** Two predicates that agree on the elements filter alike. */
  lemma {:induction false} FilterExt<T>(s: seq<T>, p: T -> bool, q: T -> bool)
    requires forall i :: 0 <= i < |s| ==> p(s[i]) == q(s[i])
    ensures Filter(s, p) == Filter(s, q)
    decreases |s|
  {
    if |s| > 0 {
      FilterExt(s[1..], p, q);
    }
  }

  /** Filtering twice with `p` then `q` filters once with both. */
  lemma {:induction false} FilterFilter<T>(s: seq<T>, p: T -> bool, q: T -> bool)
    ensures Filter(Filter(s, p), q) == Filter(s, x => p(x) && q(x))
    decreases |s|
  {
    if |s| > 0 {
      FilterFilter(s[1..], p, q);
    }
  }

  /** Filtering by a weaker predicate first changes nothing. */
  lemma {:induction false} FilterWeakerFirst<T>(s: seq<T>, p: T -> bool, q: T -> bool)
    requires forall i :: 0 <= i < |s| ==> q(s[i]) ==> p(s[i])
    ensures Filter(Filter(s, p), q) == Filter(s, q)
    decreases |s|
  {
    if |s| > 0 {
      FilterWeakerFirst(s[1..], p, q);
    }
  }

  /** The multiset of a filter is the multiset of the matching elements. */
  lemma {:induction false} FilterCount<T>(s: seq<T>, p: T -> bool, x: T)
    ensures multiset(Filter(s, p))[x] == if p(x) then multiset(s)[x] else 0
    decreases |s|
  {
    if |s| > 0 {
      var rest := Filter(s[1..], p);
      FilterCount(s[1..], p, x);
      assert s == [s[0]] + s[1..];
      assert multiset(s) == multiset{s[0]} + multiset(s[1..]);
      if p(s[0]) {
        assert multiset(Filter(s, p)) == multiset{s[0]} + multiset(rest);
      } else {
        assert Filter(s, p) == rest;
      }
    }
  }

  /** An element is in a filter's result exactly when it is in the input and passes. */
  lemma FilterMember<T>(s: seq<T>, p: T -> bool, x: T)
    ensures x in Filter(s, p) <==> x in s && p(x)
  {
    if x in s && p(x) {
      FilterKeeps(s, p, x);
    }
  }

  /** The elements that pass and the elements that fail add up to the input. */
  lemma {:induction false} FilterPartition<T>(s: seq<T>, p: T -> bool, q: T -> bool)
    requires forall i :: 0 <= i < |s| ==> q(s[i]) == !p(s[i])
    ensures |Filter(s, p)| + |Filter(s, q)| == |s|
    decreases |s|
  {
    if |s| > 0 {
      FilterPartition(s[1..], p, q);
    }
  }

  /** The elements that pass and the elements that fail make up the input, counted with multiplicity. */
  lemma FilterPartitionMultiset<T>(s: seq<T>, p: T -> bool, q: T -> bool)
    requires forall x :: q(x) == !p(x)
    ensures multiset(Filter(s, p)) + multiset(Filter(s, q)) == multiset(s)
  {
    forall x
      ensures (multiset(Filter(s, p)) + multiset(Filter(s, q)))[x] == multiset(s)[x]
    {
      FilterCount(s, p, x);
      FilterCount(s, q, x);
    }
  }

  /** When only `s[i]` passes, the filter yields exactly that element. */
  lemma {:induction false} FilterSingle<T>(s: seq<T>, p: T -> bool, i: nat)
    requires i < |s| && p(s[i])
    requires forall j :: 0 <= j < |s| && j != i ==> !p(s[j])
    ensures Filter(s, p) == [s[i]]
    decreases |s|
  {
    if i == 0 {
      FilterNone(s[1..], p);
    } else {
      FilterSingle(s[1..], p, i - 1);
    }
  }

  /** Filtering preserves the multiset-equality of its inputs. */
  lemma FilterMultiset<T>(a: seq<T>, b: seq<T>, p: T -> bool)
    requires multiset(a) == multiset(b)
    ensures multiset(Filter(a, p)) == multiset(Filter(b, p))
  {
    forall x
      ensures multiset(Filter(a, p))[x] == multiset(Filter(b, p))[x]
    {
      FilterCount(a, p, x);
      FilterCount(b, p, x);
    }
  }

  /** `s.iter().position(|y| *y == x)`: the first index holding `x`. */
  function IndexOf<T(==)>(s: seq<T>, x: T): (r: Option<nat>)
    ensures r.Some? ==> r.value < |s| && s[r.value] == x
    ensures r.Some? ==> forall j :: 0 <= j < r.value ==> s[j] != x
    ensures r.None? <==> x !in s
    decreases |s|
  {
    if |s| == 0 then None
    else if s[0] == x then Some(0)
    else match IndexOf(s[1..], x)
      case None => None
      case Some(i) => Some(i + 1)
  }

  /** `s.remove(i)`: the element at `i` taken out, the rest in order. */
  function RemoveAt<T>(s: seq<T>, i: nat): (r: seq<T>)
    requires i < |s|
    ensures |r| == |s| - 1
    ensures forall j :: 0 <= j < i ==> r[j] == s[j]
    ensures forall j :: i <= j < |r| ==> r[j] == s[j + 1]
    ensures multiset(r) + multiset{s[i]} == multiset(s)
  {
    assert s == s[..i] + [s[i]] + s[i + 1..];
    s[..i] + s[i + 1..]
  }

  /** `s.insert(i, x)`: `x` placed at `i`, later elements shifted right. */
  function InsertAt<T>(s: seq<T>, i: nat, x: T): (r: seq<T>)
    requires i <= |s|
    ensures |r| == |s| + 1 && r[i] == x
    ensures forall j :: 0 <= j < i ==> r[j] == s[j]
    ensures forall j :: i < j < |r| ==> r[j] == s[j - 1]
    ensures multiset(r) == multiset(s) + multiset{x}
  {
    assert s == s[..i] + s[i..];
    s[..i] + [x] + s[i..]
  }

  /** `s.iter().take(n)`: the first `n` elements, or all of them. */
  function Take<T>(s: seq<T>, n: nat): (r: seq<T>)
    ensures |r| == if n < |s| then n else |s|
    ensures r <= s
  {
    if n < |s| then s[..n] else s
  }

  /** `a` is `b` with some elements left out, the rest in the same order. */
  predicate Subseq<T(==)>(a: seq<T>, b: seq<T>)
    decreases |b|
  {
    |a| == 0 || (|b| > 0 && ((a[0] == b[0] && Subseq(a[1..], b[1..])) || Subseq(a, b[1..])))
  }

  /** Removing what was just inserted gives back the sequence. */
  lemma RemoveInserted<T>(s: seq<T>, i: nat, x: T)
    requires i <= |s|
    ensures RemoveAt(InsertAt(s, i, x), i) == s
  {
    var r := InsertAt(s, i, x);
    assert forall j :: 0 <= j < |s| ==> RemoveAt(r, i)[j] == s[j];
  }

  /** `retain` keeps order: the filtered sequence is a subsequence of the input. */
  lemma {:induction false} FilterSubseq<T>(s: seq<T>, p: T -> bool)
    ensures Subseq(Filter(s, p), s)
    decreases |s|
  {
    if |s| > 0 {
      FilterSubseq(s[1..], p);
      if p(s[0]) {
        assert Filter(s, p) == [s[0]] + Filter(s[1..], p);
        assert Filter(s, p)[1..] == Filter(s[1..], p);
      } else {
        assert Filter(s, p) == Filter(s[1..], p);
      }
    }
  }

  /** The elements of `s` last to first. */
  function Reverse<T>(s: seq<T>): (r: seq<T>)
    ensures |r| == |s|
    ensures forall i :: 0 <= i < |s| ==> r[i] == s[|s| - 1 - i]
  {
    if |s| == 0 then [] else [s[|s| - 1]] + Reverse(s[..|s| - 1])
  }
}

=== FILE: sorting.dfy ===
/**
 * `Vec::sort_by` with a comparator that is a total preorder: a stable
 * sort. The result of a stable sort is determined by the comparator alone,
 * so it is defined here as insertion sort, which is stable.
 */
module Sorting {
  import opened Seqs

  /** `leq(a, b)`: `a` may come before `b`. Total and transitive. */
  ghost predicate TotalPreorder<T(!new)>(leq: (T, T) -> bool) {
    (forall a, b :: leq(a, b) || leq(b, a))
    && (forall a, b, c :: leq(a, b) && leq(b, c) ==> leq(a, c))
  }

  predicate Sorted<T>(s: seq<T>, leq: (T, T) -> bool) {
    forall i, j :: 0 <= i < j < |s| ==> leq(s[i], s[j])
  }

  /** The elements the comparator cannot tell apart from `x`. */
  function Peers<T>(leq: (T, T) -> bool, x: T): T -> bool {
    y => leq(x, y) && leq(y, x)
  }

  /** Inserts `x` after every element that may precede it. */
  function Insert<T>(s: seq<T>, x: T, leq: (T, T) -> bool): (r: seq<T>)
    ensures |r| == |s| + 1
    ensures multiset(r) == multiset(s) + multiset{x}
    decreases |s|
  {
    if |s| == 0 then [x]
    else if leq(s[0], x) then
      assert s == [s[0]] + s[1..];
      [s[0]] + Insert(s[1..], x, leq)
    else [x] + s
  }

  /** The stable sort. */
  function SortBy<T>(s: seq<T>, leq: (T, T) -> bool): (r: seq<T>)
    ensures multiset(r) == multiset(s)
    ensures |r| == |s|
    decreases |s|
  {
    if |s| == 0 then []
    else
      assert s == s[..|s| - 1] + [s[|s| - 1]];
      Insert(SortBy(s[..|s| - 1], leq), s[|s| - 1], leq)
  }

  lemma {:induction false} InsertSorted<T(!new)>(s: seq<T>, x: T, leq: (T, T) -> bool)
    requires TotalPreorder(leq) && Sorted(s, leq)
    ensures Sorted(Insert(s, x, leq), leq)
    decreases |s|
  {
    if |s| > 0 && leq(s[0], x) {
      var rest := s[1..];
      InsertSorted(rest, x, leq);
      var ins := Insert(rest, x, leq);
      forall y | y in ins ensures leq(s[0], y) {
        assert y in multiset(ins);
        if y != x {
          assert y in multiset(rest);
          assert y in rest;
        }
      }
      var r := [s[0]] + ins;
      forall i, j | 0 <= i < j < |r| ensures leq(r[i], r[j]) {
        if i == 0 {
          assert r[j] == ins[j - 1] && ins[j - 1] in ins;
        } else {
          assert r[i] == ins[i - 1] && r[j] == ins[j - 1];
        }
      }
    } else if |s| > 0 {
      var r := [x] + s;
      forall i, j | 0 <= i < j < |r| ensures leq(r[i], r[j]) {
        if i == 0 {
          assert r[j] == s[j - 1];
          assert leq(x, s[0]);
          if j > 1 {
            assert leq(s[0], s[j - 1]);
          }
        } else {
          assert r[i] == s[i - 1] && r[j] == s[j - 1];
        }
      }
    }
  }

  /** The output is ordered by the comparator. */
  lemma {:induction false} SortBySorted<T(!new)>(s: seq<T>, leq: (T, T) -> bool)
    requires TotalPreorder(leq)
    ensures Sorted(SortBy(s, leq), leq)
    decreases |s|
  {
    if |s| > 0 {
      SortBySorted(s[..|s| - 1], leq);
      InsertSorted(SortBy(s[..|s| - 1], leq), s[|s| - 1], leq);
    }
  }

  lemma {:induction false} InsertPeers<T(!new)>(s: seq<T>, e: T, leq: (T, T) -> bool, x: T)
    requires TotalPreorder(leq) && Sorted(s, leq)
    ensures Filter(Insert(s, e, leq), Peers(leq, x))
         == Filter(s, Peers(leq, x)) + (if Peers(leq, x)(e) then [e] else [])
    decreases |s|
  {
    if |s| > 0 && leq(s[0], e) {
      var p := Peers(leq, x);
      var h := if p(s[0]) then [s[0]] else [];
      var t := if p(e) then [e] else [];
      InsertPeers(s[1..], e, leq, x);
      FilterCons(s, Insert(s[1..], e, leq), p);
      assert Filter(Insert(s, e, leq), p) == h + (Filter(s[1..], p) + t);
      AppendAssoc(h, Filter(s[1..], p), t);
    } else if |s| > 0 {
      PeersBefore(s, e, leq, x);
    }
  }

  lemma AppendAssoc<T>(a: seq<T>, b: seq<T>, c: seq<T>)
    ensures a + (b + c) == (a + b) + c
  {
  }

  /** Filtering `[s[0]] + t` filters the head, then `t`. */
  lemma FilterCons<T>(s: seq<T>, t: seq<T>, p: T -> bool)
    requires |s| > 0
    ensures Filter([s[0]] + t, p) == (if p(s[0]) then [s[0]] else []) + Filter(t, p)
    ensures Filter(s, p) == (if p(s[0]) then [s[0]] else []) + Filter(s[1..], p)
  {
    assert ([s[0]] + t)[1..] == t;
  }

  /** Inserting in front of a sorted run that starts above `e`. */
  lemma PeersBefore<T(!new)>(s: seq<T>, e: T, leq: (T, T) -> bool, x: T)
    requires TotalPreorder(leq) && Sorted(s, leq)
    requires |s| > 0 && !leq(s[0], e)
    ensures Filter([e] + s, Peers(leq, x)) == Filter(s, Peers(leq, x)) + (if Peers(leq, x)(e) then [e] else [])
  {
    var p := Peers(leq, x);
    FilterCons([e] + s, s, p);
    assert ([e] + s)[1..] == s;
    if p(e) {
      forall i | 0 <= i < |s| ensures !p(s[i]) {
        assert leq(s[0], s[i]);
      }
      FilterNone(s, p);
    }
  }

  /** Stability: elements the comparator ties keep their input order. */
  lemma {:induction false} SortByStable<T(!new)>(s: seq<T>, leq: (T, T) -> bool, x: T)
    requires TotalPreorder(leq)
    ensures Filter(SortBy(s, leq), Peers(leq, x)) == Filter(s, Peers(leq, x))
    decreases |s|
  {
    if |s| > 0 {
      var init := s[..|s| - 1];
      var last := s[|s| - 1];
      assert s == init + [last];
      FilterAppend(init, [last], Peers(leq, x));
      SortByStable(init, leq, x);
      SortBySorted(init, leq);
      InsertPeers(SortBy(init, leq), last, leq, x);
    }
  }

  /** A sequence already in order is left as it is. */
  lemma {:induction false} SortBySortedInput<T(!new)>(s: seq<T>, leq: (T, T) -> bool)
    requires TotalPreorder(leq) && Sorted(s, leq)
    ensures SortBy(s, leq) == s
    decreases |s|
  {
    if |s| > 0 {
      var init := s[..|s| - 1];
      var last := s[|s| - 1];
      assert Sorted(init, leq);
      SortBySortedInput(init, leq);
      InsertAtEnd(init, last, leq);
      assert s == init + [last];
    }
  }

  lemma {:induction false} InsertAtEnd<T>(s: seq<T>, x: T, leq: (T, T) -> bool)
    requires forall i :: 0 <= i < |s| ==> leq(s[i], x)
    ensures Insert(s, x, leq) == s + [x]
    decreases |s|
  {
    if |s| > 0 {
      InsertAtEnd(s[1..], x, leq);
      assert s == [s[0]] + s[1..];
    }
  }
}

=== FILE: strings.dfy ===
/**
 * The string primitives the client and the server lean on, with the
 * semantics of Rust's `str`: `starts_with`, `ends_with`, `contains`,
 * `trim`, `trim_start_matches`, `len` (UTF-8 bytes), `i32::from_str` and
 * the decimal `Display` of integers.
 */
module Strings {
  import opened Wrappers

  const I32Min: int := -0x8000_0000
  const I32Max: int := 0x7fff_ffff

  predicate InI32(n: int) { I32Min <= n <= I32Max }

  const I32Modulus: int := 0x1_0000_0000

  /** Two's-complement wrap-around of an `i32` result, as in a release build. */
  function WrapI32(x: int): (r: int)
    ensures InI32(r)
    ensures InI32(x) ==> r == x
    ensures (x - r) % I32Modulus == 0
  {
    var k := x - I32Min;
    assert k == I32Modulus * (k / I32Modulus) + k % I32Modulus;
    k % I32Modulus + I32Min
  }

  function Abs(x: int): nat { if x < 0 then -x else x }

  /** Rust's integer `/`: the quotient rounded toward zero. */
  function TruncDiv(a: int, b: int): (q: int)
    requires b != 0
    ensures Abs(a - q * b) < Abs(b)
    ensures a >= 0 ==> a - q * b >= 0
    ensures a <= 0 ==> a - q * b <= 0
    ensures a >= 0 && b > 0 ==> q == a / b
  {
    var n := Abs(a) / Abs(b);
    var q := if (a < 0) == (b < 0) then n else -n;
    TruncDivRemainder(a, b, n, q);
    q
  }

  lemma TruncDivRemainder(a: int, b: int, n: int, q: int)
    requires b != 0 && n == Abs(a) / Abs(b)
    requires q == if (a < 0) == (b < 0) then n else -n
    ensures Abs(a - q * b) < Abs(b)
    ensures a >= 0 ==> a - q * b >= 0
    ensures a <= 0 ==> a - q * b <= 0
  {
    var x, y := Abs(a), Abs(b);
    var p := n * y;
    var m := x % y;
    assert x == p + m && 0 <= m < y;
    if b < 0 {
      assert y == -b;
      assert n * b == -p;
      assert (-n) * b == p;
    } else {
      assert y == b;
      assert (-n) * b == -p;
    }
    assert a - q * b == if a < 0 then -m else m;
  }

  /** `s.starts_with(p)` */
  predicate StartsWith(s: string, p: string) { p <= s }

  /** `s.ends_with(p)` */
  predicate EndsWith(s: string, p: string) {
    |p| <= |s| && s[|s| - |p|..] == p
  }

  /** `hay.contains(needle)`: some position of `hay` starts with `needle`. */
  predicate Contains(hay: string, needle: string)
    decreases |hay|
  {
    needle <= hay || (|hay| > 0 && Contains(hay[1..], needle))
  }

  lemma {:induction false} ContainsInfix(a: string, needle: string, b: string)
    ensures Contains(a + needle + b, needle)
    decreases |a|
  {
    if |a| == 0 {
      assert a + needle + b == needle + b;
      assert needle <= needle + b;
    } else {
      assert (a + needle + b)[1..] == a[1..] + needle + b;
      ContainsInfix(a[1..], needle, b);
    }
  }

  lemma {:induction false} ContainsOfShorter(hay: string, needle: string)
    requires |hay| < |needle|
    ensures !Contains(hay, needle)
    decreases |hay|
  {
    if |hay| > 0 {
      ContainsOfShorter(hay[1..], needle);
    }
  }

  /** `s.trim_start_matches(p)`: strips every leading repetition of `p`. */
  function TrimStartMatches(s: string, p: string): (r: string)
    ensures |p| > 0 ==> !StartsWith(r, p)
    ensures |r| <= |s| && r == s[|s| - |r|..]
    decreases |s|
  {
    if |p| == 0 || !(p <= s) then s
    else
      var rest := s[|p|..];
      var r := TrimStartMatches(rest, p);
      assert rest[|rest| - |r|..] == s[|s| - |r|..];
      r
  }

  /** The Unicode `White_Space` property, which `char::is_whitespace` tests. */
  predicate IsWhitespace(c: char) {
    var u := c as int;
    (0x09 <= u <= 0x0D) || u == 0x20 || u == 0x85 || u == 0xA0 || u == 0x1680
    || (0x2000 <= u <= 0x200A) || u == 0x2028 || u == 0x2029 || u == 0x202F
    || u == 0x205F || u == 0x3000
  }

  function TrimStart(s: string): (r: string)
    ensures |r| <= |s| && r == s[|s| - |r|..]
    ensures |r| == 0 || !IsWhitespace(r[0])
    ensures forall i :: 0 <= i < |s| - |r| ==> IsWhitespace(s[i])
    decreases |s|
  {
    if |s| > 0 && IsWhitespace(s[0]) then TrimStart(s[1..]) else s
  }

  function TrimEnd(s: string): (r: string)
    ensures |r| <= |s| && r == s[..|r|]
    ensures |r| == 0 || !IsWhitespace(r[|r| - 1])
    ensures forall i :: |r| <= i < |s| ==> IsWhitespace(s[i])
    decreases |s|
  {
    if |s| > 0 && IsWhitespace(s[|s| - 1]) then TrimEnd(s[..|s| - 1]) else s
  }

  /** `s.trim()`: leading and trailing white space removed. */
  function Trim(s: string): (r: string)
    ensures |r| == 0 || (!IsWhitespace(r[0]) && !IsWhitespace(r[|r| - 1]))
    ensures |r| <= |s|
  {
    TrimEnd(TrimStart(s))
  }

  /** A string trims to nothing exactly when every character is white space. */
  lemma TrimEmptyIffBlank(s: string)
    ensures Trim(s) == [] <==> forall i :: 0 <= i < |s| ==> IsWhitespace(s[i])
  {
    var t := TrimStart(s);
    if Trim(s) == [] {
      assert |t| == 0;
    } else {
      var r := Trim(s);
      assert r[0] == t[0] == s[|s| - |t|];
    }
  }

  /** Trimming an already trimmed string changes nothing. */
  lemma TrimIdempotent(s: string)
    ensures Trim(Trim(s)) == Trim(s)
  {
    var r := Trim(s);
    assert TrimStart(r) == r;
    if |r| > 0 {
      assert TrimEnd(r) == r;
    }
  }

  // ---------------------------------------------------------------------
  // Decimal digits

  predicate IsDigit(c: char) { '0' <= c <= '9' }

  predicate AllDigits(s: string) {
    forall i :: 0 <= i < |s| ==> IsDigit(s[i])
  }

  function DigitChar(d: nat): char
    requires d < 10
  {
    "0123456789"[d]
  }

  function DigitValue(c: char): nat
    requires IsDigit(c)
  {
    (c as int) - ('0' as int)
  }

  /** The number a run of ASCII digits denotes, most significant first. */
  function DigitsValue(s: string): nat
    requires AllDigits(s)
    decreases |s|
  {
    if |s| == 0 then 0
    else DigitsValue(s[..|s| - 1]) * 10 + DigitValue(s[|s| - 1])
  }

  /** The decimal digits of `n`, without leading zeros. */
  function NatToDigits(n: nat): (r: string)
    ensures AllDigits(r) && |r| > 0
    ensures r[0] != '0' || n == 0
    decreases n
  {
    if n < 10 then [DigitChar(n)]
    else NatToDigits(n / 10) + [DigitChar(n % 10)]
  }

  lemma {:induction false} DigitsValueOfNatToDigits(n: nat)
    ensures DigitsValue(NatToDigits(n)) == n
    decreases n
  {
    var s := NatToDigits(n);
    if n < 10 {
      assert s[..|s| - 1] == [];
    } else {
      DigitsValueOfNatToDigits(n / 10);
      assert s[..|s| - 1] == NatToDigits(n / 10);
    }
  }

  /** `format!("{}", n)` for an integer. */
  function IntToString(n: int): (r: string)
    ensures |r| > 0
    ensures (n < 0) == (r[0] == '-')
  {
    if n < 0 then "-" + NatToDigits(-n) else NatToDigits(n)
  }

  /**
   * `s.parse::<i32>()`: an optional `+` or `-`, then at least one ASCII
   * digit and nothing else, denoting a value inside the i32 range.
   */
  function ParseI32(s: string): (r: Option<int>)
    ensures r.Some? ==> InI32(r.value)
    ensures r.Some? ==> |s| > 0
  {
    if |s| == 0 then None
    else if (s[0] == '+' || s[0] == '-') && |s| == 1 then None
    else
      var negative := s[0] == '-';
      var digits := if s[0] == '+' || s[0] == '-' then s[1..] else s;
      if !AllDigits(digits) then None
      else
        var v := if negative then 0 - DigitsValue(digits) as int else DigitsValue(digits) as int;
        if InI32(v) then Some(v) else None
  }

  /** Rendering an i32 and parsing it back gives the same number. */
  lemma ParseOfIntToString(n: int)
    requires InI32(n)
    ensures ParseI32(IntToString(n)) == Some(n)
  {
    if n < 0 {
      ParseOfNegative(n);
    } else {
      ParseOfNonNegative(n);
    }
  }

  lemma ParseOfNegative(n: int)
    requires InI32(n) && n < 0
    ensures ParseI32(IntToString(n)) == Some(n)
  {
    var m: nat := -n;
    var d := NatToDigits(m);
    assert IntToString(n) == "-" + d;
    DigitsValueOfNatToDigits(m);
    ParseOfMinusDigits(d, m);
  }

  lemma ParseOfMinusDigits(d: string, m: nat)
    requires AllDigits(d) && |d| > 0 && DigitsValue(d) == m
    ensures InI32(0 - m) ==> ParseI32("-" + d) == Some(0 - m)
  {
    var s := "-" + d;
    assert s[0] == '-' && s[1..] == d;
  }

  lemma ParseOfNonNegative(n: int)
    requires InI32(n) && n >= 0
    ensures ParseI32(IntToString(n)) == Some(n)
  {
    var s := IntToString(n);
    DigitsValueOfNatToDigits(n);
    assert s == NatToDigits(n);
    assert IsDigit(s[0]);
    assert s[0] != '+' && s[0] != '-';
  }

  /** Distinct i32 values render differently. */
  lemma IntToStringInjective(a: int, b: int)
    requires InI32(a) && InI32(b)
    ensures IntToString(a) == IntToString(b) <==> a == b
  {
    if IntToString(a) == IntToString(b) {
      ParseOfIntToString(a);
      ParseOfIntToString(b);
    }
  }

  /** A string that parses has no surrounding white space. */
  lemma ParsedHasNoWhitespace(s: string)
    requires ParseI32(s).Some?
    ensures !IsWhitespace(s[0]) && !IsWhitespace(s[|s| - 1])
  {
    var digits := if s[0] == '+' || s[0] == '-' then s[1..] else s;
    assert s[|s| - 1] == digits[|digits| - 1];
  }

  /** Trimming a string that parses leaves it as it is. */
  lemma ParsedTrimsToItself(s: string)
    requires ParseI32(s).Some?
    ensures Trim(s) == s
  {
    ParsedHasNoWhitespace(s);
    assert TrimStart(s) == s;
    assert TrimEnd(s) == s;
  }

  /** A string that does not parse is no rendered `i32`. */
  lemma UnparsedIsNoNumber(s: string)
    requires ParseI32(s).None?
    ensures forall n :: InI32(n) ==> s != IntToString(n)
  {
    forall n | InI32(n) ensures s != IntToString(n) {
      ParseOfIntToString(n);
    }
  }

  // ---------------------------------------------------------------------
  // Byte length

  /** Bytes UTF-8 needs for one Unicode scalar value. */
  function Utf8Width(c: char): nat {
    if (c as int) < 0x80 then 1
    else if (c as int) < 0x800 then 2
    else if (c as int) < 0x1_0000 then 3
    else 4
  }

  /** `s.len()`: the UTF-8 byte length, which is not the character count. */
  function Utf8Len(s: string): (r: nat)
    ensures |s| <= r <= 4 * |s|
    decreases |s|
  {
    if |s| == 0 then 0 else Utf8Width(s[0]) + Utf8Len(s[1..])
  }

  // ---------------------------------------------------------------------
  // Lexicographic order (Rust `Ord` for `String`)

  /** `a <= b` in Rust's lexicographic order on strings. */
  predicate StrLe(a: string, b: string)
    decreases |a|
  {
    if |a| == 0 then true
    else if |b| == 0 then false
    else if a[0] != b[0] then a[0] < b[0]
    else StrLe(a[1..], b[1..])
  }

  lemma {:induction false} StrLeTotal(a: string, b: string)
    ensures StrLe(a, b) || StrLe(b, a)
    decreases |a|
  {
    if |a| > 0 && |b| > 0 && a[0] == b[0] {
      StrLeTotal(a[1..], b[1..]);
    }
  }

  lemma {:induction false} StrLeTrans(a: string, b: string, c: string)
    requires StrLe(a, b) && StrLe(b, c)
    ensures StrLe(a, c)
    decreases |a|
  {
    if |a| > 0 && |b| > 0 && |c| > 0 && a[0] == b[0] && b[0] == c[0] {
      StrLeTrans(a[1..], b[1..], c[1..]);
    }
  }

  lemma {:induction false} StrLeAntisym(a: string, b: string)
    requires StrLe(a, b) && StrLe(b, a)
    ensures a == b
    decreases |a|
  {
    if |a| > 0 && |b| > 0 {
      StrLeAntisym(a[1..], b[1..]);
      assert a == [a[0]] + a[1..] && b == [b[0]] + b[1..];
    }
  }

  /** `bool`'s `Display`. */
  function BoolText(b: bool): (t: string)
    ensures t == "true" <==> b
    ensures t == "false" <==> !b
  {
    if b then "true" else "false"
  }
}

=== FILE: virtual_list.dfy ===
/**
 * The windowed episode list. Only rows near the scroll offset are rendered,
 * two spacers stand in for everything else, a resize listener keeps the row
 * height and viewport height current, and a scroll listener publishes the
 * scroll offset at most once per animation frame.
 */
module VirtualList {
  import opened Wrappers
  import opened Strings
  import opened Episodes
  import opened ItemGeometry

  /**
   * Which drag callbacks a list was given (presence only). Rows are
   * draggable when any of them is present.
   */
  datatype DragCallbacks = DragCallbacks(onDragStart: bool, onDragEnter: bool, onDragOver: bool, onDrop: bool)
  {
    predicate Draggable() { onDragStart || onDragEnter || onDragOver || onDrop }
  }

  /** The default props: no callbacks, so rows cannot be dragged. */
  const NoDragCallbacks := DragCallbacks(false, false, false, false)

  /** Rows rendered above and below the visible ones. */
  const BufferSize: nat := 2

  /** `usize` is 32 bits wide on the wasm32 target the client is built for. */
  const UsizeModulus: int := 0x1_0000_0000

  /** `x.floor() as usize` / `x.ceil() as usize`: negative values saturate to 0. */
  function AsUsize(x: int): (r: nat)
    ensures x >= 0 ==> r == x
    ensures x < 0 ==> r == 0
  {
    if x < 0 then 0 else x
  }

  function Ceil(x: real): (r: int)
    ensures x <= r as real < x + 1.0
  {
    -((-x).Floor)
  }

  /** `a.saturating_sub(b)` on `usize`. */
  function SaturatingSub(a: nat, b: nat): (r: nat)
    ensures a >= b ==> r + b == a
    ensures a < b ==> r == 0
  {
    if a >= b then a - b else 0
  }

  /** `a - b` on `usize` in a release build: wraps around modulo 2^32. */
  function WrappingSub(a: nat, b: nat): (r: nat)
    requires a < UsizeModulus && b < UsizeModulus
    ensures a >= b ==> r == a - b
    ensures a < b ==> r == UsizeModulus - (b - a)
  {
    (a - b) % UsizeModulus
  }

  /** The index range the list computes from the scroll offset. */
  datatype Window = Window(start: nat, visible: nat, bufferedStart: nat, bufferedEnd: nat)

  /**
   * The first row under the scroll offset, the number of rows the viewport
   * can show, and the buffered range clipped to the list length.
   */
  function ComputeWindow(scroll: real, viewport: real, itemHeight: real, len: nat): (w: Window)
    requires itemHeight > 0.0
    ensures scroll >= 0.0 ==> w.start as real <= scroll / itemHeight < (w.start + 1) as real
    ensures scroll < 0.0 ==> w.start == 0
    ensures viewport > 0.0 ==> (w.visible - 2) as real < viewport / itemHeight <= (w.visible - 1) as real
    ensures viewport <= 0.0 ==> w.visible == 1
    ensures w.start >= BufferSize ==> w.bufferedStart == w.start - BufferSize
    ensures w.start < BufferSize ==> w.bufferedStart == 0
    ensures w.start + w.visible + BufferSize < len ==> w.bufferedEnd == w.start + w.visible + BufferSize
    ensures w.start + w.visible + BufferSize >= len ==> w.bufferedEnd == len
  {
    var start := AsUsize((scroll / itemHeight).Floor);
    var visible := AsUsize(Ceil(viewport / itemHeight)) + 1;
    var end := start + visible + BufferSize;
    Window(start, visible, SaturatingSub(start, BufferSize), if end < len then end else len)
  }

  /**
   * The first row is the one the scroll offset falls in, and the visible
   * rows are enough to fill the viewport.
   */
  lemma WindowMeaning(scroll: real, viewport: real, itemHeight: real, len: nat)
    requires itemHeight > 0.0
    ensures var w := ComputeWindow(scroll, viewport, itemHeight, len);
      (scroll >= 0.0 ==> w.start as real * itemHeight <= scroll < (w.start + 1) as real * itemHeight)
      && (viewport > 0.0 ==> viewport <= (w.visible - 1) as real * itemHeight)
  {
    var w := ComputeWindow(scroll, viewport, itemHeight, len);
    var q := scroll / itemHeight;
    var v := viewport / itemHeight;
    if scroll >= 0.0 {
      assert w.start as real <= q < (w.start + 1) as real;
      ScaleBounds(w.start as real, q, (w.start + 1) as real, scroll, itemHeight);
    }
    if viewport > 0.0 {
      assert v <= Ceil(v) as real;
      ScaleBounds(v, v, Ceil(v) as real, viewport, itemHeight);
    }
  }

  lemma ScaleBounds(lo: real, q: real, hi: real, x: real, h: real)
    requires h > 0.0 && q == x / h && lo <= q && q <= hi
    ensures lo * h <= x && x <= hi * h
    ensures q < hi ==> x < hi * h
  {
    assert q * h == x;
  }

  /** One rendered row: the episode and the key Yew reconciles it by. */
  datatype Row = Row(episode: Episode, key: string)

  /** `format!("{}-{}", episode.episodeid, *force_update)` */
  function RowKey(id: int, generation: int): (k: string)
    ensures EndsWith(k, "-" + IntToString(generation))
  {
    IntToString(id) + "-" + IntToString(generation)
  }

  /** Two rows of the same generation have the same key only for the same id. */
  lemma RowKeyInjective(a: int, b: int, generation: int)
    requires InI32(a) && InI32(b)
    ensures RowKey(a, generation) == RowKey(b, generation) <==> a == b
  {
    var suffix := "-" + IntToString(generation);
    assert RowKey(a, generation) == IntToString(a) + suffix;
    assert RowKey(b, generation) == IntToString(b) + suffix;
    if RowKey(a, generation) == RowKey(b, generation) {
      CancelSuffix(IntToString(a), IntToString(b), suffix);
      IntToStringInjective(a, b);
    }
  }

  /** The rows for indices `from..to` (empty when `from >= to`). */
  function RenderRows(eps: seq<Episode>, from: nat, to: nat, generation: int): (rows: seq<Row>)
    requires to <= |eps|
    ensures |rows| == if from < to then to - from else 0
    ensures forall k :: 0 <= k < |rows| ==> rows[k].episode == eps[from + k]
    ensures forall k :: 0 <= k < |rows| ==>
      rows[k].key == RowKey(eps[from + k].episodeId, generation)
  {
    var n := if from < to then to - from else 0;
    seq(n, k requires 0 <= k < n => Row(eps[from + k], RowKey(eps[from + k].episodeId, generation)))
  }

  lemma CancelSuffix(x: string, y: string, suffix: string)
    requires x + suffix == y + suffix
    ensures x == y
  {
    assert |x| == |y|;
    assert x == (x + suffix)[..|x|];
    assert y == (y + suffix)[..|y|];
  }

  /** Rows of a list with distinct i32 ids carry distinct keys. */
  lemma RenderedKeysDistinct(eps: seq<Episode>, from: nat, to: nat, generation: int)
    requires to <= |eps| && DistinctIds(eps)
    requires forall i :: 0 <= i < |eps| ==> InI32(eps[i].episodeId)
    ensures var rows := RenderRows(eps, from, to, generation);
      forall j, k :: 0 <= j < k < |rows| ==> rows[j].key != rows[k].key
  {
    var rows := RenderRows(eps, from, to, generation);
    forall j, k | 0 <= j < k < |rows|
      ensures rows[j].key != rows[k].key
    {
      RowKeyInjective(eps[from + j].episodeId, eps[from + k].episodeId, generation);
    }
  }

  /**
   * What the list puts on screen: a top spacer, the rows, a bottom spacer.
   * Each spacer is measured in rows; its CSS height is that count times the
   * row height (`SpacerPx`).
   */
  datatype Layout = Layout(topRows: nat, rows: seq<Row>, bottomRows: nat)

  function SpacerPx(rowCount: int, itemHeight: real): (px: real)
    ensures itemHeight != 0.0 ==> px / itemHeight == rowCount as real
  {
    rowCount as real * itemHeight
  }

  /** A spacer of a non-negative row count is never negative. */
  lemma SpacerPxNonNegative(rowCount: int, itemHeight: real)
    requires itemHeight > 0.0
    ensures SpacerPx(rowCount, itemHeight) >= 0.0 <==> rowCount >= 0
  {
    if rowCount < 0 {
      assert (-rowCount) as real * itemHeight > 0.0;
    }
  }

  /**
   * The bottom spacer exactly as the source computes it,
   * `total_height - offset_y - (buffered_end - buffered_start) as f64 * item_height`,
   * in rows: the `usize` subtraction wraps when the start passes the end.
   */
  function BottomRowsAsWritten(len: nat, w: Window): (rows: int)
    requires w.bufferedStart < UsizeModulus && w.bufferedEnd < UsizeModulus
    ensures w.bufferedStart <= w.bufferedEnd ==> rows == len - w.bufferedEnd
  {
    len - w.bufferedStart - WrappingSub(w.bufferedEnd, w.bufferedStart)
  }

  /**
   * A list scrolled more than two rows past its end (the list shrank under
   * a stale offset) gets a hugely negative bottom spacer: one row of 138px
   * scrolled to 552px.
   */
  lemma BottomSpacerUnderflows()
    ensures var w := ComputeWindow(552.0, 0.0, 138.0, 1);
      w.bufferedStart == 2 && w.bufferedEnd == 1
      && BottomRowsAsWritten(1, w) == -UsizeModulus
      && SpacerPx(BottomRowsAsWritten(1, w), 138.0) < 0.0
  {
    var w := ComputeWindow(552.0, 0.0, 138.0, 1);
    assert 552.0 / 138.0 == 4.0;
    assert w.start == 4;
    assert WrappingSub(1, 2) == UsizeModulus - 1;
  }

  /**
   * The window with its start clamped to its end, so that an offset past
   * the end renders nothing and leaves both spacers non-negative.
   */
  function ClampedWindow(w: Window): (c: Window)
    ensures c.bufferedStart <= c.bufferedEnd == w.bufferedEnd
    ensures w.bufferedStart <= w.bufferedEnd ==> c == w
  {
    if w.bufferedStart <= w.bufferedEnd then w else w.(bufferedStart := w.bufferedEnd)
  }

  /**
   * The layout for a window whose start does not pass its end: the rows of
   * the window between spacers standing in for exactly the other rows.
   */
  function LayoutFor(eps: seq<Episode>, w: Window, generation: int): (l: Layout)
    requires w.bufferedStart <= w.bufferedEnd <= |eps|
    ensures l.topRows + |l.rows| + l.bottomRows == |eps|
    ensures l.topRows == w.bufferedStart
    ensures l.rows == RenderRows(eps, w.bufferedStart, w.bufferedEnd, generation)
  {
    Layout(w.bufferedStart, RenderRows(eps, w.bufferedStart, w.bufferedEnd, generation), |eps| - w.bufferedEnd)
  }

  /** What the list renders for a scroll offset, viewport height and row height. */
  function ViewLayout(eps: seq<Episode>, scroll: real, viewport: real, itemHeight: real, generation: int): (l: Layout)
    requires itemHeight > 0.0
    ensures l.topRows + |l.rows| + l.bottomRows == |eps|
    ensures forall k :: 0 <= k < |l.rows| ==> l.rows[k].episode == eps[l.topRows + k]
  {
    LayoutFor(eps, ClampedWindow(ComputeWindow(scroll, viewport, itemHeight, |eps|)), generation)
  }

  /** The spacers and rows together are exactly as tall as the whole list. */
  lemma LayoutHeightConserved(l: Layout, len: nat, itemHeight: real)
    requires l.topRows + |l.rows| + l.bottomRows == len
    ensures SpacerPx(l.topRows, itemHeight) + SpacerPx(|l.rows|, itemHeight)
      + SpacerPx(l.bottomRows, itemHeight) == SpacerPx(len, itemHeight)
  {
  }

  /** The bottom spacer agrees with the one in the source whenever no wrap occurs. */
  lemma LayoutAgreesWhenInRange(eps: seq<Episode>, w: Window, generation: int)
    requires w.bufferedStart <= w.bufferedEnd <= |eps| < UsizeModulus
    ensures LayoutFor(eps, w, generation).bottomRows == BottomRowsAsWritten(|eps|, w)
  {
  }

  /** `a * h < x` bounds `a` by `x / h` when `h` is positive. */
  lemma BelowQuotient(a: real, x: real, h: real)
    requires h > 0.0 && a * h < x
    ensures a < x / h
  {
    var q := x / h;
    assert q * h == x;
    if q <= a {
      assert q * h <= a * h;
    }
  }

  /** `x < a * h` bounds `x / h` by `a` when `h` is positive. */
  lemma AboveQuotient(a: real, x: real, h: real)
    requires h > 0.0 && x < a * h
    ensures x / h < a
  {
    var q := x / h;
    assert q * h == x;
    if a <= q {
      assert a * h <= q * h;
    }
  }

  lemma QuotientSum(x: real, y: real, h: real)
    requires h > 0.0
    ensures (x + y) / h == x / h + y / h
  {
  }

  /** A row is on screen when its box meets the viewport. */
  predicate OnScreen(i: nat, scroll: real, viewport: real, itemHeight: real) {
    i as real * itemHeight < scroll + viewport && scroll < (i + 1) as real * itemHeight
  }

  /**
   * Every row whose box meets the viewport is rendered: the window never
   * leaves a visible gap.
   */
  lemma WindowCoversViewport(len: nat, scroll: real, viewport: real, itemHeight: real, i: nat)
    requires itemHeight > 0.0 && scroll >= 0.0 && viewport >= 0.0
    requires i < len && OnScreen(i, scroll, viewport, itemHeight)
    ensures var w := ClampedWindow(ComputeWindow(scroll, viewport, itemHeight, len));
      w.bufferedStart <= i < w.bufferedEnd
  {
    var w := ComputeWindow(scroll, viewport, itemHeight, len);
    AboveQuotient((i + 1) as real, scroll, itemHeight);
    BelowQuotient(i as real, scroll + viewport, itemHeight);
    QuotientSum(scroll, viewport, itemHeight);
    var q := scroll / itemHeight;
    var v := viewport / itemHeight;
    assert q < (i + 1) as real && (i as real) < q + v;
    assert w.start <= i;
    assert w.visible == Ceil(v) + 1;
    assert i < w.start + w.visible;
  }

  /** At most the visible rows and both buffers are rendered. */
  lemma RowsBounded(eps: seq<Episode>, scroll: real, viewport: real, itemHeight: real, generation: int)
    requires itemHeight > 0.0
    ensures var w := ComputeWindow(scroll, viewport, itemHeight, |eps|);
      |ViewLayout(eps, scroll, viewport, itemHeight, generation).rows| <= w.visible + 2 * BufferSize
  {
  }

  // ---------------------------------------------------------------------
  // Component state: resize and scroll listeners

  /** The component's state handles. */
  datatype ListState = ListState(scrollPos: real, viewport: real, itemHeight: real, generation: int)

  /** Values before the first resize: offset 0, viewport 0, row height 234. */
  const InitialState := ListState(0.0, 0.0, 234.0, 0)

  predicate ValidState(s: ListState) {
    s.itemHeight > 0.0 && InI32(s.generation)
  }

  /** The browser window's inner height and width when the listener fires. */
  datatype WindowSize = WindowSize(innerHeight: real, innerWidth: real)

  /**
   * The resize listener as written. It is installed once at mount, so the
   * `*force_update` it reads is the value captured at mount, always 0: every
   * resize sets the generation to 1.
   */
  function ResizeAsWritten(s: ListState, size: WindowSize): (r: ListState)
    ensures r.viewport == size.innerHeight - 100.0
    ensures r.itemHeight == ItemHeight(size.innerWidth)
    ensures r.scrollPos == s.scrollPos
    ensures ValidState(r)
  {
    ListState(s.scrollPos, size.innerHeight - 100.0, ItemHeight(size.innerWidth), InitialState.generation + 1)
  }

  /** After a second resize every row keeps the key it had after the first. */
  lemma ResizeAsWrittenKeepsKeys(size1: WindowSize, size2: WindowSize, id: int)
    ensures var once := ResizeAsWritten(InitialState, size1);
      RowKey(id, ResizeAsWritten(once, size2).generation) == RowKey(id, once.generation)
  {
  }

  /** `(g + 1)` on `i32` in a release build. */
  function WrapI32Inc(g: int): (r: int)
    requires InI32(g)
    ensures InI32(r) && r != g
    ensures g < I32Max ==> r == g + 1
    ensures g == I32Max ==> r == I32Min
  {
    WrapI32(g + 1)
  }

  /**
   * The resize listener with the generation read from the current state,
   * as the `force_update` name intends: every resize moves to a new
   * generation.
   */
  function Resize(s: ListState, size: WindowSize): (r: ListState)
    requires ValidState(s)
    ensures r.viewport == size.innerHeight - 100.0
    ensures r.itemHeight == ItemHeight(size.innerWidth)
    ensures r.scrollPos == s.scrollPos
    ensures ValidState(r) && r.generation != s.generation
  {
    ListState(s.scrollPos, size.innerHeight - 100.0, ItemHeight(size.innerWidth), WrapI32Inc(s.generation))
  }

  /** After a resize no row keeps its previous key, so every row remounts. */
  lemma ResizeRenewsKeys(s: ListState, size: WindowSize, id: int)
    requires ValidState(s)
    ensures RowKey(id, Resize(s, size).generation) != RowKey(id, s.generation)
  {
    var g1 := s.generation;
    var g2 := Resize(s, size).generation;
    var p := IntToString(id) + "-";
    assert RowKey(id, g1) == p + IntToString(g1);
    assert RowKey(id, g2) == p + IntToString(g2);
    if RowKey(id, g1) == RowKey(id, g2) {
      assert IntToString(g1) == RowKey(id, g1)[|p|..] == RowKey(id, g2)[|p|..] == IntToString(g2);
      IntToStringInjective(g1, g2);
    }
  }

  /** A viewport shorter than 100px leaves a negative height, which renders one row. */
  lemma ShortWindowRendersOneRow(s: ListState, size: WindowSize, len: nat)
    requires ValidState(s) && size.innerHeight <= 100.0
    ensures var r := Resize(s, size);
      ComputeWindow(r.scrollPos, r.viewport, r.itemHeight, len).visible == 1
  {
  }

  /**
   * The scroll listener's state: the published offset (`scroll_pos`), the
   * `is_updating` flag, and the offset the pending animation frame will
   * publish.
   */
  datatype ScrollGuard = ScrollGuard(published: real, updating: bool, pending: real)

  const InitialGuard := ScrollGuard(0.0, false, 0.0)

  /**
   * A scroll event as written. Events that arrive while a frame is pending
   * are dropped. The offset is compared with `captured`, the value of
   * `scroll_pos` when the listener was installed at mount (0.0), not with
   * the published one.
   */
  function OnScrollAsWritten(g: ScrollGuard, offset: real, captured: real): (r: ScrollGuard)
    ensures g.updating ==> r == g
    ensures !g.updating && offset != captured ==> r == ScrollGuard(g.published, true, offset)
    ensures !g.updating && offset == captured ==> r == g
  {
    if g.updating then g
    else if offset != captured then ScrollGuard(g.published, true, offset)
    else g
  }

  /** The animation frame: publishes the pending offset and clears the flag. */
  function OnFrame(g: ScrollGuard): (r: ScrollGuard)
    ensures !r.updating
    ensures g.updating ==> r.published == g.pending
    ensures !g.updating ==> r == g
  {
    if g.updating then ScrollGuard(g.pending, false, g.pending) else g
  }

  /**
   * Scrolling straight back to the top (one event at offset 0, e.g. the
   * Home key) from a published offset of 5000px is ignored. The list keeps
   * rendering from row 34 while the viewport shows row 0.
   */
  lemma ScrollToTopIsLost()
    ensures var g := OnFrame(OnScrollAsWritten(ScrollGuard(5000.0, false, 5000.0), 0.0, InitialGuard.published));
      g.published == 5000.0
      && ComputeWindow(g.published, 600.0, 138.0, 100).bufferedStart == 34
      && OnScreen(0, 0.0, 600.0, 138.0)
  {
    var w := ComputeWindow(5000.0, 600.0, 138.0, 100);
    assert 36.0 * 138.0 <= 5000.0 < 37.0 * 138.0;
    assert w.start == 36;
  }

  /** An offset arriving while a frame is pending is lost, even the last one. */
  lemma LastOffsetDropped()
    ensures var g1 := OnScrollAsWritten(InitialGuard, 5000.0, 0.0);
      OnFrame(OnScrollAsWritten(g1, 10.0, 0.0)).published == 5000.0
  {
  }

  /**
   * A scroll event with the comparison against the published offset and
   * the latest offset winning while a frame is pending.
   */
  function OnScroll(g: ScrollGuard, offset: real): (r: ScrollGuard)
    ensures r.published == g.published
    ensures r.updating ==> r.pending == offset
    ensures !r.updating ==> r.published == offset
    ensures g.updating ==> r.updating
  {
    if g.updating then g.(pending := offset)
    else if offset != g.published then ScrollGuard(g.published, true, offset)
    else g
  }

  function OnScrollAll(g: ScrollGuard, offsets: seq<real>): ScrollGuard
    decreases |offsets|
  {
    if |offsets| == 0 then g else OnScrollAll(OnScroll(g, offsets[0]), offsets[1..])
  }

  /** After a burst of events the guard is set to publish the last offset. */
  lemma {:induction false} OnScrollAllTracksLast(g: ScrollGuard, offsets: seq<real>)
    requires |offsets| > 0
    ensures var r := OnScrollAll(g, offsets);
      (r.updating ==> r.pending == offsets[|offsets| - 1])
      && (!r.updating ==> r.published == offsets[|offsets| - 1])
    decreases |offsets|
  {
    if |offsets| > 1 {
      OnScrollAllTracksLast(OnScroll(g, offsets[0]), offsets[1..]);
    }
  }

  /** Once the frame after a burst runs, the published offset is the last one scrolled to. */
  lemma ScrollSettlesOnLastOffset(g: ScrollGuard, offsets: seq<real>)
    requires |offsets| > 0
    ensures OnFrame(OnScrollAll(g, offsets)).published == offsets[|offsets| - 1]
  {
    OnScrollAllTracksLast(g, offsets);
  }
}

=== FILE: wrappers.dfy ===
/**
 * Option and Result, the two carriers the client and the server use for
 * "maybe absent" state fields and for fallible requests.
 */
module Wrappers {

  /** A possibly-absent value (Rust `Option<T>`). */
  datatype Option<+T> = None | Some(value: T) {
    function UnwrapOr(default: T): (r: T)
      ensures Some? ==> r == value
      ensures None? ==> r == default
    {
      match this
      case Some(v) => v
      case None => default
    }
  }

  /** The outcome of a fallible operation (Rust `Result<T, E>`). */
  datatype Result<+T, +E> = Ok(value: T) | Err(error: E) {
    predicate IsOk() { Ok? }
  }
}
